=== FILE: README.md ===
# ThermaBridge firmware core, modelled in Dafny

ThermaBridge is ESP32 firmware for a Wi-Fi bridge. It boots into one of two modes:

- **Station mode**, when a stored configuration exists and the device connects to the configured network. A small status server then runs.
- **Provisioning mode** otherwise. The device runs its own access point ("ThermaBridge-XXXX") with a captive DNS responder and a web portal for entering credentials.

Holding the BOOT button erases the stored configuration and restarts the device. Two build-time Python helpers sit next to the firmware: one checks that the LittleFS image is in sync with `data/`, and one validates the generated build-info header.

The model is functional. Hardware, radio, filesystem and clock become inputs:

- **Filesystem.** A record of what each LittleFS call will do, plus the one configuration file. The file holds its text and the key/value document the JSON parser makes of it.
- **Radio.** A sequence of status samples, one per pass of the connect wait.
- **BOOT button.** One `ButtonInput` per reset check: a gate read, then the reads of the hold loop taken every 200 ms.
- **Effects.** Whatever the firmware does to the outside world is appended to an effect log (`Effects.Effect`): mode changes, server starts, replies sent, restarts.

Modules follow the source files:

| module | models |
|---|---|
| `Hal`, `Text`, `Effects` | pin levels, Wi-Fi status codes, fixed-width integers; decimal, hex and masking helpers; the effect log |
| `ConfigStore` | src/config.cpp: `loadConfig`, `saveConfig`, `eraseConfig` |
| `FactoryReset` | src/system.cpp: the hold clamp, the hold loop, `factoryResetAction` |
| `ConnectWait` | the bounded 15 s connect wait shared by `setup`, `tryConnectWifi` and `/save` |
| `InitSteps` | src/init.cpp: `initFileSystem`, `tryLoadConfig`, `tryConnectWifi` |
| `Provisioning` | src/provisioning.cpp: AP name, start and loop routines, routing, every handler |
| `Boot` | src/main.cpp: `setup` as a step machine plus a compositional reference, and one `loop()` iteration |
| `Led` | src/led.cpp: scaling, backend choice, blink, reset visual |
| `Encoder` | src/encoder.cpp: the KY-040 driver |
| `Display` | src/display.cpp: text size, uptime string, menu index, window, selection, config screen |
| `LittlefsSync` | scripts/check_littlefs_sync.py |
| `ValidateConfig` | scripts/validate_config.py |

How `setup` is modelled:

- `Boot.Step` and `Boot.Run` form the state machine. Its phases are mount, load, each pass of the wait, the final connected check, and the three ways `setup` ends.
- `Boot.SetupSpec` is the same sequence assembled from the other modules' step functions.
- `Boot.SetupMatchesSpec` proves the two agree on every input. The boot properties are stated about the machine and proved through the reference.

## Model

| member | source | states |
|---|---|---|
| ConfigStore.AllWhitespace | src/config.cpp:31-39 | the `is_blank` scan is true exactly when every character is a space or a horizontal tab, the characters Arduino's `isWhitespace` accepts |
| ConfigStore.ReadDocument | src/config.cpp:12-23 | a document is obtained exactly when the mount, the existence check, the open and the parse all succeed |
| ConfigStore.LoadConfig | src/config.cpp:10-47 | any mount/exists/open/parse failure returns false with the record untouched; a parsed document overwrites the four fields, each with the document's value or its default; success iff a document was read and the SSID is not blank; OTA password, mDNS flag and peripheral settings are never touched |
| ConfigStore.LoadDefaults | src/config.cpp:24-27 | missing keys load as ssid "", psk "", devname "ThermaBridge", hold 10, and a missing SSID fails the load |
| ConfigStore.U16Or | src/config.cpp:27 | a stored 32-bit integer is taken modulo 65536, as the `uint16_t` assignment does; anything else, or no value, gives the default |
| ConfigStore.BlankSsidRejectedAfterOverwrite | src/config.cpp:24-44 | an empty SSID, or one of spaces and tabs only, fails the load whatever else the document holds, but the four fields have already been overwritten from the document |
| ConfigStore.ZeroHoldLoadedAsZero | src/config.cpp:27 | a stored hold of 0 loads as 0; the default is not applied at load time |
| ConfigStore.StoredHoldWraps | src/config.cpp:27 | a stored hold `n` loads as `n` mod 65536, so a negative hold above -65536 loads as `n` + 65536 |
| ConfigStore.SavedDocument | src/config.cpp:56-60 | the saved document has exactly the keys ssid, psk, devname, reset_hold_seconds |
| ConfigStore.SaveConfig | src/config.cpp:49-68 | true iff the mount and the open succeed and the write puts down at least one character; a mount or open failure changes nothing; otherwise the file holds the serialised record, cut off where the flash runs out of room, and it parses back to the four-key document exactly when all of it fit |
| ConfigStore.SaveThenLoad | src/config.cpp:10-68 | after a successful save of a non-blank SSID, loading succeeds iff the whole record fit and the file opens for reading; it then yields the same four fields and leaves the rest of the record alone; otherwise the record is untouched |
| ConfigStore.TruncatedSaveReportsSuccess | src/config.cpp:61-67 | a write that runs out of room part-way reports success, yet the file it leaves does not load |
| ConfigStore.SaveBlankThenLoadFails | src/config.cpp:41-68 | a saved record whose SSID is empty or only spaces and tabs loads as "not configured" |
| ConfigStore.EraseConfig | src/config.cpp:70-79 | an unmounted store fails; an absent file is success; otherwise the result is what remove returns; after success the file is absent; a failure changes nothing |
| ConfigStore.EraseIdempotent | src/config.cpp:70-79 | a second erase after a successful one succeeds and changes nothing |
| ConfigStore.EraseThenLoad | src/config.cpp:12-15 | after a successful erase, loading returns false and leaves the record untouched |
| FactoryReset.EffectiveHoldSeconds | src/system.cpp:33 | the hold used is the configured seconds when positive, else 10, and is always positive |
| FactoryReset.HoldLoop | src/system.cpp:37-45 | a release is reported at the time of the read that saw it: never before the current read and, unless it is the current read, before the hold plus one 200 ms period is over |
| FactoryReset.FiringRead | src/system.cpp:39 | the firing read is the first read at least `holdMs` after the loop started |
| FactoryReset.HoldLoopFiresIff | src/system.cpp:37-45 | the loop fires iff every read from the current one through the firing read is LOW |
| FactoryReset.FactoryResetAction | src/system.cpp:11-29 | in order: clear the "thermabridge" preferences, erase the config file, show the visual, restart; the restart comes last and whatever the erase returned |
| FactoryReset.CheckFactoryReset | src/system.cpp:31-48 | a HIGH gate read does nothing; without firing there are no effects, the store is unchanged and the watch lasted less than the hold plus 200 ms; firing runs the reset action |
| FactoryReset.CheckFiresIff | src/system.cpp:31-48 | fires iff the gate read is LOW and every read through the one at hold × 1000 ms is LOW |
| FactoryReset.ExactHoldTriggers | src/system.cpp:39-42 | a hold that lasts exactly hold × 1000 ms fires, ends in a restart and erases the file |
| FactoryReset.OneReadShortDoesNothing | src/system.cpp:37-47 | releasing one 200 ms read earlier does nothing at all |
| FactoryReset.EarlyReleaseIsHarmless | src/system.cpp:37-47 | any release before the hold duration neither erases nor restarts |
| ConnectWait.WaitTick | src/main.cpp:56-63 | one pass: times out iff the budget is spent; stops connected iff the sample is connected in time; stops with a reset iff the check ran and fired; otherwise at least 200 ms pass |
| ConnectWait.WaitLoop | src/main.cpp:54-63 | the wait stops at the first connected sample; every earlier reset check came to nothing; a reset exit carries exactly the reset's effects; it times out iff the elapsed time reaches the budget; each pass costs at least 200 ms, exactly 200 ms when nobody holds the button |
| ConnectWait.WaitIsBounded | src/main.cpp:54-63 | with the 15 s budget the wait runs at most 75 passes, and ends within 15000 ms when nobody touches the button |
| ConnectWait.EarlyConnectionWins | src/main.cpp:56-59 | a connected sample before the budget is spent, with nobody at the button, always ends the wait connected |
| ConnectWait.ConnectedAfterAgreesWithExit | src/main.cpp:54-65 | a wait that stopped on a connection reads connected afterwards; one cut short by a reset does not |
| InitSteps.InitFileSystem | src/init.cpp:34-53 | true iff the first mount succeeds or format and remount both do; a mounted store is left alone; a failed mount formats exactly once, wiping the file |
| InitSteps.FormatOnlyAfterFailedMount | src/init.cpp:36-41 | the format appears once after a failed mount and never otherwise |
| InitSteps.TryLoadConfig | src/init.cpp:55-64 | the result is `loadConfig`'s; a successful load starts nothing; the portal starts exactly when the load fails on a mounted store; the status server flag is untouched |
| InitSteps.OtaEffects | src/init.cpp:88-93 | the OTA hostname comes first and begin last; the password is set exactly when one is configured |
| InitSteps.EncoderEffects | src/init.cpp:95-100 | the encoder is created once, on its three configured pins, exactly when enabled |
| InitSteps.MdnsEffects | src/init.cpp:103-114 | nothing unless mDNS is enabled; then begin first; the HTTP service is registered exactly when begin succeeded |
| InitSteps.ActivationEffects | src/init.cpp:86-102 | the connected branch starts with the status server, then OTA |
| InitSteps.ActivationFollowsSettings | src/init.cpp:86-114 | OTA always begins; the OTA password, the encoder and mDNS each appear exactly when configured |
| InitSteps.ActivationStartsOneServer | src/init.cpp:86-114 | the connected branch starts the status server exactly once and never the portal, a connection or a restart |
| InitSteps.TryConnectWifi | src/init.cpp:66-123 | true iff the read after the wait is connected and no reset fired; a fired reset returns at once with nothing started and the restart last; connected starts the station services; otherwise the portal starts |
| InitSteps.MdnsFailureIsNotFatal | src/init.cpp:103-116 | the result and the server flags do not depend on whether mDNS began |
| InitSteps.EarlyConnectionActivates | src/init.cpp:72-86 | a connection seen within the default budget, with nobody at the button, returns true with the status server active |
| Provisioning.MacSuffixHex | src/provisioning.cpp:18-25 | four upper-case hex digits that denote mac[4] then mac[5] |
| Provisioning.MacSuffixDeterminesBytes | src/provisioning.cpp:18-25 | two suffixes are equal iff the last two MAC bytes are |
| Provisioning.ApSsid | src/provisioning.cpp:307 | the AP name is "ThermaBridge-" followed by the MAC suffix, 17 characters |
| Provisioning.StartProvisioning | src/provisioning.cpp:299-332 | an unmounted store leaves everything as it was; otherwise the AP, DNS on port 53 and the portal start in that order and provisioning becomes active; it never starts the status server or a station connection |
| Provisioning.StartStatusServer | src/provisioning.cpp:213-290 | the status server begins once and becomes active; the portal flag is kept and the portal is not started |
| Provisioning.LoopProvisioning | src/provisioning.cpp:334-340 | the portal loop does work exactly when provisioning is active |
| Provisioning.ServeLoopProvisioning | src/provisioning.cpp:334-340 | the DNS and client calls come first, only when provisioning is active; a pending request is routed through the portal; the device restarts iff a served `/save` saved and saw the association, with the restart last; only a served `/save` changes the store, as `handleSave` leaves it |
| Provisioning.ServedPortalEffects | src/provisioning.cpp:317-325 | `/save` leaves the store as `handleSave` does; every other route leaves it alone; a static file never restarts; what is served is portal work ending in a restart exactly when the save restarts |
| Provisioning.OtherRouteEffects | src/provisioning.cpp:317-325 | every route but `/save` keeps the store, never restarts, and answers with portal work only |
| Provisioning.SaveRouteServes | src/provisioning.cpp:322 | the portal's `/save` route is `handleSave`, whose reply, effects and store are the portal's |
| Provisioning.HandleSaveEffects | src/provisioning.cpp:34-87 | `handleSave` only sends, reconfigures the radio and restarts, and the restart is its last effect exactly when the save succeeded and the read after the wait is connected |
| Provisioning.PortalConcat | src/provisioning.cpp:334-340 | the DNS and client calls followed by a served request are still portal work, ending in a restart exactly when the request's work does |
| Provisioning.AttemptIsPortalWork | src/provisioning.cpp:59-86 | a lone reply, or the reply followed by disconnect, station mode and begin and then a restart exactly when connected, is portal work |
| Provisioning.LoopStatusServer | src/provisioning.cpp:292-297 | the status loop does work exactly when the status server is active |
| Provisioning.UnmountedPortalStaysIdle | src/provisioning.cpp:301-305 | a portal whose mount failed stays inactive and its loop does nothing |
| Provisioning.SavedPage | src/provisioning.cpp:57-59 | the acknowledgement page contains the submitted SSID |
| Provisioning.HandleSave | src/provisioning.cpp:34-87 | the reply is always sent first; non-POST is 405 and an empty SSID is 400, both leaving the store alone; 500 iff the save fails; 200 iff it succeeds, with an HTML page naming the SSID, then disconnect, station mode and begin with the form's credentials; the wait is the 15 s connection wait over the radio's samples, with no reset button, on the saved store; a restart follows iff the read after that wait is connected |
| Provisioning.SaveWaitIsBounded | src/provisioning.cpp:67-74 | the wait inside `/save` never involves the reset button and ends within 15000 ms |
| Provisioning.WhitespaceSsidSavedButUnusable | src/provisioning.cpp:45-60 | any non-empty SSID made only of spaces and tabs is accepted and saved (200), yet the stored record loads as "not configured" |
| Provisioning.StatusReportOf | src/provisioning.cpp:127-162 | `configured` is the load result; the string fields are empty when unconfigured; the masked PSK is all `*`, one per byte the PSK occupies; the IP is shown only when connected |
| Provisioning.RenderStatus | src/provisioning.cpp:130-162 | the reply opens with the `configured` flag, closes with `}`, and carries the SSID and the masked PSK as quoted fields |
| Provisioning.StatusHidesPsk | src/provisioning.cpp:135-140 | two stores whose records differ only in PSKs of the same byte length give the same `/status` reply |
| Provisioning.StatusWithoutRecord | src/provisioning.cpp:130-161 | with no file and no connection, `/status` reports unconfigured with every string empty |
| Provisioning.HandleStatus | src/provisioning.cpp:127-164 | `/status` always answers 200 with JSON, and the body is the rendering of the load result and the radio status |
| Provisioning.SendConfigFile | src/provisioning.cpp:181-199 | 404 iff the file is absent; 500 iff it exists but does not open for reading; else 200 with the file's exact text |
| Provisioning.ConfigServesSavedText | src/provisioning.cpp:181-199 | after a successful save, `/config` serves what was written: a non-empty prefix of the serialised record, all of it when it fit; 500 when the file does not open for reading |
| Provisioning.PortalRouteOf | src/provisioning.cpp:317-328 | only a POST reaches `/save`; any other POST falls to the fallback |
| Provisioning.GetSaveIsRedirected | src/provisioning.cpp:317-322 | GET `/save` is handled by the captive fallback, not by `handleSave` |
| Provisioning.ServePortal | src/provisioning.cpp:27-32 | every route except `/save` leaves the store alone and sends one reply; unknown requests get the 302 redirect |
| Provisioning.CaptiveRedirectLandsOnIndex | src/provisioning.cpp:27-32 | an unknown request gets a 302 with an empty body to the root of the AP address, leaving the store alone, and a GET of that root is routed to the static `/index.html` handler |
| Provisioning.StationRouteOf | src/provisioning.cpp:216-277 | the station server answers GET only |
| Provisioning.ServeStation | src/provisioning.cpp:216-275 | the station server answers `/status` and the two config paths, and only for GET |
| Provisioning.StationAgreesWithPortal | src/provisioning.cpp:238-270 | whatever the station server answers, the portal answers the same request identically, leaving the store alone |
| Boot.Decide | src/main.cpp:65-75 | after the wait, the status server starts iff the read is connected; otherwise the portal starts |
| Boot.Step | src/main.cpp:15-76 | the effect log only grows, and the phases follow `setup`'s order: mount, load, the passes of the wait, the decision |
| Boot.StepDecreasesRank | src/main.cpp:15-76 | every step of `setup` makes progress, so `setup` returns |
| Boot.Run | src/main.cpp:15-76 | running the machine always ends in one of the three end phases |
| Boot.Setup | src/main.cpp:15-76 | `setup` from power-on always ends in portal mode, station mode or a reset restart |
| Boot.RunFromWaiting | src/main.cpp:54-75 | running from any pass of the wait is running the whole connect wait, then the decision |
| Boot.SetupMatchesSpec | src/main.cpp:15-76 | the step machine and the compositional reference agree on every input |
| Boot.SetupFormatsOnlyAfterFailedMount | src/main.cpp:27-40 | a format happens exactly once when the first mount fails, and never otherwise |
| Boot.SetupAlwaysLoads | src/main.cpp:42-43 | loading runs whatever the mount step did, and the global record is what the load left |
| Boot.NoConfigOpensPortal | src/main.cpp:43-48 | without a usable record the portal starts (if the store mounts), and no station connection or status server is started |
| Boot.ConfigBeginsConnection | src/main.cpp:50-52 | with a usable record, station mode and begin with the loaded SSID and PSK follow the mount effects; a portal fallback is active |
| Boot.ResetDuringWaitStartsNothing | src/main.cpp:58-61 | a reset during the wait ends `setup` with a restart, no server started and the file erased |
| Boot.SetupEndsInOneMode | src/main.cpp:65-75 | unless reset, `setup` ends in exactly one mode: the status server started and not the portal, or the portal started once (if mounted) and not the status server; no restart |
| Boot.SilentWaitTimesOut | src/main.cpp:54-63 | with no connection and nobody at the button the wait times out after exactly 75 passes and 15000 ms |
| Boot.UnreachableNetworkFallsBackOnce | src/main.cpp:54-75 | a usable record and an unreachable network: the full 15 s wait, then exactly one portal start and no restart |
| Boot.LoopOnce | src/main.cpp:78-89 | the iteration restarts iff the portal's `/save` restarted the device or the reset check, run on the store the portal left, fires; a restart inside the portal ends the iteration there; a non-restarting iteration keeps the store the portal left and logs no restart; without a served `/save` or a fired reset the store is unchanged |
| Boot.LoopOnceShape | src/main.cpp:78-89 | the portal's work opens every iteration; the servers and the configuration in memory are untouched; a restarting iteration ends with the restart and leaves the LED state alone |
| Boot.AfterPortal | src/main.cpp:83-88 | after a portal restart nothing else runs; otherwise the iteration restarts iff the reset check fires, and only then is the store changed beyond what the portal did |
| Boot.ResetPreemptsServerAndLed | src/main.cpp:83-88 | an iteration whose reset check fires restarts, serves no status request and runs no `ledLoop` step (the reset visual is its only light), and erases the file unless a `/save` already restarted the device |
| Boot.ResetIterationIsQuiet | src/main.cpp:80-85 | the portal's work followed by the reset sequence serves no status request and shows no LED colour |
| Boot.PortalIsQuiet | src/provisioning.cpp:334-340 | the portal's work never serves the status server or sets the LED |
| Boot.QuietIterationServes | src/main.cpp:80-88 | with nobody at the button, the iteration restarts iff the portal served a `/save` that saved and connected; the store is the one the portal left; the status server is served iff it is active and nothing restarted; the portal is served iff it is active |
| Boot.SaveRestartPreemptsLoop | src/main.cpp:80-81 | a served `/save` that saves and connects restarts the device before the reset check, the status server or the LED run, whatever the button does, leaving the store `handleSave` wrote |
| Led.Scale | src/led.cpp:19-22 | the result is at most 3 and is ⌊3v/255⌋ |
| Led.ScaleMonotone | src/led.cpp:19-22 | brighter input never gives a dimmer output |
| Led.SelectBackend | src/led.cpp:42-54 | NeoPixel when available and allocated, else PWM when attached, else the plain pin |
| Led.LedInit | src/led.cpp:24-38 | after `ledInit` the NeoPixel backend is always chosen |
| Led.Drive | src/led.cpp:40-89 | a NeoPixel shows amber as (3, 2, 0), green as (0, 3, 0) and off as black; PWM and the plain pin have one "on" value for both colours and one "off" value |
| Led.DriveDistinguishes | src/led.cpp:40-89 | every backend tells "on" from "off", and a NeoPixel tells amber from green |
| Led.VisualIsFlashSequence | src/led.cpp:91-130 | each backend's transcription of the reset visual is two flashes and a final "on" built from its colour routines |
| Led.FactoryResetVisual | src/led.cpp:91-130 | nine events on the chosen backend: amber 300 ms, off 200 ms, twice, then green |
| Led.FactoryResetVisualIsScript | src/led.cpp:91-130 | on every backend the visual is the colour script amber 300 ms, off 200 ms, twice, then solid green: nine events ending in green |
| Led.LedLoop | src/led.cpp:132-151 | within 750 ms of the last toggle nothing happens; otherwise the phase flips; when on, provisioning shows amber, else a connection shows green, else off; when off, off |
| Led.BlinkAlternates | src/led.cpp:134-150 | two toggles restore the phase, and at least one of them shows off |
| Encoder.Click | src/encoder.cpp:21-32 | the position moves by at most one, only on a rising CLK edge, up iff DT is LOW |
| Encoder.Update | src/encoder.cpp:15-45 | the previous levels become the sample's; the position moves by the click; pressed iff the switch went from HIGH to LOW; pins unchanged |
| Encoder.NewEncoder | src/encoder.cpp:3-4 | a new encoder is at position 0, not pressed, with both previous levels HIGH and the given pins |
| Encoder.Begin | src/encoder.cpp:6-13 | `begin` keeps the position, the press flag and the pins, and takes the previous CLK and switch levels from the reads |
| Encoder.UpdatesCountClicks | src/encoder.cpp:15-45 | over any trace the position moves by the net clicks, and the press flag reflects only the last sample's edge |
| Encoder.NetBoundedByEdges | src/encoder.cpp:22-31 | the net movement never exceeds the number of rising edges |
| Encoder.FirstUpdateNeverMoves | src/encoder.cpp:3-4 | straight after construction the first update never moves, and reports a press iff the switch reads LOW |
| Encoder.BeginPreventsSpuriousEdges | src/encoder.cpp:6-13 | after `begin`, an update that reads the same levels moves nothing and reports no press |
| Encoder.HeldButtonPressesOnce | src/encoder.cpp:36-43 | a switch held down reports one press only |
| Encoder.SteadyClockDoesNotMove | src/encoder.cpp:22 | a steady CLK never moves the position |
| Display.GetOptimalTextSize | src/display.cpp:14-24 | the size is in 1..3; a size above 1 fits the text's byte length; every larger size does not fit |
| Display.FormatUptime | src/display.cpp:103-121 | the string ends in seconds exactly below one hour |
| Display.UptimeReadsBack | src/display.cpp:103-121 | the uptime string reads back in the shape its magnitude selects (days from one day, hours from one hour), with every field in range and the total matching the seconds since boot |
| Display.CRem | src/display.cpp:292 | C's truncating remainder: smaller than the divisor in magnitude, with the dividend's sign |
| Display.NextMenuIndex | src/display.cpp:292-294 | the new index is in 0..3 and congruent to the old index plus the movement, modulo 4 |
| Display.NextMenuIndexUnique | src/display.cpp:292-294 | those two facts determine the index |
| Display.WindowStart | src/display.cpp:203-211 | with 4 items and 6 rows the window starts at 0; when scrolling it stays in the list and keeps the current item visible |
| Display.MenuLines | src/display.cpp:197-222 | all four items are shown in order, and the cursor marks exactly the current row |
| Display.MenuSelect | src/display.cpp:224-241 | an index in range selects the item with that label (status, config, climate, reboot); anything else does nothing |
| Display.ConfigScreen | src/display.cpp:133-145 | the SSID and device name in clear; the PSK as one `*` per byte of its text |
| Display.ConfigScreenHidesPsk | src/display.cpp:139-142 | records that differ only in PSKs of the same byte length show the same screen |
| Display.MenuStep | src/display.cpp:279-304 | the first pass records the position without moving; later movement moves the index by the rotation modulo 4; a redraw iff first or moved; a press selects the current item |
| Display.MenuTracksRotation | src/display.cpp:289-298 | over any sequence of passes the index moves by the total rotation, modulo 4 |
| Display.FirstPassKeepsIndex | src/display.cpp:279-287 | from power-on the first pass keeps index 0 and draws the menu |
| Text.DecimalRoundTrip | src/display.cpp:111-119 | a rendered counter reads back as its value |
| Text.DecimalStringInjective | src/display.cpp:111-119 | distinct numbers never render alike |
| Text.Mask | src/provisioning.cpp:135-140 | the mask is all `*` and as long as the secret's UTF-8 encoding, the length `String::length()` reports |
| Text.MaskRevealsOnlyByteLength | src/provisioning.cpp:135-140 | two masks are equal iff the secrets occupy the same number of bytes |
| Text.Hex2 | src/provisioning.cpp:23 | `%02X` gives two upper-case hex digits denoting the byte |
| LittlefsSync.SortPaths | scripts/check_littlefs_sync.py:41 | the sort is a sorted permutation of the walked paths |
| LittlefsSync.SortedUnique | scripts/check_littlefs_sync.py:41 | two sorted lists holding the same paths are the same list |
| LittlefsSync.WalkOrderIrrelevant | scripts/check_littlefs_sync.py:36-42 | the digest does not depend on the order the walk visited the files in |
| LittlefsSync.FrameDeterminesContents | scripts/check_littlefs_sync.py:44-55 | a frame (path, NUL, size, NUL, contents, two NULs) determines the contents, so emptying or editing a file changes the digest input |
| LittlefsSync.ReadHashFile | scripts/check_littlefs_sync.py:59-68 | nothing for a missing, unreadable or blank file; otherwise a non-empty, stripped text without line breaks |
| LittlefsSync.StripFramedBySpace | scripts/check_littlefs_sync.py:63 | the stripped text is the original with whitespace cut from its two ends |
| LittlefsSync.ReadsStrippedFirstLine | scripts/check_littlefs_sync.py:59-68 | the value is the first line holding anything but whitespace, stripped: only whitespace comes before it, and only whitespace follows it on its line |
| LittlefsSync.HashFileRoundTrip | scripts/check_littlefs_sync.py:59-72 | writing a non-empty, single-line, stripped value and reading it back yields the value |
| LittlefsSync.SyncMain | scripts/check_littlefs_sync.py:82-116 | no `data/` gives 2 before any hashing; `--update` records the hash and gives 0; in sync gives 0; out of sync gives the upload's code with `--upload`, else 3 |
| LittlefsSync.UpdateThenCheckIsInSync | scripts/check_littlefs_sync.py:92-108 | after `--update`, a plain run over the same data gives 0 |
| ValidateConfig.MissingMacros | scripts/validate_config.py:27-31 | lists exactly the absent macro names, FW_VERSION first |
| ValidateConfig.ValidateMain | scripts/validate_config.py:15-36 | 0 iff the header exists, is readable and mentions both macros; else 2 |
| ValidateConfig.HeaderWithDefinesPasses | scripts/validate_config.py:28-36 | a header defining both macros passes |
| ValidateConfig.CommentMentionPasses | scripts/validate_config.py:28-30 | a header that only names the macros in a comment also passes: the check is a substring search |
| ValidateConfig.PassingHeaderStaysPassing | scripts/validate_config.py:28-36 | a passing header still passes, with no macro missing, whatever text is written before or after it |

## Left out

- Time is unbounded milliseconds. The 32-bit wrap-around of `millis()` is not modelled, and each pass of a poll loop costs exactly its `delay` plus the time the reset check watched the button; execution time between reads is not counted.
- `formatUptime` takes the `millis()` reading as a parameter.
- ConnectWait.ConnectedAfter: the status read after the wait is the sample of the pass the loop stopped at. The firmware calls `WiFi.status()` again, and that fresh read could differ; `InitSteps.EarlyConnectionActivates` and the boot properties rely on the two agreeing.
- ConfigStore.SaveConfig: the flash's room is counted in characters of the serialised text, and that text is the illustrative `SerializeConfig` rendering, which escapes only `"` and `\` where ArduinoJson also escapes `\b`, `\f`, `\n`, `\r` and `\t`. A partly written file is taken to parse to no document at all.
- Arduino `String` contents are modelled as characters. Only the lengths the firmware uses (`String::length()` for the PSK mask and the text width) are counted in UTF-8 bytes, through `Text.ByteLength`.
- Display.NextMenuIndex: the C `int` arithmetic is unbounded here; the 32-bit overflow of `menuIndex + (pos - lastPos)` is not modelled.
- Encoder.Update: the position is an unbounded integer; 32-bit overflow of `position` is not modelled.
- The encoder getters `getPosition` and `isButtonPressed` are the datatype's `position` and `buttonPressed` fields.
- JSON text is abstract:
  - A stored file carries its text and the document the parser makes of it.
  - `SerializeConfig` is illustrative; only the parsed document is relied on.
  - `/status` strings are spliced in without escaping, as the firmware does.
- The static files of the portal (`/`, `/app.js`, `/style.css`) live on the filesystem image. Their serving is not modelled: such a request records no reply.
- Boot.LoopOnce: one iteration serves at most one pending portal request, since `server.handleClient()` handles one client per call. The status server's request is not an input; its serving is the `statusServer.handleClient()` effect. The clock during `handleSave`'s 15 s wait is not linked to the clock `ledLoop` reads.
- `handleHealth` and the station `/health` route are not modelled. They report the heap size and uptime of the running system.
- The web server library's own reply to unregistered paths on the station server is not modelled.
- Serial logging is not modelled, including the header and argument dumps in the `/status` handlers.
- The Preferences library is reduced to one "clear namespace" effect. The `delay(1000)` before the `/save` restart is not modelled.
- `ledFactoryResetVisual` is a list of show and hold events. Pin modes, the PWM channel set-up and NeoPixel `show()` calls are abstracted to the value each backend is asked to display.
- The following are drawing or waits on hardware input, and are not modelled:
  - `displayInit`, `displaySplashScreen`, `displayStatus` and `displayClimate` (floating-point sensor conversion);
  - the idle-splash busy wait in `displayLoop`;
  - the no-encoder branch of `displayLoop`.
- `initSerial`, `initPins` and `initLedAndSystem` are not modelled. `setup`'s calls to `ledInit` and `systemInit` have no effect on the modelled state and are not part of the boot effect log.
- check_littlefs_sync.py:
  - SHA-256 is a parameter (`digest`). Feeding the hash in 8192-byte chunks is the same as feeding the concatenation.
  - `os.walk` is a list of relative paths whose files exist.
  - argparse, the printed messages and the `platformio` subprocess are not modelled; the upload's exit code is a parameter.
- validate_config.py: its docstring mentions `data/config.json`, but `main` checks only `src/build_info.h`, and that is what is modelled.
- data/app.js and the other build scripts are not part of this model.

## Notes on the source

- The order of `factoryResetAction` is followed as written:
  1. clear preferences;
  2. erase the configuration file;
  3. show the LED visual;
  4. restart.
- The portal registers `/save` for POST only, so a GET of `/save` reaches the captive-portal fallback (302). `handleSave`'s own 405 branch is modelled but cannot be reached through the portal (`Provisioning.GetSaveIsRedirected`).
- `handleSave` builds its record in a local `Config` whose `reset_hold_seconds` is never initialised and is then saved. The model takes that value as an arbitrary parameter (`junkHold`).
- `/save` refuses only an empty SSID. A non-empty SSID made only of spaces and tabs is saved but then loads as "not configured" (`Provisioning.WhitespaceSsidSavedButUnusable`).
- `saveConfig` fails only when `serializeJson` writes nothing. A write cut short by a full flash still returns true, and the truncated file then fails to load (`ConfigStore.TruncatedSaveReportsSuccess`).
- `is_blank` uses Arduino's `isWhitespace`, which accepts only a space or a tab. An SSID of line breaks is not blank and loads as configured.
- `main.cpp` does not call the step functions of `init.cpp`; it repeats the same steps inline. Both are modelled: `InitSteps` for `init.cpp`, `Boot` for `setup`. They share the connect wait and the portal start.

=== FILE: boot.dfy ===
/**
  The boot sequence and the main loop (src/main.cpp).

  `setup` is modelled twice. `Step`/`Run` is a small-step machine whose phases
  are the points where `setup` makes a decision: mount, load, one pass of the
  connect wait at a time, the final connected check, and the three places
  `setup` ends (portal running, station services running, or a factory reset
  that restarts the device). `SetupSpec` is the same sequence written
  compositionally from the step functions of the other modules, and
  `SetupMatchesSpec` proves the two agree on every input. The properties of
  boot are then stated about `Setup` and proved through the reference.
 */
module Boot {
  import opened Hal
  import opened Led
  import opened ConfigStore
  import opened Effects
  import opened FactoryReset
  import opened ConnectWait
  import opened Provisioning
  import opened InitSteps

  datatype Phase =
    | Mounting
    | Loading
    | Waiting(pass: nat)
    | Deciding(passes: nat)
    | PortalRunning
    | StationRunning
    | ResetRestart

  predicate Terminal(p: Phase) {
    p.PortalRunning? || p.StationRunning? || p.ResetRestart?
  }

  /** The machine: phase, store, global record, server flags, elapsed wait time, effects so far. */
  datatype Machine = Machine(phase: Phase, fs: FileSystem, cfg: Config, servers: Servers, elapsedMs: nat, effects: seq<Effect>)

  /**
    Everything `setup` reads from the outside world: what format and the
    remount return, the radio's status samples, the button reads of each
    reset check, the station MAC and the access point's address.
   */
  datatype BootInputs = BootInputs(
    formatOk: bool, remountOk: bool, wifi: seq<WifiStatus>,
    buttons: seq<ButtonInput>, mac: seq<u8>, apIp: string)

  predicate ValidInputs(inp: BootInputs) {
    |inp.mac| == 6
  }

  /** Power-on: nothing loaded, no server running, nothing done yet. */
  function Initial(fs: FileSystem): Machine {
    Machine(Mounting, fs, ZeroConfig, InitialServers, 0, [])
  }

  /** The portal fallback: start provisioning and stop. */
  function ToPortal(m: Machine, inp: BootInputs): (r: Machine)
    requires ValidInputs(inp)
    ensures r.phase == PortalRunning
    ensures m.effects <= r.effects
  {
    var st := StartProvisioning(m.servers, m.fs, inp.mac, inp.apIp);
    m.(phase := PortalRunning, servers := st.servers, effects := m.effects + st.effects)
  }

  /** The check after the wait: connected starts the status server, anything else the portal. */
  function Decide(m: Machine, passes: nat, inp: BootInputs): (r: Machine)
    requires ValidInputs(inp)
    ensures r.phase == StationRunning <==> StatusAt(inp.wifi, passes) == Connected
    ensures r.phase == StationRunning || r.phase == PortalRunning
    ensures m.effects <= r.effects
  {
    if StatusAt(inp.wifi, passes) == Connected then
      var st := StartStatusServer(m.servers);
      m.(phase := StationRunning, servers := st.servers, effects := m.effects + st.effects)
    else ToPortal(m, inp)
  }

  /** One step of `setup`. */
  function Step(m: Machine, inp: BootInputs): (r: Machine)
    requires ValidInputs(inp)
    requires !Terminal(m.phase)
    // what has been done stays done: the effect log only grows
    ensures m.effects <= r.effects
    // the phases follow `setup`'s order
    ensures m.phase == Mounting ==> r.phase == Loading
    ensures m.phase == Loading ==> r.phase == Waiting(0) || r.phase == PortalRunning
    ensures m.phase.Waiting? ==>
      r.phase == Waiting(m.phase.pass + 1) || r.phase == Deciding(m.phase.pass) || r.phase == ResetRestart
    ensures m.phase.Deciding? ==> r.phase == StationRunning || r.phase == PortalRunning
  {
    match m.phase
    case Mounting =>
      var mo := InitFileSystem(m.fs, inp.formatOk, inp.remountOk);
      m.(phase := Loading, fs := mo.fs, effects := m.effects + mo.effects)
    case Loading =>
      var l := LoadConfig(m.fs, m.cfg);
      if !l.ok then ToPortal(m.(cfg := l.cfg), inp)
      else m.(phase := Waiting(0), cfg := l.cfg, elapsedMs := 0,
              effects := m.effects + [WifiModeStation, WifiBegin(l.cfg.ssid, l.cfg.psk)])
    case Waiting(i) =>
      (match WaitTick(i, m.elapsedMs, ConnectTimeoutMs, inp.wifi, true, inp.buttons, m.cfg, m.fs)
       case Stop(exit, effs, fs') =>
         if exit == ResetFired then m.(phase := ResetRestart, fs := fs', effects := m.effects + effs)
         else m.(phase := Deciding(i))
       case Continue(next) => m.(phase := Waiting(i + 1), elapsedMs := next))
    case Deciding(n) => Decide(m, n, inp)
  }

  /** A bound on the steps left: the wait's remaining budget plus the fixed steps around it. */
  function Rank(m: Machine): nat {
    match m.phase
    case Mounting => ConnectTimeoutMs + 4
    case Loading => ConnectTimeoutMs + 3
    case Waiting(_) => (if m.elapsedMs < ConnectTimeoutMs then ConnectTimeoutMs - m.elapsedMs else 0) + 2
    case Deciding(_) => 1
    case _ => 0
  }

  /** Every step makes progress. */
  lemma StepDecreasesRank(m: Machine, inp: BootInputs)
    requires ValidInputs(inp)
    requires !Terminal(m.phase)
    ensures Rank(Step(m, inp)) < Rank(m)
  {
  }

  /** Step until `setup` returns. */
  function Run(m: Machine, inp: BootInputs): (r: Machine)
    requires ValidInputs(inp)
    ensures Terminal(r.phase)
    decreases Rank(m)
  {
    if Terminal(m.phase) then m
    else
      StepDecreasesRank(m, inp);
      Run(Step(m, inp), inp)
  }

  /** `setup()` from power-on. */
  function Setup(fs: FileSystem, inp: BootInputs): (r: Machine)
    requires ValidInputs(inp)
    ensures Terminal(r.phase)
  {
    Run(Initial(fs), inp)
  }

  /** How the machine continues once the wait from its current pass has produced `w`. */
  function AfterWait(m: Machine, w: WaitResult, inp: BootInputs): Machine
    requires ValidInputs(inp)
  {
    if w.exit == ResetFired then m.(phase := ResetRestart, fs := w.fs, elapsedMs := w.elapsedMs, effects := m.effects + w.effects)
    else Decide(m.(elapsedMs := w.elapsedMs), w.passes, inp)
  }

  /** Running from a waiting phase is the same as running the whole wait loop and then deciding. */
  lemma {:induction false} RunFromWaiting(m: Machine, inp: BootInputs)
    requires ValidInputs(inp)
    requires m.phase.Waiting?
    ensures Run(m, inp) == AfterWait(m, WaitLoop(m.phase.pass, m.elapsedMs, ConnectTimeoutMs, inp.wifi, true, inp.buttons, m.cfg, m.fs), inp)
    decreases Rank(m)
  {
    var i := m.phase.pass;
    match WaitTick(i, m.elapsedMs, ConnectTimeoutMs, inp.wifi, true, inp.buttons, m.cfg, m.fs)
    case Stop(_, _, _) =>
      RunFromFinalPass(m, inp);
    case Continue(next) =>
      StepDecreasesRank(m, inp);
      var m' := Step(m, inp);
      assert Run(m, inp) == Run(m', inp);
      assert m' == m.(phase := Waiting(i + 1), elapsedMs := next);
      assert WaitLoop(i, m.elapsedMs, ConnectTimeoutMs, inp.wifi, true, inp.buttons, m.cfg, m.fs)
        == WaitLoop(i + 1, next, ConnectTimeoutMs, inp.wifi, true, inp.buttons, m.cfg, m.fs);
      RunFromWaiting(m', inp);
  }

  /** The pass that ends the wait: running from it is the decision on the wait's result. */
  lemma RunFromFinalPass(m: Machine, inp: BootInputs)
    requires ValidInputs(inp)
    requires m.phase.Waiting?
    requires WaitTick(m.phase.pass, m.elapsedMs, ConnectTimeoutMs, inp.wifi, true, inp.buttons, m.cfg, m.fs).Stop?
    ensures Run(m, inp) == AfterWait(m, WaitLoop(m.phase.pass, m.elapsedMs, ConnectTimeoutMs, inp.wifi, true, inp.buttons, m.cfg, m.fs), inp)
  {
    var i := m.phase.pass;
    StepDecreasesRank(m, inp);
    var m' := Step(m, inp);
    assert Run(m, inp) == Run(m', inp);
    var Stop(exit, effs, fs') := WaitTick(i, m.elapsedMs, ConnectTimeoutMs, inp.wifi, true, inp.buttons, m.cfg, m.fs);
    assert WaitLoop(i, m.elapsedMs, ConnectTimeoutMs, inp.wifi, true, inp.buttons, m.cfg, m.fs)
      == WaitResult(exit, i, m.elapsedMs, effs, fs');
    if exit != ResetFired {
      assert m' == m.(phase := Deciding(i));
      assert Run(m', inp) == Decide(m', i, inp);
    }
  }

  /** The outcomes `setup` acts on, each produced by another module's step function. */
  datatype SetupParts = SetupParts(mo: MountOutcome, load: LoadOutcome, wait: WaitResult, portal: Started, connected: bool)

  /** Those outcomes for a store and inputs; the wait is the one a usable record begins. */
  function PartsOf(fs: FileSystem, inp: BootInputs): SetupParts
    requires ValidInputs(inp)
  {
    var mo := InitFileSystem(fs, inp.formatOk, inp.remountOk);
    var l := LoadConfig(mo.fs, ZeroConfig);
    var w := Wait(ConnectTimeoutMs, inp.wifi, true, inp.buttons, l.cfg, mo.fs);
    SetupParts(mo, l, w, StartProvisioning(InitialServers, mo.fs, inp.mac, inp.apIp), ConnectedAfter(inp.wifi, w))
  }

  /** Station mode and the connection attempt with the loaded credentials. */
  function BeginEffects(cfg: Config): seq<Effect> {
    [WifiModeStation, WifiBegin(cfg.ssid, cfg.psk)]
  }

  /**
    How `setup` ends given the outcomes: without a usable record the portal;
    otherwise begin the station connection, then the reset's restart, the
    status server when the link came up, or the portal.
   */
  function Assemble(p: SetupParts): Machine {
    if !p.load.ok then
      Machine(PortalRunning, p.mo.fs, p.load.cfg, p.portal.servers, 0, p.mo.effects + p.portal.effects)
    else
      var begin := p.mo.effects + BeginEffects(p.load.cfg);
      if p.wait.exit == ResetFired then
        Machine(ResetRestart, p.wait.fs, p.load.cfg, InitialServers, p.wait.elapsedMs, begin + p.wait.effects)
      else if p.connected then
        var st := StartStatusServer(InitialServers);
        Machine(StationRunning, p.mo.fs, p.load.cfg, st.servers, p.wait.elapsedMs, begin + st.effects)
      else
        Machine(PortalRunning, p.mo.fs, p.load.cfg, p.portal.servers, p.wait.elapsedMs, begin + p.portal.effects)
  }

  /**
    The reference: `setup` written straight through from the step functions
    of the other modules. Mount with recovery; load into the zero record;
    then act on the load and the wait as `Assemble` says.
   */
  function SetupSpec(fs: FileSystem, inp: BootInputs): Machine
    requires ValidInputs(inp)
  {
    Assemble(PartsOf(fs, inp))
  }

  /** The step machine and the reference agree on every input. */
  lemma SetupMatchesSpec(fs: FileSystem, inp: BootInputs)
    requires ValidInputs(inp)
    ensures Setup(fs, inp) == SetupSpec(fs, inp)
  {
    var p := PartsOf(fs, inp);
    var m2 := MountAndLoad(fs, inp);
    if p.load.ok {
      RunFromWaiting(m2, inp);
      AfterWaitMatches(m2, p, inp);
    }
  }

  /** The first two steps: mount, then load; the machine is then waiting, or (no record) in the portal. */
  lemma MountAndLoad(fs: FileSystem, inp: BootInputs) returns (m2: Machine)
    requires ValidInputs(inp)
    ensures Run(Initial(fs), inp) == Run(m2, inp)
    ensures var p := PartsOf(fs, inp);
      && (p.load.ok ==> m2 == Machine(Waiting(0), p.mo.fs, p.load.cfg, InitialServers, 0, p.mo.effects + BeginEffects(p.load.cfg)))
      && (!p.load.ok ==> m2 == Assemble(p))
  {
    var mo := InitFileSystem(fs, inp.formatOk, inp.remountOk);
    var m0 := Initial(fs);
    var m1 := Step(m0, inp);
    assert m1 == Machine(Loading, mo.fs, ZeroConfig, InitialServers, 0, mo.effects);
    assert Run(m0, inp) == Run(m1, inp);
    m2 := Step(m1, inp);
    assert Run(m1, inp) == Run(m2, inp);
  }

  /** Once the wait has run, the machine ends where the reference does. */
  lemma AfterWaitMatches(m: Machine, p: SetupParts, inp: BootInputs)
    requires ValidInputs(inp)
    requires p.load.ok
    requires m == Machine(Waiting(0), p.mo.fs, p.load.cfg, InitialServers, 0, p.mo.effects + BeginEffects(p.load.cfg))
    requires p.connected == ConnectedAfter(inp.wifi, p.wait)
    requires p.portal == StartProvisioning(InitialServers, p.mo.fs, inp.mac, inp.apIp)
    ensures AfterWait(m, p.wait, inp) == Assemble(p)
  {
  }

  /** What the other modules guarantee about the outcomes `setup` combines. */
  predicate SoundParts(p: SetupParts) {
    // the mount step only ever formats
    && Count(p.mo.effects, IsPortalBegin) == 0 && !Any(p.mo.effects, IsRestart)
    && !Any(p.mo.effects, IsStatusServerBegin) && !Any(p.mo.effects, IsWifiBegin)
    // a record loads only from a mounted store
    && (p.load.ok ==> p.mo.fs.mounted)
    // a reset during the wait is the factory-reset action on the mounted store
    && (p.wait.exit == ResetFired ==>
          p.wait.effects == ResetEffects(EraseConfig(p.mo.fs).ok) && p.wait.fs == EraseConfig(p.mo.fs).fs)
    // the portal starts (once) exactly on a mounted store, and starts nothing else
    && p.portal.servers == Servers(p.mo.fs.mounted, false)
    && Count(p.portal.effects, IsPortalBegin) == (if p.mo.fs.mounted then 1 else 0)
    && !Any(p.portal.effects, IsRestart) && !Any(p.portal.effects, IsStatusServerBegin)
    && !Any(p.portal.effects, IsFormat) && !Any(p.portal.effects, IsWifiBegin)
  }

  lemma PartsAreSound(fs: FileSystem, inp: BootInputs)
    requires ValidInputs(inp)
    ensures SoundParts(PartsOf(fs, inp))
  {
    var p := PartsOf(fs, inp);
    PortalEffectsFacts(InitialServers, p.mo.fs, inp.mac, inp.apIp);
    MountEffectsFacts(fs, inp);
  }

  /** The portal's start-up effects: the portal begins exactly when the filesystem mounts; nothing else starts. */
  lemma PortalEffectsFacts(s: Servers, fs: FileSystem, mac: seq<u8>, apIp: string)
    requires |mac| == 6
    ensures var e := StartProvisioning(s, fs, mac, apIp).effects;
      && Count(e, IsPortalBegin) == (if fs.mounted then 1 else 0)
      && !Any(e, IsRestart) && !Any(e, IsStatusServerBegin) && !Any(e, IsFormat)
  {
    var e := StartProvisioning(s, fs, mac, apIp).effects;
    if fs.mounted {
      assert e == [WifiModeAccessPoint, SoftAp(ApSsid(mac)), DnsStart(DnsPort, apIp)] + [PortalBegin];
      CountConcat([WifiModeAccessPoint, SoftAp(ApSsid(mac)), DnsStart(DnsPort, apIp)], [PortalBegin], IsPortalBegin);
      assert [PortalBegin][1..] == [];
    }
  }

  /** The mount step only ever formats. */
  lemma MountEffectsFacts(fs: FileSystem, inp: BootInputs)
    ensures var e := InitFileSystem(fs, inp.formatOk, inp.remountOk).effects;
      Count(e, IsPortalBegin) == 0 && !Any(e, IsRestart) && !Any(e, IsStatusServerBegin) && !Any(e, IsWifiBegin)
  {
  }

  /** The effects `setup` adds after the mount step. */
  function AfterMount(p: SetupParts): seq<Effect> {
    if !p.load.ok then p.portal.effects
    else
      BeginEffects(p.load.cfg)
      + (if p.wait.exit == ResetFired then p.wait.effects
         else if p.connected then [StatusServerBegin]
         else p.portal.effects)
  }

  /** `setup`'s effects are the mount step's followed by the rest. */
  lemma SpecSplitsAtMount(p: SetupParts)
    ensures Assemble(p).effects == p.mo.effects + AfterMount(p)
  {
    if p.load.ok {
      var tail := if p.wait.exit == ResetFired then p.wait.effects
        else if p.connected then [StatusServerBegin]
        else p.portal.effects;
      assert Assemble(p).effects == p.mo.effects + BeginEffects(p.load.cfg) + tail;
      assert p.mo.effects + BeginEffects(p.load.cfg) + tail == p.mo.effects + (BeginEffects(p.load.cfg) + tail);
    }
  }

  /** The station-mode prefix starts nothing: counting a kind of effect it does not contain ignores it. */
  lemma BeginIsTransparent(cfg: Config, after: seq<Effect>, p: Effect -> bool)
    requires !p(WifiModeStation) && !p(WifiBegin(cfg.ssid, cfg.psk))
    ensures Count(BeginEffects(cfg) + after, p) == Count(after, p)
    ensures Any(BeginEffects(cfg) + after, p) <==> Any(after, p)
  {
    CountConcat(BeginEffects(cfg), after, p);
    AnyConcat(BeginEffects(cfg), after, p);
  }

  /** However loading and the wait turn out, nothing after the mount step formats. */
  lemma AfterMountNeverFormats(p: SetupParts)
    requires SoundParts(p)
    ensures !Any(AfterMount(p), IsFormat)
  {
    if p.load.ok {
      var tail := if p.wait.exit == ResetFired then p.wait.effects
        else if p.connected then [StatusServerBegin]
        else p.portal.effects;
      if p.wait.exit == ResetFired {
        ResetEffectsStartNothing(EraseConfig(p.mo.fs).ok);
      }
      BeginIsTransparent(p.load.cfg, tail, IsFormat);
    }
  }

  /** The format effect appears exactly when the first mount failed, and then once. */
  lemma SetupFormatsOnlyAfterFailedMount(fs: FileSystem, inp: BootInputs)
    requires ValidInputs(inp)
    ensures Count(Setup(fs, inp).effects, IsFormat) == (if fs.mounted then 0 else 1)
  {
    SetupMatchesSpec(fs, inp);
    var p := PartsOf(fs, inp);
    PartsAreSound(fs, inp);
    SpecSplitsAtMount(p);
    AfterMountNeverFormats(p);
    CountConcat(p.mo.effects, AfterMount(p), IsFormat);
    FormatOnlyAfterFailedMount(fs, inp.formatOk, inp.remountOk);
  }

  /** The filesystem after the mount step, and the load into the zero record. */
  function MountedFs(fs: FileSystem, inp: BootInputs): FileSystem
    requires ValidInputs(inp)
  {
    PartsOf(fs, inp).mo.fs
  }

  function BootLoad(fs: FileSystem, inp: BootInputs): LoadOutcome
    requires ValidInputs(inp)
  {
    PartsOf(fs, inp).load
  }

  /** Loading happens whatever the mount step did, and the global record is what it left. */
  lemma SetupAlwaysLoads(fs: FileSystem, inp: BootInputs)
    requires ValidInputs(inp)
    ensures Setup(fs, inp).cfg == BootLoad(fs, inp).cfg
  {
    SetupMatchesSpec(fs, inp);
  }

  /** Without a usable record the portal starts and no station connection is attempted. */
  lemma NoConfigOpensPortal(fs: FileSystem, inp: BootInputs)
    requires ValidInputs(inp)
    requires !BootLoad(fs, inp).ok
    ensures var r := Setup(fs, inp);
      && r.phase == PortalRunning
      && r.servers == Servers(MountedFs(fs, inp).mounted, false)
      && !Any(r.effects, IsWifiBegin)
      && !Any(r.effects, IsStatusServerBegin)
  {
    SetupMatchesSpec(fs, inp);
    var p := PartsOf(fs, inp);
    PartsAreSound(fs, inp);
    AnyConcat(p.mo.effects, p.portal.effects, IsWifiBegin);
    AnyConcat(p.mo.effects, p.portal.effects, IsStatusServerBegin);
  }

  /**
    With a usable record the station connection is begun with the loaded
    credentials, right after the mount effects, and a fallback portal is
    always served (the store is mounted).
   */
  lemma ConfigBeginsConnection(fs: FileSystem, inp: BootInputs)
    requires ValidInputs(inp)
    requires BootLoad(fs, inp).ok
    ensures var r := Setup(fs, inp);
      var n := |InitFileSystem(fs, inp.formatOk, inp.remountOk).effects|;
      var c := BootLoad(fs, inp).cfg;
      && |r.effects| >= n + 2
      && r.effects[n..n + 2] == [WifiModeStation, WifiBegin(c.ssid, c.psk)]
      && (r.phase == PortalRunning ==> r.servers.provisioningActive)
  {
    SetupMatchesSpec(fs, inp);
    var p := PartsOf(fs, inp);
    PartsAreSound(fs, inp);
    SpecSplitsAtMount(p);
    var n := |p.mo.effects|;
    assert AfterMount(p)[..2] == BeginEffects(p.load.cfg);
    assert Assemble(p).effects[n..n + 2] == AfterMount(p)[..2];
  }

  /** What a reset-ended boot did, in terms of the outcomes. */
  lemma ResetEndFacts(p: SetupParts)
    requires SoundParts(p)
    requires Assemble(p).phase == ResetRestart
    ensures p.load.ok && p.wait.exit == ResetFired
    ensures var e := Assemble(p).effects;
      && |e| > 0 && e[|e| - 1] == Restart
      && !Any(e, IsStatusServerBegin) && !Any(e, IsPortalBegin)
  {
    var w := p.wait.effects;
    ResetEffectsStartNothing(EraseConfig(p.mo.fs).ok);
    SpecSplitsAtMount(p);
    BeginIsTransparent(p.load.cfg, w, IsStatusServerBegin);
    BeginIsTransparent(p.load.cfg, w, IsPortalBegin);
    AnyConcat(p.mo.effects, AfterMount(p), IsStatusServerBegin);
    CountConcat(p.mo.effects, AfterMount(p), IsPortalBegin);
  }

  /**
    A factory reset during the wait ends `setup` with the reset's effects and
    no server started; the record file is erased as the reset action does.
   */
  lemma ResetDuringWaitStartsNothing(fs: FileSystem, inp: BootInputs)
    requires ValidInputs(inp)
    requires Setup(fs, inp).phase == ResetRestart
    ensures var r := Setup(fs, inp);
      && BootLoad(fs, inp).ok
      && r.servers == InitialServers
      && r.fs == EraseConfig(MountedFs(fs, inp)).fs
      && |r.effects| > 0 && r.effects[|r.effects| - 1] == Restart
      && !Any(r.effects, IsStatusServerBegin)
      && !Any(r.effects, IsPortalBegin)
  {
    SetupMatchesSpec(fs, inp);
    PartsAreSound(fs, inp);
    ResetEndFacts(PartsOf(fs, inp));
  }

  /** What the rest of a boot that was not reset starts: see `SetupEndsInOneMode`. */
  lemma AfterMountFacts(p: SetupParts)
    requires SoundParts(p)
    requires Assemble(p).phase != ResetRestart
    ensures var e := AfterMount(p);
      var r := Assemble(p);
      && (Any(e, IsStatusServerBegin) <==> r.phase == StationRunning)
      && Count(e, IsPortalBegin) == (if r.phase == PortalRunning && p.mo.fs.mounted then 1 else 0)
      && !Any(e, IsRestart)
  {
    if p.load.ok {
      var tail := if p.connected then [StatusServerBegin] else p.portal.effects;
      assert AfterMount(p) == BeginEffects(p.load.cfg) + tail;
      if p.connected {
        assert IsStatusServerBegin(tail[0]);
      }
      BeginIsTransparent(p.load.cfg, tail, IsStatusServerBegin);
      BeginIsTransparent(p.load.cfg, tail, IsRestart);
      BeginIsTransparent(p.load.cfg, tail, IsPortalBegin);
    }
  }

  /** The same for the outcomes: one mode, and no restart. */
  lemma AssembleEndsInOneMode(p: SetupParts)
    requires SoundParts(p)
    requires Assemble(p).phase != ResetRestart
    ensures var r := Assemble(p);
      && (r.phase == StationRunning <==> Any(r.effects, IsStatusServerBegin))
      && (r.phase == StationRunning ==> r.servers == Servers(false, true) && !Any(r.effects, IsPortalBegin))
      && (r.phase == PortalRunning ==>
            && !r.servers.statusServerActive
            && r.servers.provisioningActive == p.mo.fs.mounted
            && Count(r.effects, IsPortalBegin) == (if p.mo.fs.mounted then 1 else 0))
      && !Any(r.effects, IsRestart)
  {
    SpecSplitsAtMount(p);
    AfterMountFacts(p);
    var e := AfterMount(p);
    AnyConcat(p.mo.effects, e, IsStatusServerBegin);
    AnyConcat(p.mo.effects, e, IsRestart);
    CountConcat(p.mo.effects, e, IsPortalBegin);
  }

  /**
    Unless a reset restarts the device, `setup` ends in exactly one mode:
    station services (status server started, portal not) or the portal
    (portal started, once, if the filesystem mounts; status server not).
   */
  lemma SetupEndsInOneMode(fs: FileSystem, inp: BootInputs)
    requires ValidInputs(inp)
    requires Setup(fs, inp).phase != ResetRestart
    ensures var r := Setup(fs, inp);
      && (r.phase == StationRunning <==> Any(r.effects, IsStatusServerBegin))
      && (r.phase == StationRunning ==> r.servers == Servers(false, true) && !Any(r.effects, IsPortalBegin))
      && (r.phase == PortalRunning ==>
            && !r.servers.statusServerActive
            && r.servers.provisioningActive == MountedFs(fs, inp).mounted
            && Count(r.effects, IsPortalBegin) == (if MountedFs(fs, inp).mounted then 1 else 0))
      && !Any(r.effects, IsRestart)
  {
    SetupMatchesSpec(fs, inp);
    PartsAreSound(fs, inp);
    AssembleEndsInOneMode(PartsOf(fs, inp));
  }

  /** The radio never reports a connection. */
  ghost predicate NeverAssociates(wifi: seq<WifiStatus>) {
    forall j: nat :: StatusAt(wifi, j) != Connected
  }

  /** Nobody touches the button during the wait. */
  ghost predicate ButtonUntouched(buttons: seq<ButtonInput>) {
    forall j: nat :: ButtonAt(buttons, j).gate == High
  }

  /** Under those conditions the wait times out after exactly 75 quiet passes. */
  lemma SilentWaitTimesOut(wifi: seq<WifiStatus>, buttons: seq<ButtonInput>, cfg: Config, fs: FileSystem)
    requires NeverAssociates(wifi) && ButtonUntouched(buttons)
    ensures var w := Wait(ConnectTimeoutMs, wifi, true, buttons, cfg, fs);
      w.exit == TimedOut && w.elapsedMs == ConnectTimeoutMs && w.passes == 75 && !ConnectedAfter(wifi, w)
  {
    var w := Wait(ConnectTimeoutMs, wifi, true, buttons, cfg, fs);
    assert QuietBetween(true, buttons, 0, w.passes);
    assert StatusAt(wifi, w.passes) != Connected;
  }

  /**
    A usable record and a network that never associates: the wait runs the
    full 15 s in 75 passes, then the portal starts exactly once and nothing
    restarts the device.
   */
  lemma UnreachableNetworkFallsBackOnce(fs: FileSystem, inp: BootInputs)
    requires ValidInputs(inp)
    requires BootLoad(fs, inp).ok
    requires NeverAssociates(inp.wifi) && ButtonUntouched(inp.buttons)
    ensures var r := Setup(fs, inp);
      && r.phase == PortalRunning
      && r.elapsedMs == ConnectTimeoutMs
      && r.servers == Servers(true, false)
      && Count(r.effects, IsPortalBegin) == 1
      && !Any(r.effects, IsRestart)
  {
    SetupMatchesSpec(fs, inp);
    var p := PartsOf(fs, inp);
    PartsAreSound(fs, inp);
    SilentWaitTimesOut(inp.wifi, inp.buttons, p.load.cfg, p.mo.fs);
    assert p.wait.exit == TimedOut && !p.connected;
    AssembleEndsInOneMode(p);
  }

  /** The state `loop()` works on. */
  datatype LoopState = LoopState(servers: Servers, cfg: Config, fs: FileSystem, blink: BlinkState)

  /**
    What one iteration of `loop()` reads: the request the portal's
    `handleClient` serves, if any; the button; the clock at `ledLoop`; and the
    link state.
   */
  datatype LoopInputs = LoopInputs(pending: Option<Pending>, button: ButtonInput, nowMs: nat, wifiConnected: bool)

  datatype LoopResult = LoopResult(state: LoopState, effects: seq<Effect>, restarted: bool)

  /** The portal's share of an iteration. */
  function Portal(s: LoopState, inp: LoopInputs): PortalPass {
    ServeLoopProvisioning(s.servers, s.fs, inp.pending)
  }

  /**
    One iteration of `loop()`: serve the portal when it is active, where a
    `/save` that connects restarts the device on the spot; then the reset
    check on the store the portal left, which when it fires ends the
    iteration with a restart; otherwise serve the status server and update
    the LED.
   */
  function LoopOnce(s: LoopState, inp: LoopInputs): (r: LoopResult)
    requires s.blink.lastMs <= inp.nowMs
    ensures r.restarted <==> Portal(s, inp).restarted || CheckFactoryReset(s.cfg, Portal(s, inp).fs, inp.button).fired
    // a restart inside the portal ends the iteration
    ensures Portal(s, inp).restarted ==> r.effects == Portal(s, inp).effects && r.state.fs == Portal(s, inp).fs
    ensures !r.restarted ==> r.state.fs == Portal(s, inp).fs && !Any(r.effects, IsRestart)
    // only a served `/save` or a fired reset touches the store
    ensures !ServesSave(s.servers, inp.pending) && !r.restarted ==> r.state.fs == s.fs
  {
    AfterPortal(s, inp, Portal(s, inp))
  }

  /**
    The portal's work opens every iteration; the servers and the configuration
    in memory are untouched; and a restarting iteration ends with the restart,
    the LED state as it was.
   */
  lemma LoopOnceShape(s: LoopState, inp: LoopInputs)
    requires s.blink.lastMs <= inp.nowMs
    ensures var r := LoopOnce(s, inp); var p := Portal(s, inp);
      && |r.effects| >= |p.effects| && r.effects[..|p.effects|] == p.effects
      && r.state.servers == s.servers && r.state.cfg == s.cfg
      && (r.restarted ==> r.state.blink == s.blink && |r.effects| > 0 && r.effects[|r.effects| - 1] == Restart)
  {
  }

  /**
    The rest of `loop()` once the portal has had its turn: nothing when the
    portal restarted the device; otherwise the reset check on the store the
    portal left, then the status server and the LED.
   */
  function AfterPortal(s: LoopState, inp: LoopInputs, p: PortalPass): (r: LoopResult)
    requires s.blink.lastMs <= inp.nowMs
    requires p.restarted ==> p.effects != [] && p.effects[|p.effects| - 1] == Restart
    requires !p.restarted ==> !Any(p.effects, IsRestart)
    ensures r.restarted <==> p.restarted || CheckFactoryReset(s.cfg, p.fs, inp.button).fired
    ensures |r.effects| >= |p.effects| && r.effects[..|p.effects|] == p.effects
    ensures p.restarted ==> r.effects == p.effects && r.state.fs == p.fs
    ensures r.state.servers == s.servers && r.state.cfg == s.cfg
    ensures r.restarted ==> r.state.blink == s.blink && |r.effects| > 0 && r.effects[|r.effects| - 1] == Restart
    ensures !r.restarted ==> r.state.fs == p.fs && !Any(r.effects, IsRestart)
  {
    if p.restarted then
      LoopResult(s.(fs := p.fs), p.effects, true)
    else
      var c := CheckFactoryReset(s.cfg, p.fs, inp.button);
      if c.fired then
        LoopResult(s.(fs := c.fs), p.effects + c.effects, true)
      else
        var status := LoopStatusServer(s.servers);
        var led := LedLoop(s.blink, inp.nowMs, s.servers.provisioningActive, inp.wifiConnected);
        var shown := if led.shown.Some? then [LedShow(led.shown.value)] else [];
        var effects := p.effects + status + shown;
        assert !Any(effects, IsRestart) by {
          AnyConcat(p.effects, status, IsRestart);
          AnyConcat(p.effects + status, shown, IsRestart);
        }
        LoopResult(s.(fs := p.fs, blink := led.state), effects, false)
  }

  /**
    A fired reset pre-empts the status server and the LED for that iteration;
    unless a `/save` already restarted the device, it erases the store the
    portal left.
   */
  lemma ResetPreemptsServerAndLed(s: LoopState, inp: LoopInputs)
    requires s.blink.lastMs <= inp.nowMs
    requires CheckFactoryReset(s.cfg, Portal(s, inp).fs, inp.button).fired
    ensures var r := LoopOnce(s, inp);
      && r.restarted
      && !Any(r.effects, IsServerWork)
      && !Any(r.effects, IsLedShow)
      && (!Portal(s, inp).restarted ==> r.state.fs == EraseConfig(Portal(s, inp).fs).fs)
  {
    var p := Portal(s, inp);
    if p.restarted {
      PortalIsQuiet(p.effects);
    } else {
      var c := CheckFactoryReset(s.cfg, p.fs, inp.button);
      assert c.effects == ResetEffects(EraseConfig(p.fs).ok);
      ResetIterationIsQuiet(p.effects, EraseConfig(p.fs).ok);
    }
  }

  /** The portal neither serves the status server nor sets the LED. */
  lemma PortalIsQuiet(log: seq<Effect>)
    requires forall k :: 0 <= k < |log| ==> PortalEffect(log[k])
    ensures !Any(log, IsServerWork) && !Any(log, IsLedShow)
  {
  }

  /** The portal's share of an iteration followed by the reset sequence serves nothing and shows nothing. */
  lemma ResetIterationIsQuiet(portal: seq<Effect>, eraseOk: bool)
    requires forall k :: 0 <= k < |portal| ==> PortalEffect(portal[k])
    ensures !Any(portal + ResetEffects(eraseOk), IsServerWork)
    ensures !Any(portal + ResetEffects(eraseOk), IsLedShow)
  {
    ResetEffectsStartNothing(eraseOk);
    PortalIsQuiet(portal);
    AnyConcat(portal, ResetEffects(eraseOk), IsServerWork);
    AnyConcat(portal, ResetEffects(eraseOk), IsLedShow);
  }

  /**
    With nobody at the button, only a `/save` that connects restarts the
    device; otherwise an active status server is served, and the portal is
    served exactly when active.
   */
  lemma QuietIterationServes(s: LoopState, inp: LoopInputs)
    requires s.blink.lastMs <= inp.nowMs
    requires inp.button.gate == High
    ensures var r := LoopOnce(s, inp);
      && (r.restarted <==> ServesSave(s.servers, inp.pending) && SaveRestarts(s.fs, inp.pending.value))
      && r.state.fs == Portal(s, inp).fs
      && (Any(r.effects, IsServerWork) <==> s.servers.statusServerActive && !r.restarted)
      && (PortalHandleClient in r.effects <==> s.servers.provisioningActive)
  {
    var r := LoopOnce(s, inp);
    var p := Portal(s, inp);
    var base := LoopProvisioning(s.servers);
    assert p.effects[..|base|] == base;
    if s.servers.provisioningActive {
      assert p.effects[1] == PortalHandleClient;
    } else {
      assert p.effects == [];
    }
    PortalIsQuiet(p.effects);
    if !p.restarted {
      var status := LoopStatusServer(s.servers);
      var led := LedLoop(s.blink, inp.nowMs, s.servers.provisioningActive, inp.wifiConnected);
      var shown := if led.shown.Some? then [LedShow(led.shown.value)] else [];
      assert r.effects == p.effects + status + shown;
      assert !Any(shown, IsServerWork);
      if s.servers.statusServerActive {
        assert IsServerWork(status[0]);
      }
      AnyConcat(p.effects, status, IsServerWork);
      AnyConcat(p.effects + status, shown, IsServerWork);
      assert forall e :: e in r.effects <==> e in p.effects || e in status || e in shown;
    }
  }

  /**
    A served `/save` that saves and sees the association restarts the device
    before the reset check, the status server or the LED get a turn, and
    leaves the store `handleSave` wrote, whatever the button does.
   */
  lemma SaveRestartPreemptsLoop(s: LoopState, inp: LoopInputs)
    requires s.blink.lastMs <= inp.nowMs
    requires ServesSave(s.servers, inp.pending) && SaveRestarts(s.fs, inp.pending.value)
    ensures var r := LoopOnce(s, inp);
      && r.restarted
      && r.effects == Portal(s, inp).effects
      && r.state.fs == HandleSave(inp.pending.value.req, s.fs, inp.pending.value.wifi, inp.pending.value.junkHold).fs
      && !Any(r.effects, IsServerWork)
      && !Any(r.effects, IsLedShow)
  {
    PortalIsQuiet(Portal(s, inp).effects);
  }
}

=== FILE: config_store.dfy ===
/**
  The persistent configuration store (src/config.cpp, record from src/config.h).

  The flash filesystem is a record of what its operations will do (whether
  `LittleFS.begin()` mounts, whether opening `/config.json` for reading or for
  writing succeeds, how much a write can put down before the flash is full,
  whether `remove` succeeds) plus the one file the store uses. A stored file carries its text and the key/value document the
  JSON parser makes of it (`None` when the text does not parse); JSON syntax
  itself stays abstract.
 */
module ConfigStore {
  import opened Hal
  import opened Text

  const ConfigPath := "/config.json"
  const DefaultDevname := "ThermaBridge"
  const DefaultResetHoldSeconds: u16 := 10

  /** The peripheral settings of the record; the store neither reads nor writes them. */
  datatype Peripherals = Peripherals(
    displayEnabled: bool, displayWidth: u16, displayHeight: u16,
    displaySdaPin: u8, displaySclPin: u8,
    encoderEnabled: bool, encoderClkPin: u8, encoderDtPin: u8, encoderSwPin: u8,
    climateEnabled: bool, irEnabled: bool, irPin: u8)

  /** `struct Config`. */
  datatype Config = Config(
    ssid: string,
    psk: string,
    devname: string,
    resetHoldSeconds: u16,
    otaPassword: string,
    mdnsEnable: bool,
    peripherals: Peripherals)

  /** A zero-initialised record: the global `cfg` before anything is loaded. */
  const ZeroPeripherals := Peripherals(false, 0, 0, 0, 0, false, 0, 0, 0, false, false, 0)
  const ZeroConfig := Config("", "", "", 0, "", false, ZeroPeripherals)

  /** A JSON value as the parser hands it over. */
  datatype JsonValue = JString(str: string) | JInt(num: int) | JBool(flag: bool) | JNull

  type Document = map<string, JsonValue>

  datatype StoredFile = StoredFile(text: string, parsed: Option<Document>)

  datatype FileSystem = FileSystem(
    mounted: bool,        // LittleFS.begin() succeeds
    readOpenOk: bool,     // LittleFS.open(CONFIG_PATH, "r") yields a file
    writeOpenOk: bool,    // LittleFS.open(CONFIG_PATH, "w") yields a file
    room: Option<nat>,    // characters a write can put down before the flash is full; None: no limit
    removeOk: bool,       // LittleFS.remove(CONFIG_PATH) succeeds
    config: Option<StoredFile>)

  /** `doc[key] | dflt` for a string field: the stored string, or the default for any other value. */
  function StringOr(doc: Document, key: string, dflt: string): string {
    if key in doc && doc[key].JString? then doc[key].str else dflt
  }

  /** ArduinoJson's `is<int>()` on an integer: it fits the ESP32's 32-bit `int`. */
  predicate IsInt32(n: int) {
    -0x8000_0000 <= n < 0x8000_0000
  }

  /**
    `doc[key] | dflt` with an `int` default, assigned to a `uint16_t` field: an
    integer that fits an `int` is taken and wraps modulo 2^16 on assignment;
    anything else, or nothing, gives the default.
   */
  function U16Or(doc: Document, key: string, dflt: u16): (r: u16)
    ensures key in doc && doc[key].JInt? && IsInt32(doc[key].num) ==> (r - doc[key].num) % 0x1_0000 == 0
    ensures !(key in doc && doc[key].JInt? && IsInt32(doc[key].num)) ==> r == dflt
  {
    if key in doc && doc[key].JInt? && IsInt32(doc[key].num) then doc[key].num % 0x1_0000 else dflt
  }

  /** The `is_blank` lambda: every character is whitespace (scanning from the front). */
  function AllWhitespace(s: string): (r: bool)
    ensures r <==> forall i :: 0 <= i < |s| ==> IsArduinoSpace(s[i])
    decreases |s|
  {
    if s == [] then true
    else if !IsArduinoSpace(s[0]) then false
    else AllWhitespace(s[1..])
  }

  /** An SSID the firmware refuses to use: empty, or whitespace only. */
  predicate IsBlank(s: string) {
    |s| == 0 || AllWhitespace(s)
  }

  /** The document `loadConfig` gets to see, or `None` if it gives up before parsing succeeds. */
  function ReadDocument(fs: FileSystem): (r: Option<Document>)
    ensures r.Some? <==> fs.mounted && fs.config.Some? && fs.readOpenOk && fs.config.value.parsed.Some?
  {
    if !fs.mounted then None
    else if fs.config.None? then None
    else if !fs.readOpenOk then None
    else fs.config.value.parsed
  }

  /** The result of `loadConfig(cfg)`: the boolean it returns and the record it leaves behind. */
  datatype LoadOutcome = LoadOutcome(ok: bool, cfg: Config)

  /**
    `loadConfig`: mount, check the file exists, open, parse; then fill the four
    persisted fields (with defaults for missing keys) and reject a blank SSID.
   */
  function LoadConfig(fs: FileSystem, cfg: Config): (r: LoadOutcome)
    // mount, missing file, open or parse failure: false, record untouched
    ensures ReadDocument(fs).None? ==> !r.ok && r.cfg == cfg
    // success means a document was read and its SSID is usable
    ensures r.ok <==> ReadDocument(fs).Some? && !IsBlank(r.cfg.ssid)
    // a read document overwrites exactly the four persisted fields, each by `doc[key] | default`
    ensures ReadDocument(fs).Some? ==>
      var doc := ReadDocument(fs).value;
      && r.cfg.ssid == StringOr(doc, "ssid", "")
      && r.cfg.psk == StringOr(doc, "psk", "")
      && r.cfg.devname == StringOr(doc, "devname", DefaultDevname)
      && r.cfg.resetHoldSeconds == U16Or(doc, "reset_hold_seconds", DefaultResetHoldSeconds)
    // fields that are never persisted are never touched
    ensures r.cfg.otaPassword == cfg.otaPassword
    ensures r.cfg.mdnsEnable == cfg.mdnsEnable
    ensures r.cfg.peripherals == cfg.peripherals
  {
    match ReadDocument(fs)
    case None => LoadOutcome(false, cfg)
    case Some(doc) =>
      var loaded := cfg.(
        ssid := StringOr(doc, "ssid", ""),
        psk := StringOr(doc, "psk", ""),
        devname := StringOr(doc, "devname", DefaultDevname),
        resetHoldSeconds := U16Or(doc, "reset_hold_seconds", DefaultResetHoldSeconds));
      LoadOutcome(!IsBlank(loaded.ssid), loaded)
  }

  /** Keys absent from a parsed document take the documented defaults. */
  lemma LoadDefaults(fs: FileSystem, cfg: Config)
    requires ReadDocument(fs).Some?
    ensures var doc := ReadDocument(fs).value;
      var r := LoadConfig(fs, cfg);
      && ("ssid" !in doc ==> r.cfg.ssid == "" && !r.ok)
      && ("psk" !in doc ==> r.cfg.psk == "")
      && ("devname" !in doc ==> r.cfg.devname == "ThermaBridge")
      && ("reset_hold_seconds" !in doc ==> r.cfg.resetHoldSeconds == 10)
  {
  }

  /**
    A parsed document whose SSID is blank is rejected whatever else it holds,
    yet the four persisted fields have already been overwritten from it.
   */
  lemma BlankSsidRejectedAfterOverwrite(fs: FileSystem, cfg: Config)
    requires ReadDocument(fs).Some?
    requires IsBlank(StringOr(ReadDocument(fs).value, "ssid", ""))
    ensures var doc := ReadDocument(fs).value;
      var r := LoadConfig(fs, cfg);
      && !r.ok
      && r.cfg.ssid == StringOr(doc, "ssid", "")
      && r.cfg.psk == StringOr(doc, "psk", "")
      && r.cfg.devname == StringOr(doc, "devname", DefaultDevname)
      && r.cfg.resetHoldSeconds == U16Or(doc, "reset_hold_seconds", DefaultResetHoldSeconds)
  {
  }

  /**
    A stored hold outside 0..65535 is not replaced by the default: any value
    that fits an `int` wraps into the 16-bit field, so -1 loads as 65535.
   */
  lemma StoredHoldWraps(fs: FileSystem, cfg: Config, n: int)
    requires ReadDocument(fs).Some?
    requires var doc := ReadDocument(fs).value; "reset_hold_seconds" in doc && doc["reset_hold_seconds"] == JInt(n)
    requires IsInt32(n)
    ensures LoadConfig(fs, cfg).cfg.resetHoldSeconds == n % 0x1_0000
    ensures -0x1_0000 < n < 0 ==> LoadConfig(fs, cfg).cfg.resetHoldSeconds == n + 0x1_0000
  {
  }

  /** A stored hold of zero seconds is loaded as zero: the default is applied only at use. */
  lemma ZeroHoldLoadedAsZero(fs: FileSystem, cfg: Config)
    requires ReadDocument(fs).Some?
    requires var doc := ReadDocument(fs).value; "reset_hold_seconds" in doc && doc["reset_hold_seconds"] == JInt(0)
    ensures LoadConfig(fs, cfg).cfg.resetHoldSeconds == 0
  {
  }

  /** The document `saveConfig` builds: exactly the four persisted keys. */
  function SavedDocument(cfg: Config): (doc: Document)
    ensures doc.Keys == {"ssid", "psk", "devname", "reset_hold_seconds"}
  {
    map["ssid" := JString(cfg.ssid), "psk" := JString(cfg.psk), "devname" := JString(cfg.devname),
        "reset_hold_seconds" := JInt(cfg.resetHoldSeconds)]
  }

  /**
    A JSON string literal in which only `"` and `\` are escaped. ArduinoJson
    also escapes `\b`, `\f`, `\n`, `\r` and `\t`; this rendering leaves them
    as they are, so it is illustrative rather than byte-exact.
   */
  function JsonQuote(s: string): (r: string)
    ensures |r| >= 2
  {
    "\"" + JsonEscape(s) + "\""
  }

  function JsonEscape(s: string): string
    decreases |s|
  {
    if s == [] then []
    else (if s[0] == '"' || s[0] == '\\' then ['\\', s[0]] else [s[0]]) + JsonEscape(s[1..])
  }

  /**
    An illustrative rendering of the saved document as `serializeJson` lays it
    out (keys in insertion order). Its length, and so whether a write fits, is
    that of this rendering; the model relies only on the parsed document.
   */
  function SerializeConfig(cfg: Config): (text: string)
    ensures |text| > 0
  {
    "{\"ssid\":" + JsonQuote(cfg.ssid) + ",\"psk\":" + JsonQuote(cfg.psk)
    + ",\"devname\":" + JsonQuote(cfg.devname)
    + ",\"reset_hold_seconds\":" + DecimalString(cfg.resetHoldSeconds) + "}"
  }

  /** The result of a writer: the boolean it returns and the filesystem afterwards. */
  datatype WriteOutcome = WriteOutcome(ok: bool, fs: FileSystem)

  /** The filesystem's behaviour flags are the same in both states. */
  predicate SameDevice(a: FileSystem, b: FileSystem) {
    && a.mounted == b.mounted && a.readOpenOk == b.readOpenOk && a.writeOpenOk == b.writeOpenOk
    && a.room == b.room && a.removeOk == b.removeOk
  }

  /** The flash has room for all of `text`. */
  predicate Fits(room: Option<nat>, text: string) {
    room.None? || room.value >= |text|
  }

  /** What a write of `text` puts down: all of it when it fits, else the part the room allows. */
  function Written(room: Option<nat>, text: string): (w: string)
    ensures w <= text
    ensures w == text <==> Fits(room, text)
    ensures room.Some? && !Fits(room, text) ==> |w| == room.value
  {
    if Fits(room, text) then text else text[..room.value]
  }

  /**
    `saveConfig`: mount, open for writing (which truncates), serialise the four
    persisted fields. It fails only when no byte at all is written; a write cut
    short by a full flash still reports success, and leaves a truncated file
    that does not parse. An empty write leaves an empty, unparseable file.
   */
  function SaveConfig(fs: FileSystem, cfg: Config): (r: WriteOutcome)
    ensures SameDevice(r.fs, fs)
    ensures r.ok <==> fs.mounted && fs.writeOpenOk && fs.room != Some(0)
    ensures !fs.mounted || !fs.writeOpenOk ==> r.fs == fs
    // the file holds what was written: the serialised record, or a prefix of it
    ensures fs.mounted && fs.writeOpenOk ==>
      && r.fs.config.Some?
      && r.fs.config.value.text == Written(fs.room, SerializeConfig(cfg))
    // it parses back to the saved document exactly when all of it was written
    ensures fs.mounted && fs.writeOpenOk && Fits(fs.room, SerializeConfig(cfg)) ==>
      r.fs.config.value.parsed == Some(SavedDocument(cfg))
    ensures fs.mounted && fs.writeOpenOk && !Fits(fs.room, SerializeConfig(cfg)) ==>
      r.fs.config.value.parsed.None?
  {
    if !fs.mounted then WriteOutcome(false, fs)
    else if !fs.writeOpenOk then WriteOutcome(false, fs)
    else
      var text := SerializeConfig(cfg);
      var put := Written(fs.room, text);
      var parsed := if put == text then Some(SavedDocument(cfg)) else None;
      WriteOutcome(|put| > 0, fs.(config := Some(StoredFile(put, parsed))))
  }

  /**
    Round trip: after a successful save of a record with a usable SSID, loading
    (into any record) succeeds exactly when the whole record was written and
    the file opens for reading, and then yields the same four persisted fields;
    otherwise the load fails and leaves the record alone.
   */
  lemma SaveThenLoad(fs: FileSystem, c: Config, prior: Config)
    requires SaveConfig(fs, c).ok
    requires !IsBlank(c.ssid)
    ensures var l := LoadConfig(SaveConfig(fs, c).fs, prior);
      && (l.ok <==> Fits(fs.room, SerializeConfig(c)) && fs.readOpenOk)
      && (l.ok ==> l.cfg == prior.(ssid := c.ssid, psk := c.psk, devname := c.devname, resetHoldSeconds := c.resetHoldSeconds))
      && (!l.ok ==> l.cfg == prior)
  {
  }

  /**
    A write cut short by a full flash reports success, yet what it leaves
    behind loads as "not configured".
   */
  lemma TruncatedSaveReportsSuccess(fs: FileSystem, c: Config, prior: Config)
    requires fs.mounted && fs.writeOpenOk
    requires fs.room.Some? && 0 < fs.room.value < |SerializeConfig(c)|
    ensures SaveConfig(fs, c).ok
    ensures LoadConfig(SaveConfig(fs, c).fs, prior) == LoadOutcome(false, prior)
  {
  }

  /** A saved record with a blank SSID loads as "not configured". */
  lemma SaveBlankThenLoadFails(fs: FileSystem, c: Config, prior: Config)
    requires SaveConfig(fs, c).ok
    requires IsBlank(c.ssid)
    ensures !LoadConfig(SaveConfig(fs, c).fs, prior).ok
  {
  }

  /** `eraseConfig`: mount, then remove the file if it exists; an absent file is success. */
  function EraseConfig(fs: FileSystem): (r: WriteOutcome)
    ensures SameDevice(r.fs, fs)
    ensures !fs.mounted ==> !r.ok
    ensures fs.mounted && fs.config.None? ==> r.ok
    ensures fs.mounted && fs.config.Some? ==> r.ok == fs.removeOk
    ensures r.ok ==> r.fs.config.None?
    ensures !r.ok ==> r.fs == fs
  {
    if !fs.mounted then WriteOutcome(false, fs)
    else if fs.config.Some? then
      if fs.removeOk then WriteOutcome(true, fs.(config := None)) else WriteOutcome(false, fs)
    else WriteOutcome(true, fs)
  }

  /** Erasing twice is erasing once: a second erase after a successful one succeeds and changes nothing. */
  lemma EraseIdempotent(fs: FileSystem)
    requires EraseConfig(fs).ok
    ensures var once := EraseConfig(fs).fs;
      EraseConfig(once).ok && EraseConfig(once).fs == once
  {
  }

  /** After a successful erase, loading reports "not configured" and leaves the record alone. */
  lemma EraseThenLoad(fs: FileSystem, cfg: Config)
    requires EraseConfig(fs).ok
    ensures LoadConfig(EraseConfig(fs).fs, cfg) == LoadOutcome(false, cfg)
  {
  }
}

=== FILE: connect_wait.dfy ===
/**
  The bounded station-connect wait, written three times in the firmware
  (`setup` in src/main.cpp, `tryConnectWifi` in src/init.cpp and `handleSave`
  in src/provisioning.cpp) and modelled once here:

      start = millis();
      while (millis() - start < timeout) {
        if (WiFi.status() == WL_CONNECTED) break;
        if (checkFactoryReset()) return;   // not in handleSave
        delay(200);
      }

  Time is the elapsed milliseconds since `start`; a pass that is not cut
  short costs the 200 ms delay plus however long the reset check watched the
  button. The radio is a sequence of status samples, sample `i` being the one
  read at the top of pass `i`; after the recorded samples run out it reports
  `Disconnected`. The status read after the loop is sample number
  "passes completed".
 */
module ConnectWait {
  import opened Hal
  import opened ConfigStore
  import opened Effects
  import opened FactoryReset

  const ConnectTimeoutMs: nat := 15000
  const PollDelayMs: nat := 200

  /** Status sample `i`. */
  function StatusAt(wifi: seq<WifiStatus>, i: nat): WifiStatus {
    if i < |wifi| then wifi[i] else Disconnected
  }

  /** The button reads for the reset check of pass `i`; untouched once they run out. */
  function ButtonAt(buttons: seq<ButtonInput>, i: nat): ButtonInput {
    if i < |buttons| then buttons[i] else Untouched
  }

  datatype WaitExit = SawConnected | TimedOut | ResetFired

  /** How the wait ended, after how many completed passes and elapsed milliseconds, and what the reset check did. */
  datatype WaitResult = WaitResult(exit: WaitExit, passes: nat, elapsedMs: nat, effects: seq<Effect>, fs: FileSystem)

  /** One pass of the loop body. */
  datatype Tick = Stop(exit: WaitExit, effects: seq<Effect>, fs: FileSystem) | Continue(elapsedMs: nat)

  /** Pass `i` of the wait starting at `elapsedMs` into the wait. */
  function WaitTick(
    i: nat, elapsedMs: nat, timeoutMs: nat, wifi: seq<WifiStatus>,
    resetCheck: bool, buttons: seq<ButtonInput>, cfg: Config, fs: FileSystem): (t: Tick)
    ensures t.Continue? ==> elapsedMs < timeoutMs && t.elapsedMs >= elapsedMs + PollDelayMs
    ensures t.Stop? && t.exit == TimedOut <==> elapsedMs >= timeoutMs
    ensures t.Stop? && t.exit == SawConnected <==> elapsedMs < timeoutMs && StatusAt(wifi, i) == Connected
    ensures t.Stop? && t.exit == ResetFired <==>
      && elapsedMs < timeoutMs && StatusAt(wifi, i) != Connected
      && resetCheck && CheckFactoryReset(cfg, fs, ButtonAt(buttons, i)).fired
    ensures t.Stop? && t.exit != ResetFired ==> t.effects == [] && t.fs == fs
    ensures t.Stop? && t.exit == ResetFired ==>
      t.effects == CheckFactoryReset(cfg, fs, ButtonAt(buttons, i)).effects
      && t.fs == CheckFactoryReset(cfg, fs, ButtonAt(buttons, i)).fs
  {
    if elapsedMs >= timeoutMs then Stop(TimedOut, [], fs)
    else if StatusAt(wifi, i) == Connected then Stop(SawConnected, [], fs)
    else if !resetCheck then Continue(elapsedMs + PollDelayMs)
    else
      var c := CheckFactoryReset(cfg, fs, ButtonAt(buttons, i));
      if c.fired then Stop(ResetFired, c.effects, c.fs)
      else Continue(elapsedMs + c.durationMs + PollDelayMs)
  }

  /** No reset check between passes `i` (inclusive) and `n` (exclusive) watched a pressed button. */
  predicate QuietBetween(resetCheck: bool, buttons: seq<ButtonInput>, i: nat, n: nat) {
    !resetCheck || forall j :: i <= j < n ==> ButtonAt(buttons, j).gate == High
  }

  /** The whole wait from pass `i` on. */
  function WaitLoop(
    i: nat, elapsedMs: nat, timeoutMs: nat, wifi: seq<WifiStatus>,
    resetCheck: bool, buttons: seq<ButtonInput>, cfg: Config, fs: FileSystem): (r: WaitResult)
    ensures r.passes >= i
    // the loop stops at the first connected sample
    ensures forall j :: i <= j < r.passes ==> StatusAt(wifi, j) != Connected
    ensures r.exit == SawConnected ==> StatusAt(wifi, r.passes) == Connected
    // every earlier reset check came to nothing
    ensures resetCheck ==> forall j :: i <= j < r.passes ==> !CheckFactoryReset(cfg, fs, ButtonAt(buttons, j)).fired
    ensures r.exit == ResetFired ==>
      && resetCheck
      && StatusAt(wifi, r.passes) != Connected
      && CheckFactoryReset(cfg, fs, ButtonAt(buttons, r.passes)).fired
      && r.effects == CheckFactoryReset(cfg, fs, ButtonAt(buttons, r.passes)).effects
      && r.fs == CheckFactoryReset(cfg, fs, ButtonAt(buttons, r.passes)).fs
    ensures r.exit != ResetFired ==> r.effects == [] && r.fs == fs
    // time: the wait ends only by timing out, or before the budget is spent
    ensures r.exit == TimedOut <==> r.elapsedMs >= timeoutMs
    ensures r.elapsedMs >= elapsedMs + PollDelayMs * (r.passes - i)
    ensures elapsedMs < timeoutMs ==> elapsedMs + PollDelayMs * (r.passes - i) < timeoutMs + PollDelayMs
    ensures QuietBetween(resetCheck, buttons, i, r.passes) ==> r.elapsedMs == elapsedMs + PollDelayMs * (r.passes - i)
    decreases timeoutMs - elapsedMs
  {
    match WaitTick(i, elapsedMs, timeoutMs, wifi, resetCheck, buttons, cfg, fs)
    case Stop(exit, effects, fs') => WaitResult(exit, i, elapsedMs, effects, fs')
    case Continue(next) =>
      WaitLoop(i + 1, next, timeoutMs, wifi, resetCheck, buttons, cfg, fs)
  }

  /** The whole wait as the firmware runs it: from pass 0 at time 0. */
  function Wait(timeoutMs: nat, wifi: seq<WifiStatus>, resetCheck: bool, buttons: seq<ButtonInput>, cfg: Config, fs: FileSystem): WaitResult {
    WaitLoop(0, 0, timeoutMs, wifi, resetCheck, buttons, cfg, fs)
  }

  /** The status read right after the loop. */
  function ConnectedAfter(wifi: seq<WifiStatus>, r: WaitResult): bool {
    StatusAt(wifi, r.passes) == Connected
  }

  /**
    The read after the loop agrees with how the loop ended: a wait that saw
    the connection reads connected, and one cut short by a reset does not.
   */
  lemma ConnectedAfterAgreesWithExit(
    timeoutMs: nat, wifi: seq<WifiStatus>, resetCheck: bool, buttons: seq<ButtonInput>, cfg: Config, fs: FileSystem)
    ensures var r := Wait(timeoutMs, wifi, resetCheck, buttons, cfg, fs);
      && (r.exit == SawConnected ==> ConnectedAfter(wifi, r))
      && (r.exit == ResetFired ==> !ConnectedAfter(wifi, r))
  {
  }

  /**
    With the 15 s budget, the wait runs at most 75 passes; with nobody touching
    the button it also ends within 15000 ms.
   */
  lemma WaitIsBounded(wifi: seq<WifiStatus>, resetCheck: bool, buttons: seq<ButtonInput>, cfg: Config, fs: FileSystem)
    ensures var r := Wait(ConnectTimeoutMs, wifi, resetCheck, buttons, cfg, fs);
      && r.passes <= 75
      && (QuietBetween(resetCheck, buttons, 0, r.passes) ==> r.elapsedMs <= ConnectTimeoutMs)
  {
  }

  /** A connected sample before the budget is spent always ends the wait connected. */
  lemma EarlyConnectionWins(wifi: seq<WifiStatus>, buttons: seq<ButtonInput>, cfg: Config, fs: FileSystem, k: nat)
    requires k < 75
    requires StatusAt(wifi, k) == Connected
    requires forall j :: 0 <= j < k ==> ButtonAt(buttons, j).gate == High
    ensures var r := Wait(ConnectTimeoutMs, wifi, true, buttons, cfg, fs);
      r.exit == SawConnected && r.passes <= k && ConnectedAfter(wifi, r)
  {
    var r := Wait(ConnectTimeoutMs, wifi, true, buttons, cfg, fs);
    assert r.passes <= k;
    assert QuietBetween(true, buttons, 0, r.passes);
    assert r.elapsedMs == PollDelayMs * r.passes;
    if r.passes < k {
      assert ButtonAt(buttons, r.passes).gate == High;
    }
  }
}

=== FILE: display.dfy ===
/**
  The arithmetic and text of the on-device display (src/display.cpp): the
  text-size choice, the uptime string, the menu index under rotation, the
  menu window, menu selection and the configuration screen. Drawing on the
  panel is left abstract; screens are the lines they print.
 */
module Display {
  import opened Hal
  import opened Text
  import opened ConfigStore

  const MenuItems: seq<string> := ["Status", "Config", "Climate", "Reboot"]
  const MenuItemsCount: int := 4
  const MaxVisibleMenuItems: int := 6
  /** The approximate width of one character at text size 1, in pixels. */
  const CharWidthPx: int := 6

  /** The width in pixels of `len` bytes of text at text size `size` (the firmware counts bytes as characters). */
  function TextWidth(len: nat, size: int): int {
    len * (size * CharWidthPx)
  }

  /**
    `getOptimalTextSize`: the largest size in 3, 2, 1 at which the text fits
    in `maxWidth` pixels, or 1 when none does.
   */
  method GetOptimalTextSize(text: string, maxWidth: int) returns (size: int)
    ensures 1 <= size <= 3
    ensures size > 1 ==> TextWidth(ByteLength(text), size) <= maxWidth
    ensures forall s :: size < s <= 3 ==> TextWidth(ByteLength(text), s) > maxWidth
  {
    var len := ByteLength(text);
    size := 3;
    while size >= 1
      invariant 0 <= size <= 3
      invariant forall s :: size < s <= 3 ==> TextWidth(len, s) > maxWidth
      decreases size
    {
      var charWidth := size * CharWidthPx;
      if len * charWidth <= maxWidth {
        return;
      }
      size := size - 1;
    }
    return 1;
  }

  /** The three shapes of the uptime string. */
  datatype Uptime =
    | DaysForm(days: nat, hours: nat, minutes: nat)
    | HoursForm(hours: nat, minutes: nat)
    | MinutesForm(minutes: nat, seconds: nat)

  /**
    `formatUptime` for a given `millis()` reading: "Dd Hh Mm" from one day on,
    "Hh Mm" from one hour on, else "Mm Ss".
   */
  function FormatUptime(ms: u32): (r: string)
    ensures |r| >= 5
    ensures r[|r| - 1] == 's' <==> ms < 3_600_000
  {
    var seconds := ms / 1000;
    var minutes := seconds / 60;
    var hours := minutes / 60;
    var days := hours / 24;
    if days > 0 then
      DecimalString(days) + "d " + DecimalString(hours % 24) + "h " + DecimalString(minutes % 60) + "m"
    else if hours > 0 then
      DecimalString(hours) + "h " + DecimalString(minutes % 60) + "m"
    else
      DecimalString(minutes) + "m " + DecimalString(seconds % 60) + "s"
  }

  /** What an uptime reading says about the seconds since boot: each field in range, the total within the shown precision. */
  predicate Denotes(u: Uptime, seconds: nat) {
    match u
    case DaysForm(d, h, m) =>
      d > 0 && h < 24 && m < 60
      && d * 86400 + h * 3600 + m * 60 <= seconds < d * 86400 + h * 3600 + m * 60 + 60
    case HoursForm(h, m) =>
      0 < h < 24 && m < 60
      && h * 3600 + m * 60 <= seconds < h * 3600 + m * 60 + 60
    case MinutesForm(m, s) =>
      m < 60 && s < 60 && m * 60 + s == seconds
  }

  /** One field of an uptime string: a number, its unit letter, and the text after the separating space. */
  datatype Field = Field(value: nat, unit: char, rest: string)

  /** Read a number and its unit letter from the front of `s`, skipping one space after the letter. */
  function ReadField(s: string): Option<Field> {
    var (digits, after) := SplitDigits(s);
    if digits == [] || after == [] then None
    else
      var rest := if |after| >= 2 && after[1] == ' ' then after[2..] else after[1..];
      Some(Field(DecimalValue(digits), after[0], rest))
  }

  /** Reading an uptime string back: two or three fields whose units name the shape. */
  function ParseUptime(s: string): Option<Uptime> {
    match ReadField(s)
    case None => None
    case Some(f1) =>
      match ReadField(f1.rest)
      case None => None
      case Some(f2) => if f1.unit == 'd' then ParseDays(f1, f2) else ParseShort(f1, f2)
  }

  /** The rest of a days-first uptime string: hours, then a final minutes field. */
  function ParseDays(f1: Field, f2: Field): Option<Uptime> {
    if f2.unit != 'h' then None
    else
      match ReadField(f2.rest)
      case None => None
      case Some(f3) => if f3.unit == 'm' && f3.rest == [] then Some(DaysForm(f1.value, f2.value, f3.value)) else None
  }

  /** A two-field uptime string: hours and minutes, or minutes and seconds. */
  function ParseShort(f1: Field, f2: Field): Option<Uptime> {
    if f2.rest != [] then None
    else if f1.unit == 'h' && f2.unit == 'm' then Some(HoursForm(f1.value, f2.value))
    else if f1.unit == 'm' && f2.unit == 's' then Some(MinutesForm(f1.value, f2.value))
    else None
  }

  /** A number, a unit letter and a space read back as that field, leaving what follows. */
  lemma ReadFieldOf(n: nat, unit: char, rest: string)
    requires !IsDigit(unit)
    ensures ReadField(DecimalString(n) + [unit, ' '] + rest) == Some(Field(n, unit, rest))
  {
    var d := DecimalString(n);
    assert d + [unit, ' '] + rest == d + ([unit, ' '] + rest);
    SplitDigitsOf(d, [unit, ' '] + rest);
    DecimalRoundTrip(n);
    assert ([unit, ' '] + rest)[2..] == rest;
  }

  /** A number and a final unit letter read back as the last field. */
  lemma ReadLastFieldOf(n: nat, unit: char)
    requires !IsDigit(unit)
    ensures ReadField(DecimalString(n) + [unit]) == Some(Field(n, unit, []))
  {
    var d := DecimalString(n);
    SplitDigitsOf(d, [unit]);
    DecimalRoundTrip(n);
    var after := SplitDigits(d + [unit]).1;
    assert after == [unit] && after[1..] == [];
  }

  lemma DaysFormReadsBack(d: nat, h: nat, m: nat)
    ensures ParseUptime(DecimalString(d) + "d " + DecimalString(h) + "h " + DecimalString(m) + "m") == Some(DaysForm(d, h, m))
  {
    var tail3 := DecimalString(m) + ['m'];
    var tail2 := DecimalString(h) + ['h', ' '] + tail3;
    assert DecimalString(d) + "d " + DecimalString(h) + "h " + DecimalString(m) + "m" == DecimalString(d) + ['d', ' '] + tail2;
    ReadFieldOf(d, 'd', tail2);
    ReadFieldOf(h, 'h', tail3);
    ReadLastFieldOf(m, 'm');
  }

  /** A two-field string read through its fields. */
  lemma ParseShortOf(a: nat, u1: char, b: nat, u2: char)
    requires !IsDigit(u1) && !IsDigit(u2)
    ensures ParseUptime(DecimalString(a) + [u1, ' '] + (DecimalString(b) + [u2]))
      == if u1 == 'd' then ParseDays(Field(a, u1, DecimalString(b) + [u2]), Field(b, u2, []))
         else ParseShort(Field(a, u1, DecimalString(b) + [u2]), Field(b, u2, []))
  {
    ReadFieldOf(a, u1, DecimalString(b) + [u2]);
    ReadLastFieldOf(b, u2);
  }

  /** `X + Y + Z` regrouped as `X + (Y + Z)`. */
  lemma Regroup(x: string, y: string, z: string)
    ensures x + y + z == x + (y + z)
  {
  }

  lemma HoursFormReadsBack(h: nat, m: nat)
    ensures ParseUptime(DecimalString(h) + "h " + DecimalString(m) + "m") == Some(HoursForm(h, m))
  {
    Regroup(DecimalString(h) + "h ", DecimalString(m), "m");
    ParseShortOf(h, 'h', m, 'm');
  }

  lemma MinutesFormReadsBack(m: nat, sec: nat)
    ensures ParseUptime(DecimalString(m) + "m " + DecimalString(sec) + "s") == Some(MinutesForm(m, sec))
  {
    Regroup(DecimalString(m) + "m ", DecimalString(sec), "s");
    ParseShortOf(m, 'm', sec, 's');
  }

  /** Seconds split into days, hours of the day, minutes of the hour and seconds of the minute. */
  lemma SecondsDecompose(seconds: nat)
    ensures var minutes := seconds / 60; var hours := minutes / 60; var days := hours / 24;
      seconds == days * 86400 + (hours % 24) * 3600 + (minutes % 60) * 60 + seconds % 60
      && hours == days * 24 + hours % 24
      && minutes == hours * 60 + minutes % 60
  {
  }

  /**
    Round trip: the uptime string always reads back, in the shape its
    magnitude selects, to fields that describe the seconds since boot.
   */
  lemma UptimeReadsBack(ms: u32)
    ensures var u := ParseUptime(FormatUptime(ms));
      && u.Some?
      && Denotes(u.value, ms / 1000)
      && (u.value.DaysForm? <==> ms / 1000 >= 86400)
      && (u.value.HoursForm? <==> 3600 <= ms / 1000 < 86400)
  {
    var seconds := ms / 1000;
    var minutes := seconds / 60;
    var hours := minutes / 60;
    var days := hours / 24;
    SecondsDecompose(seconds);
    if days > 0 {
      DaysFormReadsBack(days, hours % 24, minutes % 60);
    } else if hours > 0 {
      HoursFormReadsBack(hours, minutes % 60);
    } else {
      MinutesFormReadsBack(minutes, seconds % 60);
    }
  }

  /** C's `%` on `int`: it truncates toward zero, so a non-zero remainder has the dividend's sign. */
  function CRem(a: int, b: int): (r: int)
    requires b > 0
    ensures -b < r < b
    ensures a >= 0 ==> r >= 0
    ensures a < 0 ==> r <= 0
    ensures a == b * CQuot(a, b) + r
  {
    if a >= 0 then a % b else -((-a) % b)
  }

  /** C's `/` on `int`: the quotient truncated toward zero. */
  function CQuot(a: int, b: int): int
    requires b > 0
  {
    if a >= 0 then a / b else -((-a) / b)
  }

  /**
    The menu index after the encoder moved by `delta` detents: the C remainder,
    corrected into range when negative. The result is the unique index in range
    congruent to the old index plus the movement.
   */
  function NextMenuIndex(menuIndex: int, delta: int): (r: int)
    ensures 0 <= r < MenuItemsCount
    ensures (r - (menuIndex + delta)) % MenuItemsCount == 0
  {
    var i := CRem(menuIndex + delta, MenuItemsCount);
    if i < 0 then i + MenuItemsCount else i
  }

  /** The index is determined by those two facts: any in-range index congruent to the movement is the same one. */
  lemma NextMenuIndexUnique(menuIndex: int, delta: int, j: int)
    requires 0 <= j < MenuItemsCount
    requires (j - (menuIndex + delta)) % MenuItemsCount == 0
    ensures j == NextMenuIndex(menuIndex, delta)
  {
    var r := NextMenuIndex(menuIndex, delta);
    assert (j - r) % MenuItemsCount == 0 by {
      var a := j - (menuIndex + delta);
      var b := r - (menuIndex + delta);
      assert a == MenuItemsCount * (a / MenuItemsCount);
      assert b == MenuItemsCount * (b / MenuItemsCount);
      assert j - r == MenuItemsCount * (a / MenuItemsCount - b / MenuItemsCount);
    }
  }

  /**
    The first menu item shown, for `count` items and `maxVisible` rows:
    scrolling only happens when the items outnumber the rows, and the window
    then stays inside the list and keeps the current item visible.
   */
  function WindowStart(menuIndex: int, count: int, maxVisible: nat): (start: int)
    ensures count <= maxVisible ==> start == 0
    ensures count > maxVisible ==> 0 <= start && start + maxVisible <= count
    ensures count > maxVisible > 0 && 0 <= menuIndex < count ==> start <= menuIndex < start + maxVisible
  {
    if count > maxVisible then
      var s := menuIndex - maxVisible / 2;
      var s' := if s < 0 then 0 else s;
      if s' + maxVisible > count then count - maxVisible else s'
    else 0
  }

  /** The cursor column of a menu row. */
  function Marker(selected: bool): (m: string)
    ensures |m| == 2 && (m[0] == '>' <==> selected)
  {
    if selected then "> " else "  "
  }

  /**
    `displayMenu`: the rows from the window start up to the end of the list
    or of the visible rows. All four items are shown, in order, and the
    cursor marks exactly the row of the current index.
   */
  function MenuLines(menuIndex: int): (lines: seq<string>)
    ensures |lines| == MenuItemsCount
    ensures forall i :: 0 <= i < |lines| ==> |lines[i]| > 2 && lines[i][2..] == MenuItems[i]
    ensures forall i :: 0 <= i < |lines| ==> (lines[i][0] == '>' <==> i == menuIndex)
  {
    var start := WindowStart(menuIndex, MenuItemsCount, MaxVisibleMenuItems);
    var end := if start + MaxVisibleMenuItems < MenuItemsCount then start + MaxVisibleMenuItems else MenuItemsCount;
    var lines := seq(end - start, k requires 0 <= k < end - start => Marker(start + k == menuIndex) + MenuItems[start + k]);
    assert forall i :: 0 <= i < |lines| ==> lines[i] == Marker(i == menuIndex) + MenuItems[i];
    lines
  }

  /** What `handleMenuSelect` does for an index. */
  datatype MenuAction = ShowStatus | ShowConfig | ShowClimate | Reboot | NoAction

  /** The menu label each action belongs to. */
  function ActionLabel(a: MenuAction): string {
    match a
    case ShowStatus => "Status"
    case ShowConfig => "Config"
    case ShowClimate => "Climate"
    case Reboot => "Reboot"
    case NoAction => ""
  }

  /** `handleMenuSelect`: the selected item's screen, a restart for "Reboot", nothing out of range. */
  function MenuSelect(menuIndex: int): (a: MenuAction)
    ensures a == NoAction <==> !(0 <= menuIndex < MenuItemsCount)
    ensures 0 <= menuIndex < MenuItemsCount ==> ActionLabel(a) == MenuItems[menuIndex]
  {
    match menuIndex
    case 0 => ShowStatus
    case 1 => ShowConfig
    case 2 => ShowClimate
    case 3 => Reboot
    case _ => NoAction
  }

  /** `displayConfig`: SSID and device name in clear, the PSK as one `*` per byte of its text. */
  function ConfigScreen(cfg: Config): (lines: seq<string>)
    ensures |lines| == 3
    ensures lines[0] == "SSID: " + cfg.ssid && lines[2] == "Dev: " + cfg.devname
    ensures |lines[1]| == 5 + ByteLength(cfg.psk) && lines[1][..5] == "PSK: "
    ensures forall i :: 5 <= i < |lines[1]| ==> lines[1][i] == '*'
  {
    ["SSID: " + cfg.ssid, "PSK: " + Mask(cfg.psk), "Dev: " + cfg.devname]
  }

  /** The screen reveals only the PSK's byte length: records that differ only in PSK contents look alike. */
  lemma ConfigScreenHidesPsk(a: Config, b: Config)
    requires a.ssid == b.ssid && a.devname == b.devname && ByteLength(a.psk) == ByteLength(b.psk)
    ensures ConfigScreen(a) == ConfigScreen(b)
  {
    var la := ConfigScreen(a);
    var lb := ConfigScreen(b);
    assert la[1] == lb[1];
  }

  /** The menu part of `displayLoop`'s state: `menuIndex` and the function-local `lastPos` and `initialized`. */
  datatype MenuState = MenuState(menuIndex: int, lastPos: int, initialized: bool)

  const InitialMenu := MenuState(0, 0, false)

  /** What one pass did: the new state, whether the menu was redrawn, and the selection made. */
  datatype MenuOutput = MenuOutput(state: MenuState, redraw: bool, action: MenuAction)

  /**
    The menu part of one `displayLoop` pass with the encoder at `pos` and the
    press flag `pressed`: the first pass only records the position and draws
    the menu; later passes move the index by the movement since the last one;
    a press selects the current item.
   */
  function MenuStep(s: MenuState, pos: int, pressed: bool): (r: MenuOutput)
    ensures r.state.initialized && r.state.lastPos == pos
    ensures var base := if s.initialized then s.lastPos else pos;
      && (base == pos ==> r.state.menuIndex == s.menuIndex)
      && (base != pos ==>
            && 0 <= r.state.menuIndex < MenuItemsCount
            && (r.state.menuIndex - (s.menuIndex + (pos - base))) % MenuItemsCount == 0)
    ensures r.redraw <==> !s.initialized || pos != s.lastPos
    ensures r.action == (if pressed then MenuSelect(r.state.menuIndex) else NoAction)
  {
    var s1 := if !s.initialized then s.(lastPos := pos, initialized := true) else s;
    var moved := pos != s1.lastPos;
    var s2 := if moved then s1.(menuIndex := NextMenuIndex(s1.menuIndex, pos - s1.lastPos), lastPos := pos) else s1;
    MenuOutput(s2, !s.initialized || moved, if pressed then MenuSelect(s2.menuIndex) else NoAction)
  }

  /** The menu state after a sequence of passes, each seeing an encoder position (no presses). */
  function MenuRun(s: MenuState, positions: seq<int>): MenuState
    decreases |positions|
  {
    if positions == [] then s
    else MenuStep(MenuRun(s, positions[..|positions| - 1]), positions[|positions| - 1], false).state
  }

  /**
    Rotation is never lost: after any sequence of passes from an initialised
    menu, the index has moved by the total rotation, modulo the item count.
   */
  lemma {:induction false} MenuTracksRotation(s: MenuState, positions: seq<int>)
    requires s.initialized
    ensures var r := MenuRun(s, positions);
      var last := if positions == [] then s.lastPos else positions[|positions| - 1];
      && r.lastPos == last
      && (r.menuIndex - (s.menuIndex + (last - s.lastPos))) % MenuItemsCount == 0
    decreases |positions|
  {
    if positions != [] {
      var p := positions[..|positions| - 1];
      MenuTracksRotation(s, p);
      var before := MenuRun(s, p);
      var pos := positions[|positions| - 1];
      var r := MenuRun(s, positions);
      var prev := if p == [] then s.lastPos else p[|p| - 1];
      // the step's congruence composes with the prefix's
      var a := before.menuIndex - (s.menuIndex + (prev - s.lastPos));
      var b := r.menuIndex - (before.menuIndex + (pos - prev));
      assert r.menuIndex - (s.menuIndex + (pos - s.lastPos)) == a + b;
      assert a == MenuItemsCount * (a / MenuItemsCount);
      assert b == MenuItemsCount * (b / MenuItemsCount);
      assert a + b == MenuItemsCount * (a / MenuItemsCount + b / MenuItemsCount);
    }
  }

  /** From the power-on state the index starts at 0 and the first pass never moves it. */
  lemma FirstPassKeepsIndex(pos: int, pressed: bool)
    ensures var r := MenuStep(InitialMenu, pos, pressed);
      r.state.menuIndex == 0 && r.redraw
      && r.action == (if pressed then ShowStatus else NoAction)
  {
  }
}

=== FILE: effects.dfy ===
/**
  The observable actions of the firmware, recorded in order. Components that
  call into the radio, the web and DNS servers, OTA, mDNS, preferences, the
  display or the LED return the calls they make as a log of these effects,
  so that ordering properties ("the reply is sent before the connection
  attempt", "restart comes last") can be stated about the log.
 */
module Effects {
  import opened Hal
  import Led

  datatype Effect =
    | FormatFilesystem(ok: bool)           // LittleFS.format(), with its result
    | ClearPreferences(namespace: string)  // prefs.begin(ns) + prefs.clear() + prefs.end()
    | EraseConfigFile(ok: bool)            // eraseConfig(), with its result
    | ResetVisual                          // ledFactoryResetVisual()
    | Restart                              // ESP.restart()
    | WifiDisconnect                       // WiFi.disconnect()
    | WifiModeStation                      // WiFi.mode(WIFI_STA)
    | WifiModeAccessPoint                  // WiFi.mode(WIFI_AP)
    | WifiBegin(ssid: string, psk: string) // WiFi.begin(ssid, psk)
    | SoftAp(name: string)                 // WiFi.softAP(name)
    | DnsStart(port: nat, ip: string)      // dnsServer.start(port, "*", ip)
    | PortalBegin                          // server.begin() on the provisioning server
    | StatusServerBegin                    // startStatusServer()
    | Respond(code: nat, contentType: string, body: string)
    | OtaHostname(name: string)            // ArduinoOTA.setHostname
    | OtaPassword(password: string)        // ArduinoOTA.setPassword
    | OtaBegin                             // ArduinoOTA.begin()
    | EncoderCreated(clk: u8, dt: u8, sw: u8)
    | DisplayInit                          // displayInit(cfg)
    | DisplaySplash                        // displaySplashScreen(cfg)
    | MdnsBegin(host: string, ok: bool)    // MDNS.begin(host), with its result
    | MdnsService(service: string, proto: string, port: nat)
    | DnsProcess                           // dnsServer.processNextRequest()
    | PortalHandleClient                   // server.handleClient()
    | StatusHandleClient                   // statusServer.handleClient()
    | LedShow(color: Led.Color)            // a colour set by ledLoop

  /** The log contains an effect satisfying `p`. */
  predicate Any(log: seq<Effect>, p: Effect -> bool) {
    exists i :: 0 <= i < |log| && p(log[i])
  }

  predicate IsWifiBegin(e: Effect) { e.WifiBegin? }
  predicate IsStatusServerBegin(e: Effect) { e.StatusServerBegin? }
  predicate IsPortalBegin(e: Effect) { e.PortalBegin? }
  predicate IsRestart(e: Effect) { e.Restart? }
  predicate IsFormat(e: Effect) { e.FormatFilesystem? }
  predicate IsLedShow(e: Effect) { e.LedShow? }
  predicate IsServerWork(e: Effect) { e.StatusHandleClient? }
  predicate IsEncoderCreated(e: Effect) { e.EncoderCreated? }
  predicate IsMdnsBegin(e: Effect) { e.MdnsBegin? }

  /** How many effects in the log satisfy `p`. */
  function Count(log: seq<Effect>, p: Effect -> bool): (n: nat)
    ensures n <= |log|
    ensures n == 0 <==> !Any(log, p)
    decreases |log|
  {
    if log == [] then 0
    else
      var rest := Count(log[1..], p);
      assert Any(log, p) <==> p(log[0]) || Any(log[1..], p) by {
        if Any(log[1..], p) {
          var j :| 0 <= j < |log[1..]| && p(log[1..][j]);
          assert log[j + 1] == log[1..][j];
        }
        if Any(log, p) && !p(log[0]) {
          var j :| 0 <= j < |log| && p(log[j]);
          assert log[1..][j - 1] == log[j];
        }
      }
      (if p(log[0]) then 1 else 0) + rest
  }

  /** Counting distributes over concatenation. */
  lemma {:induction false} CountConcat(a: seq<Effect>, b: seq<Effect>, p: Effect -> bool)
    ensures Count(a + b, p) == Count(a, p) + Count(b, p)
    decreases |a|
  {
    if a != [] {
      assert (a + b)[0] == a[0];
      assert (a + b)[1..] == a[1..] + b;
      CountConcat(a[1..], b, p);
    } else {
      assert a + b == b;
    }
  }

  /** Absence distributes over concatenation. */
  lemma AnyConcat(a: seq<Effect>, b: seq<Effect>, p: Effect -> bool)
    ensures Any(a + b, p) <==> Any(a, p) || Any(b, p)
  {
    if Any(a + b, p) {
      var i :| 0 <= i < |a + b| && p((a + b)[i]);
      if i >= |a| {
        assert p(b[i - |a|]);
      }
    }
    if Any(a, p) {
      var j :| 0 <= j < |a| && p(a[j]);
      assert (a + b)[j] == a[j];
    }
    if Any(b, p) {
      var j :| 0 <= j < |b| && p(b[j]);
      assert (a + b)[|a| + j] == b[j];
    }
  }
}

=== FILE: encoder.dfy ===
/**
  The KY-040 rotary encoder driver (src/encoder.cpp): position counted on
  rising CLK edges, direction from DT, and a one-update press flag on the
  falling edge of the switch. An update consumes one sample of the three pins.
 */
module Encoder {
  import opened Hal

  /** `RotaryEncoder`: its pins, position and the previous CLK and switch levels. */
  datatype Encoder = Encoder(
    clkPin: u8, dtPin: u8, swPin: u8,
    position: int, lastClk: Level, buttonPressed: bool, lastButton: Level)

  /** One `digitalRead` of each pin, in the order `update` reads them. */
  datatype Sample = Sample(clk: Level, dt: Level, sw: Level)

  /** The constructor: position 0, both previous levels HIGH, no press. */
  function NewEncoder(clkPin: u8, dtPin: u8, swPin: u8): (r: Encoder)
    ensures r.position == 0 && !r.buttonPressed
    ensures r.lastClk == High && r.lastButton == High
    ensures r.clkPin == clkPin && r.dtPin == dtPin && r.swPin == swPin
  {
    Encoder(clkPin, dtPin, swPin, 0, High, false, High)
  }

  /** `begin`: resynchronise the previous levels from the pins; position and press flag stay. */
  function Begin(e: Encoder, clk: Level, sw: Level): (r: Encoder)
    ensures r.position == e.position && r.buttonPressed == e.buttonPressed
    ensures r.lastClk == clk && r.lastButton == sw
    ensures r.clkPin == e.clkPin && r.dtPin == e.dtPin && r.swPin == e.swPin
  {
    e.(lastClk := clk, lastButton := sw)
  }

  /** CLK went from LOW to HIGH. */
  predicate RisingEdge(last: Level, now: Level) {
    now != last && now == High
  }

  /** The switch went from released (HIGH) to pressed (LOW). */
  predicate FallingEdge(last: Level, now: Level) {
    last == High && now == Low
  }

  /** The change in position one sample causes. */
  function Click(lastClk: Level, s: Sample): (d: int)
    ensures -1 <= d <= 1
    ensures d != 0 <==> lastClk == Low && s.clk == High
    ensures d == 1 <==> lastClk == Low && s.clk == High && s.dt == Low
  {
    if RisingEdge(lastClk, s.clk) then (if s.dt == Low then 1 else -1) else 0
  }

  /** `update`. */
  function Update(e: Encoder, s: Sample): (r: Encoder)
    ensures r.lastClk == s.clk && r.lastButton == s.sw
    ensures r.position == e.position + Click(e.lastClk, s)
    ensures r.buttonPressed <==> FallingEdge(e.lastButton, s.sw)
    ensures r.clkPin == e.clkPin && r.dtPin == e.dtPin && r.swPin == e.swPin
  {
    var pos := if RisingEdge(e.lastClk, s.clk) then
      (if s.dt == Low then e.position + 1 else e.position - 1)
    else e.position;
    e.(position := pos, lastClk := s.clk,
       buttonPressed := s.sw == Low && e.lastButton == High,
       lastButton := s.sw)
  }

  /** The encoder after a sequence of updates. */
  function Updates(e: Encoder, samples: seq<Sample>): Encoder
    decreases |samples|
  {
    if samples == [] then e
    else Update(Updates(e, samples[..|samples| - 1]), samples[|samples| - 1])
  }

  /** The CLK level before sample `i`: the stored one for the first sample, else the previous sample's. */
  function ClkBefore(first: Level, samples: seq<Sample>, i: nat): Level
    requires i < |samples|
  {
    if i == 0 then first else samples[i - 1].clk
  }

  /** The switch level before sample `i`. */
  function SwBefore(first: Level, samples: seq<Sample>, i: nat): Level
    requires i < |samples|
  {
    if i == 0 then first else samples[i - 1].sw
  }

  /** The net count of a trace: rising CLK edges with DT LOW minus those with DT HIGH. */
  function NetClicks(first: Level, samples: seq<Sample>): int
    decreases |samples|
  {
    if samples == [] then 0
    else
      var n := |samples| - 1;
      NetClicks(first, samples[..n])
      + (if ClkBefore(first, samples, n) == Low && samples[n].clk == High
         then (if samples[n].dt == Low then 1 else -1) else 0)
  }

  /** The number of rising CLK edges in a trace. */
  function RisingEdges(first: Level, samples: seq<Sample>): (k: nat)
    ensures k <= |samples|
    decreases |samples|
  {
    if samples == [] then 0
    else
      var n := |samples| - 1;
      RisingEdges(first, samples[..n]) + (if ClkBefore(first, samples, n) == Low && samples[n].clk == High then 1 else 0)
  }

  /**
    Over any trace, the position moves by the net number of clicks, the
    previous levels are the last sample's, and the press flag is set exactly
    when the last sample caught the switch going down.
   */
  lemma {:induction false} UpdatesCountClicks(e: Encoder, samples: seq<Sample>)
    ensures var r := Updates(e, samples);
      && r.position == e.position + NetClicks(e.lastClk, samples)
      && (samples != [] ==> r.lastClk == samples[|samples| - 1].clk && r.lastButton == samples[|samples| - 1].sw)
      && (samples != [] ==> (r.buttonPressed <==>
            FallingEdge(SwBefore(e.lastButton, samples, |samples| - 1), samples[|samples| - 1].sw)))
      && (samples == [] ==> r == e)
    decreases |samples|
  {
    if samples != [] {
      var n := |samples| - 1;
      var p := samples[..n];
      UpdatesCountClicks(e, p);
      var before := Updates(e, p);
      assert before.lastClk == ClkBefore(e.lastClk, samples, n);
      assert before.lastButton == SwBefore(e.lastButton, samples, n);
    }
  }

  /** The position never moves further than the number of rising edges. */
  lemma {:induction false} NetBoundedByEdges(first: Level, samples: seq<Sample>)
    ensures 0 - RisingEdges(first, samples) as int <= NetClicks(first, samples) <= RisingEdges(first, samples)
    decreases |samples|
  {
    if samples != [] {
      NetBoundedByEdges(first, samples[..|samples| - 1]);
    }
  }

  /**
    Before `begin` the previous levels are HIGH, so the first update after
    construction never moves the position, and it reports a press exactly
    when the switch already reads LOW.
   */
  lemma FirstUpdateNeverMoves(clkPin: u8, dtPin: u8, swPin: u8, s: Sample)
    ensures var r := Update(NewEncoder(clkPin, dtPin, swPin), s);
      r.position == 0 && (r.buttonPressed <==> s.sw == Low)
  {
  }

  /**
    `begin` resynchronises with the pins: an update that reads the levels
    `begin` read sees no edge, so the position stays and no press is reported,
    whatever DT reads.
   */
  lemma BeginPreventsSpuriousEdges(e: Encoder, clk: Level, sw: Level, dt: Level)
    ensures var r := Update(Begin(e, clk, sw), Sample(clk, dt, sw));
      r.position == e.position && !r.buttonPressed
      && r.clkPin == e.clkPin && r.dtPin == e.dtPin && r.swPin == e.swPin
  {
  }

  /** A switch held down across updates reports one press only: the update after a pressed one is not pressed. */
  lemma HeldButtonPressesOnce(e: Encoder, s1: Sample, s2: Sample)
    requires s1.sw == Low && s2.sw == Low
    ensures !Update(Update(e, s1), s2).buttonPressed
  {
  }

  /** Steady CLK never moves the position, whatever DT does. */
  lemma SteadyClockDoesNotMove(e: Encoder, s: Sample)
    requires s.clk == e.lastClk
    ensures Update(e, s).position == e.position
  {
  }
}

=== FILE: factory_reset.dfy ===
/**
  The factory-reset monitor (src/system.cpp): the hold-duration clamp, the
  button-hold poll loop, and the fixed effect sequence of the reset itself.

  The BOOT button is sampled by `digitalRead(0)`. One check consumes a
  `ButtonInput`: the gate read that decides whether to watch the button at all,
  then the reads of the hold loop, `held[j]` being the read made `200 * j` ms
  after the loop started. Once the recorded reads run out the button reads
  HIGH (released).
 */
module FactoryReset {
  import opened Hal
  import opened ConfigStore
  import opened Effects

  const DefaultHoldSeconds: nat := 10
  const SamplePeriodMs: nat := 200
  const PrefsNamespace := "thermabridge"

  /** The hold duration actually used: the configured seconds when positive, else 10. */
  function EffectiveHoldSeconds(cfg: Config): (s: nat)
    ensures s > 0
    ensures cfg.resetHoldSeconds > 0 ==> s == cfg.resetHoldSeconds
    ensures cfg.resetHoldSeconds == 0 ==> s == DefaultHoldSeconds
  {
    if cfg.resetHoldSeconds > 0 then cfg.resetHoldSeconds else DefaultHoldSeconds
  }

  /** The reads one call of `checkFactoryReset` makes. */
  datatype ButtonInput = ButtonInput(gate: Level, held: seq<Level>)

  /** A button nobody touches. */
  const Untouched := ButtonInput(High, [])

  /** The `j`-th read of the hold loop; HIGH once the recorded reads run out. */
  function HeldAt(held: seq<Level>, j: nat): Level {
    if j < |held| then held[j] else High
  }

  /** How the hold loop ends: the button came up after `ms` milliseconds, or it was held long enough. */
  datatype HoldOutcome = ReleasedAfter(ms: nat) | HeldLongEnough

  /**
    The `while (digitalRead(0) == LOW)` loop from its `j`-th read on: a LOW read
    at least `holdMs` after the start fires; a HIGH read ends the loop; each
    pass waits 200 ms.
   */
  function HoldLoop(held: seq<Level>, j: nat, holdMs: nat): (r: HoldOutcome)
    requires j <= |held|
    ensures r.ReleasedAfter? ==> SamplePeriodMs * j <= r.ms
    ensures r.ReleasedAfter? ==> r.ms == SamplePeriodMs * j || r.ms < holdMs + SamplePeriodMs
    decreases |held| - j
  {
    if HeldAt(held, j) == High then ReleasedAfter(SamplePeriodMs * j)
    else if SamplePeriodMs * j >= holdMs then HeldLongEnough
    else HoldLoop(held, j + 1, holdMs)
  }

  /** The number of the read at which a continuous hold fires: the first `j` with `200 * j >= holdMs`. */
  function FiringRead(holdMs: nat): (k: nat)
    ensures SamplePeriodMs * k >= holdMs
    ensures k == 0 || SamplePeriodMs * (k - 1) < holdMs
  {
    (holdMs + SamplePeriodMs - 1) / SamplePeriodMs
  }

  /** The button reads LOW at every read from `j` through `k`. */
  predicate LowThrough(held: seq<Level>, j: nat, k: nat) {
    forall m :: j <= m <= k ==> HeldAt(held, m) == Low
  }

  /** The hold loop fires exactly when the button stays LOW from the current read through the firing read. */
  lemma {:induction false} HoldLoopFiresIff(held: seq<Level>, j: nat, holdMs: nat)
    requires j <= |held|
    requires j <= FiringRead(holdMs)
    ensures HoldLoop(held, j, holdMs).HeldLongEnough? <==> LowThrough(held, j, FiringRead(holdMs))
    decreases |held| - j
  {
    var k := FiringRead(holdMs);
    if HeldAt(held, j) == High {
      assert !LowThrough(held, j, k);
    } else if SamplePeriodMs * j >= holdMs {
      assert j == k;
    } else {
      assert j < |held|;
      HoldLoopFiresIff(held, j + 1, holdMs);
      assert LowThrough(held, j, k) <==> LowThrough(held, j + 1, k);
    }
  }

  /** What one call of `checkFactoryReset` did: whether it fired, how long it watched, its effects. */
  datatype ResetCheck = ResetCheck(fired: bool, durationMs: nat, effects: seq<Effect>, fs: FileSystem)

  /** The effects of `factoryResetAction`, in order, given what `eraseConfig` returned. */
  function ResetEffects(eraseOk: bool): seq<Effect> {
    [ClearPreferences(PrefsNamespace), EraseConfigFile(eraseOk), ResetVisual, Restart]
  }

  /**
    The reset's effects format nothing, start no server or Wi-Fi, serve nothing and run no
    `ledLoop` step; the only light they make is the reset visual itself.
   */
  lemma ResetEffectsStartNothing(eraseOk: bool)
    ensures var e := ResetEffects(eraseOk);
      && !Any(e, IsFormat) && !Any(e, IsServerWork) && !Any(e, IsLedShow)
      && !Any(e, IsStatusServerBegin) && !Any(e, IsPortalBegin) && !Any(e, IsWifiBegin)
  {
  }

  /**
    `factoryResetAction`: clear the preferences namespace, erase the config file,
    show the visual, restart. The restart does not depend on the erase result.
   */
  function FactoryResetAction(fs: FileSystem): (r: (seq<Effect>, FileSystem))
    ensures |r.0| == 4 && r.0[3] == Restart
    ensures r.0[0] == ClearPreferences("thermabridge")
    ensures r.0[1] == EraseConfigFile(EraseConfig(fs).ok)
    ensures r.0[2] == ResetVisual
    ensures forall i :: 0 <= i < 3 ==> r.0[i] != Restart
    ensures r.1 == EraseConfig(fs).fs
  {
    var e := EraseConfig(fs);
    (ResetEffects(e.ok), e.fs)
  }

  /** The hold in milliseconds `checkFactoryReset` requires for the given record. */
  function HoldMs(cfg: Config): (ms: nat)
    ensures ms >= 1000
  {
    EffectiveHoldSeconds(cfg) * 1000
  }

  /**
    `checkFactoryReset`: nothing unless the gate read is LOW; then watch the
    button until it comes up or has been down for the hold duration, in which
    case run the reset action.
   */
  function CheckFactoryReset(cfg: Config, fs: FileSystem, b: ButtonInput): (r: ResetCheck)
    ensures b.gate == High ==> !r.fired && r.durationMs == 0
    ensures !r.fired ==> r.effects == [] && r.fs == fs
    ensures !r.fired ==> r.durationMs < HoldMs(cfg) + SamplePeriodMs
    ensures r.fired ==> (r.effects, r.fs) == FactoryResetAction(fs)
  {
    var holdMs := HoldMs(cfg);
    if b.gate == High then ResetCheck(false, 0, [], fs)
    else
      match HoldLoop(b.held, 0, holdMs)
      case ReleasedAfter(ms) => ResetCheck(false, ms, [], fs)
      case HeldLongEnough =>
        var (effects, fs') := FactoryResetAction(fs);
        ResetCheck(true, holdMs, effects, fs')
  }

  /**
    The reset fires exactly when the gate read is LOW and every hold-loop read
    up to and including the one taken `hold * 1000` ms after the start is LOW.
   */
  lemma CheckFiresIff(cfg: Config, fs: FileSystem, b: ButtonInput)
    ensures CheckFactoryReset(cfg, fs, b).fired <==>
      b.gate == Low && LowThrough(b.held, 0, 5 * EffectiveHoldSeconds(cfg))
  {
    var holdMs := HoldMs(cfg);
    assert FiringRead(holdMs) == 5 * EffectiveHoldSeconds(cfg);
    HoldLoopFiresIff(b.held, 0, holdMs);
  }

  /** `n` consecutive LOW reads. */
  function LowReads(n: nat): (s: seq<Level>)
    ensures |s| == n && forall i :: 0 <= i < n ==> s[i] == Low
  {
    seq(n, _ => Low)
  }

  /** Boundary: a hold whose last LOW read is exactly `hold * 1000` ms after the start triggers the reset. */
  lemma ExactHoldTriggers(cfg: Config, fs: FileSystem)
    ensures var n := 5 * EffectiveHoldSeconds(cfg);
      var r := CheckFactoryReset(cfg, fs, ButtonInput(Low, LowReads(n + 1)));
      r.fired && r.effects[|r.effects| - 1] == Restart && r.fs == EraseConfig(fs).fs
  {
    var n := 5 * EffectiveHoldSeconds(cfg);
    CheckFiresIff(cfg, fs, ButtonInput(Low, LowReads(n + 1)));
  }

  /** Boundary: releasing one 200 ms read earlier does nothing at all. */
  lemma OneReadShortDoesNothing(cfg: Config, fs: FileSystem)
    ensures var n := 5 * EffectiveHoldSeconds(cfg);
      var r := CheckFactoryReset(cfg, fs, ButtonInput(Low, LowReads(n)));
      !r.fired && r.effects == [] && r.fs == fs
  {
    var n := 5 * EffectiveHoldSeconds(cfg);
    CheckFiresIff(cfg, fs, ButtonInput(Low, LowReads(n)));
    assert HeldAt(LowReads(n), n) == High;
  }

  /** A release before the hold duration never erases or restarts. */
  lemma EarlyReleaseIsHarmless(cfg: Config, fs: FileSystem, b: ButtonInput, j: nat)
    requires j < 5 * EffectiveHoldSeconds(cfg)
    requires HeldAt(b.held, j) == High
    ensures var r := CheckFactoryReset(cfg, fs, b);
      !r.fired && r.effects == [] && r.fs == fs
  {
    CheckFiresIff(cfg, fs, b);
  }
}

=== FILE: hal.dfy ===
/**
  Abstract hardware vocabulary shared by every component of the firmware model:
  fixed-width integer ranges, digital pin levels, the radio's association status
  and an Option type for values that may be absent.
 */
module Hal {

  /** An `uint8_t` value. */
  type u8 = x: int | 0 <= x < 256

  /** An `uint16_t` value. */
  type u16 = x: int | 0 <= x < 65536

  /** An `unsigned long` value (32 bits on the ESP32), such as `millis()`. */
  type u32 = x: int | 0 <= x < 0x1_0000_0000

  datatype Option<+T> = None | Some(value: T)

  /** A digital pin level as returned by `digitalRead`. Buttons are active-low. */
  datatype Level = Low | High

  /**
    The station-mode association status of the radio (`wl_status_t` of the
    ESP32 Arduino core). `Code` is the integer the firmware prints in JSON.
   */
  datatype WifiStatus =
    | IdleStatus
    | NoSsidAvail
    | ScanCompleted
    | Connected
    | ConnectFailed
    | ConnectionLost
    | Disconnected
    | NoShield
  {
    function Code(): nat {
      match this
      case IdleStatus => 0
      case NoSsidAvail => 1
      case ScanCompleted => 2
      case Connected => 3
      case ConnectFailed => 4
      case ConnectionLost => 5
      case Disconnected => 6
      case NoShield => 255
    }
  }
}

=== FILE: init_steps.dfy ===
/**
  The boot steps factored out of `setup` (src/init.cpp): mounting with
  format-and-remount recovery, loading the record with a fall-back to the
  portal, and the station-connect attempt that, on success, brings up the
  status server, OTA, the encoder, the display and mDNS.

  Each step returns the boolean the firmware returns together with the
  effects it caused and the state it leaves behind.
 */
module InitSteps {
  import opened Hal
  import opened ConfigStore
  import opened Effects
  import opened FactoryReset
  import opened ConnectWait
  import opened Provisioning

  /** The default of `tryConnectWifi`'s timeout parameter. */
  const DefaultConnectTimeoutMs: nat := 15000
  const MdnsHttpPort: nat := 80

  datatype MountOutcome = MountOutcome(ok: bool, fs: FileSystem, effects: seq<Effect>)

  /**
    `initFileSystem`: a filesystem that mounts is left alone; otherwise it is
    formatted once and mounted again. `formatOk` and `remountOk` are what
    `LittleFS.format()` and the second `LittleFS.begin()` return.
   */
  function InitFileSystem(fs: FileSystem, formatOk: bool, remountOk: bool): (r: MountOutcome)
    ensures r.ok <==> fs.mounted || (formatOk && remountOk)
    ensures fs.mounted ==> r.fs == fs && r.effects == []
    ensures !fs.mounted ==> r.effects == [FormatFilesystem(formatOk)]
    // a format wipes the partition; the mount state afterwards is the remount's
    ensures !fs.mounted && formatOk ==> r.fs.config.None? && r.fs.mounted == remountOk
    ensures !fs.mounted && !formatOk ==> r.fs == fs
    ensures r.fs.mounted == r.ok
  {
    if fs.mounted then MountOutcome(true, fs, [])
    else if !formatOk then MountOutcome(false, fs, [FormatFilesystem(false)])
    else MountOutcome(remountOk, fs.(mounted := remountOk, config := None), [FormatFilesystem(true)])
  }

  /** A mounted filesystem is never formatted, and recovery formats at most once. */
  lemma FormatOnlyAfterFailedMount(fs: FileSystem, formatOk: bool, remountOk: bool)
    ensures var r := InitFileSystem(fs, formatOk, remountOk);
      Count(r.effects, IsFormat) == (if fs.mounted then 0 else 1)
  {
  }

  datatype LoadStep = LoadStep(ok: bool, cfg: Config, started: Started)

  /** `tryLoadConfig`: load the record; on failure start the portal and report false. */
  function TryLoadConfig(cfg: Config, fs: FileSystem, s: Servers, mac: seq<u8>, apIp: string): (r: LoadStep)
    requires |mac| == 6
    ensures r.ok == LoadConfig(fs, cfg).ok
    ensures r.cfg == LoadConfig(fs, cfg).cfg
    // a loaded record starts nothing
    ensures r.ok ==> r.started.servers == s && r.started.effects == []
    // otherwise the portal comes up, provided the filesystem is mounted
    ensures r.started.servers.provisioningActive <==> s.provisioningActive || (!r.ok && fs.mounted)
    ensures r.started.servers.statusServerActive == s.statusServerActive
    ensures (PortalBegin in r.started.effects) <==> !r.ok && fs.mounted
  {
    var l := LoadConfig(fs, cfg);
    if !l.ok then LoadStep(false, l.cfg, StartProvisioning(s, fs, mac, apIp))
    else LoadStep(true, l.cfg, Started(s, []))
  }

  /** OTA set-up: host name, the password only when one is configured, then begin. */
  function OtaEffects(cfg: Config): (r: seq<Effect>)
    ensures |r| >= 2 && r[0] == OtaHostname(cfg.devname) && r[|r| - 1] == OtaBegin
    ensures OtaPassword(cfg.otaPassword) in r <==> cfg.otaPassword != ""
    ensures forall e :: e in r ==> e.OtaHostname? || e.OtaPassword? || e.OtaBegin?
  {
    [OtaHostname(cfg.devname)]
    + (if cfg.otaPassword != "" then [OtaPassword(cfg.otaPassword)] else [])
    + [OtaBegin]
  }

  /** The encoder is created on its three configured pins, and only when enabled. */
  function EncoderEffects(p: Peripherals): (r: seq<Effect>)
    ensures |r| == (if p.encoderEnabled then 1 else 0)
    ensures forall e :: e in r ==> e == EncoderCreated(p.encoderClkPin, p.encoderDtPin, p.encoderSwPin)
  {
    if p.encoderEnabled then [EncoderCreated(p.encoderClkPin, p.encoderDtPin, p.encoderSwPin)] else []
  }

  /** The effects of `mdns_enable`: begin, and register the HTTP service only when begin succeeded. */
  function MdnsEffects(cfg: Config, mdnsOk: bool): (r: seq<Effect>)
    ensures !cfg.mdnsEnable <==> r == []
    ensures cfg.mdnsEnable ==> r[0] == MdnsBegin(cfg.devname, mdnsOk)
    ensures MdnsService("http", "tcp", MdnsHttpPort) in r <==> cfg.mdnsEnable && mdnsOk
    ensures forall e :: e in r ==> e.MdnsBegin? || e.MdnsService?
  {
    if !cfg.mdnsEnable then []
    else if mdnsOk then [MdnsBegin(cfg.devname, true), MdnsService("http", "tcp", MdnsHttpPort)]
    else [MdnsBegin(cfg.devname, false)]
  }

  /** The services after the status server: OTA, the encoder, the display, mDNS. */
  function ServiceEffects(cfg: Config, mdnsOk: bool): (r: seq<Effect>)
    ensures |r| >= 4 && r[0] == OtaHostname(cfg.devname)
  {
    OtaEffects(cfg) + (EncoderEffects(cfg.peripherals) + ([DisplayInit, DisplaySplash] + MdnsEffects(cfg, mdnsOk)))
  }

  /** None of those services is a server start, a connection attempt or a restart. */
  lemma ServicesStartNothing(cfg: Config, mdnsOk: bool)
    ensures var r := ServiceEffects(cfg, mdnsOk);
      && !Any(r, IsStatusServerBegin) && !Any(r, IsPortalBegin) && !Any(r, IsWifiBegin) && !Any(r, IsRestart)
  {
    var r := ServiceEffects(cfg, mdnsOk);
    forall i | 0 <= i < |r|
      ensures !IsStatusServerBegin(r[i]) && !IsPortalBegin(r[i]) && !IsWifiBegin(r[i]) && !IsRestart(r[i])
    {
      assert r[i] in OtaEffects(cfg) || r[i] in EncoderEffects(cfg.peripherals)
        || r[i] in [DisplayInit, DisplaySplash] || r[i] in MdnsEffects(cfg, mdnsOk);
    }
  }

  /**
    What the connected branch of `tryConnectWifi` starts, in order: the status
    server, then OTA, the encoder when enabled, the display, and mDNS when enabled.
   */
  function ActivationEffects(cfg: Config, mdnsOk: bool): (r: seq<Effect>)
    ensures |r| >= 5 && r[0] == StatusServerBegin && r[1] == OtaHostname(cfg.devname)
  {
    [StatusServerBegin] + ServiceEffects(cfg, mdnsOk)
  }

  /** The optional services follow the record's settings: OTA password, encoder and mDNS each appear exactly when configured. */
  lemma ActivationFollowsSettings(cfg: Config, mdnsOk: bool)
    ensures var r := ActivationEffects(cfg, mdnsOk);
      && OtaBegin in r
      && (OtaPassword(cfg.otaPassword) in r <==> cfg.otaPassword != "")
      && (Any(r, IsEncoderCreated) <==> cfg.peripherals.encoderEnabled)
      && (Any(r, IsMdnsBegin) <==> cfg.mdnsEnable)
  {
    ActivationRunsOta(cfg, mdnsOk);
    ActivationOptionalServices(cfg, mdnsOk);
  }

  /** OTA always begins; its password is set exactly when one is configured. */
  lemma ActivationRunsOta(cfg: Config, mdnsOk: bool)
    ensures var r := ActivationEffects(cfg, mdnsOk);
      && OtaBegin in r
      && (OtaPassword(cfg.otaPassword) in r <==> cfg.otaPassword != "")
  {
    var ota := OtaEffects(cfg);
    var rest := EncoderEffects(cfg.peripherals) + ([DisplayInit, DisplaySplash] + MdnsEffects(cfg, mdnsOk));
    assert ActivationEffects(cfg, mdnsOk) == [StatusServerBegin] + (ota + rest);
    assert ota[|ota| - 1] in ota;
    forall e | e in rest ensures !e.OtaPassword? {
      assert e in EncoderEffects(cfg.peripherals) || e in [DisplayInit, DisplaySplash] || e in MdnsEffects(cfg, mdnsOk);
    }
  }

  /** The encoder and mDNS appear exactly when enabled. */
  lemma ActivationOptionalServices(cfg: Config, mdnsOk: bool)
    ensures var r := ActivationEffects(cfg, mdnsOk);
      && (Any(r, IsEncoderCreated) <==> cfg.peripherals.encoderEnabled)
      && (Any(r, IsMdnsBegin) <==> cfg.mdnsEnable)
  {
    var head := [StatusServerBegin] + OtaEffects(cfg);
    var rest := EncoderEffects(cfg.peripherals) + ([DisplayInit, DisplaySplash] + MdnsEffects(cfg, mdnsOk));
    assert ActivationEffects(cfg, mdnsOk) == head + rest;
    OptionalServicesFollowSettings(cfg, mdnsOk);
    AnyConcat(head, rest, IsEncoderCreated);
    AnyConcat(head, rest, IsMdnsBegin);
    forall i | 0 <= i < |head| ensures !IsEncoderCreated(head[i]) && !IsMdnsBegin(head[i]) {
      assert head[i] in head;
    }
  }

  /** The part after OTA: the encoder and mDNS appear exactly when enabled. */
  lemma OptionalServicesFollowSettings(cfg: Config, mdnsOk: bool)
    ensures var rest := EncoderEffects(cfg.peripherals) + ([DisplayInit, DisplaySplash] + MdnsEffects(cfg, mdnsOk));
      && (Any(rest, IsEncoderCreated) <==> cfg.peripherals.encoderEnabled)
      && (Any(rest, IsMdnsBegin) <==> cfg.mdnsEnable)
  {
    var enc := EncoderEffects(cfg.peripherals);
    var shown := [DisplayInit, DisplaySplash];
    var mdns := MdnsEffects(cfg, mdnsOk);
    AnyConcat(enc, shown + mdns, IsEncoderCreated);
    AnyConcat(shown, mdns, IsEncoderCreated);
    AnyConcat(enc, shown + mdns, IsMdnsBegin);
    AnyConcat(shown, mdns, IsMdnsBegin);
    if cfg.peripherals.encoderEnabled {
      assert IsEncoderCreated(enc[0]);
    }
    if cfg.mdnsEnable {
      assert IsMdnsBegin(mdns[0]);
    }
  }

  /** The activation starts the status server exactly once and never the portal, a connection or a restart. */
  lemma ActivationStartsOneServer(cfg: Config, mdnsOk: bool)
    ensures var r := ActivationEffects(cfg, mdnsOk);
      Count(r, IsStatusServerBegin) == 1
      && !Any(r, IsPortalBegin) && !Any(r, IsWifiBegin) && !Any(r, IsRestart)
  {
    var tail := ServiceEffects(cfg, mdnsOk);
    ServicesStartNothing(cfg, mdnsOk);
    CountConcat([StatusServerBegin], tail, IsStatusServerBegin);
    assert [StatusServerBegin][1..] == [];
    AnyConcat([StatusServerBegin], tail, IsPortalBegin);
    AnyConcat([StatusServerBegin], tail, IsWifiBegin);
    AnyConcat([StatusServerBegin], tail, IsRestart);
  }

  datatype ConnectStep = ConnectStep(ok: bool, effects: seq<Effect>, servers: Servers, fs: FileSystem, wait: WaitResult)

  /**
    `tryConnectWifi(timeoutMs)`: station mode, begin with the loaded
    credentials, run the bounded wait with the reset check; then either
    activate the station services or fall back to the portal. `mdnsOk` is what
    `MDNS.begin` returns.
   */
  function TryConnectWifi(
    timeoutMs: nat, cfg: Config, fs: FileSystem, s: Servers, wifi: seq<WifiStatus>,
    buttons: seq<ButtonInput>, mdnsOk: bool, mac: seq<u8>, apIp: string): (r: ConnectStep)
    requires |mac| == 6
    ensures r.wait == Wait(timeoutMs, wifi, true, buttons, cfg, fs)
    // true exactly when the status read after the wait is connected and no reset fired
    ensures r.ok <==> r.wait.exit != ResetFired && ConnectedAfter(wifi, r.wait)
    // a fired reset returns at once: nothing is started
    ensures r.wait.exit == ResetFired ==>
      && r.servers == s
      && r.effects == [WifiModeStation, WifiBegin(cfg.ssid, cfg.psk)] + r.wait.effects
      && r.fs == r.wait.fs
      && r.effects[|r.effects| - 1] == Restart
    ensures r.ok ==> r.servers == s.(statusServerActive := true) && r.fs == fs
    ensures r.ok ==> r.effects == [WifiModeStation, WifiBegin(cfg.ssid, cfg.psk)] + ActivationEffects(cfg, mdnsOk)
    // not connected and no reset: the portal is started instead
    ensures !r.ok && r.wait.exit != ResetFired ==>
      && r.servers == StartProvisioning(s, fs, mac, apIp).servers
      && r.effects == [WifiModeStation, WifiBegin(cfg.ssid, cfg.psk)] + StartProvisioning(s, fs, mac, apIp).effects
      && r.fs == fs
  {
    var begin := [WifiModeStation, WifiBegin(cfg.ssid, cfg.psk)];
    var w := Wait(timeoutMs, wifi, true, buttons, cfg, fs);
    if w.exit == ResetFired then
      ConnectStep(false, begin + w.effects, s, w.fs, w)
    else if ConnectedAfter(wifi, w) then
      ConnectStep(true, begin + ActivationEffects(cfg, mdnsOk), s.(statusServerActive := true), fs, w)
    else
      var st := StartProvisioning(s, fs, mac, apIp);
      ConnectStep(false, begin + st.effects, st.servers, fs, w)
  }

  /** The result does not depend on whether mDNS came up. */
  lemma MdnsFailureIsNotFatal(
    timeoutMs: nat, cfg: Config, fs: FileSystem, s: Servers, wifi: seq<WifiStatus>,
    buttons: seq<ButtonInput>, mac: seq<u8>, apIp: string)
    requires |mac| == 6
    ensures TryConnectWifi(timeoutMs, cfg, fs, s, wifi, buttons, false, mac, apIp).ok
        == TryConnectWifi(timeoutMs, cfg, fs, s, wifi, buttons, true, mac, apIp).ok
    ensures TryConnectWifi(timeoutMs, cfg, fs, s, wifi, buttons, false, mac, apIp).servers
        == TryConnectWifi(timeoutMs, cfg, fs, s, wifi, buttons, true, mac, apIp).servers
  {
  }

  /**
    A connection seen before the default budget is spent, with nobody at the
    button, always activates the station services.
   */
  lemma EarlyConnectionActivates(
    cfg: Config, fs: FileSystem, s: Servers, wifi: seq<WifiStatus>,
    buttons: seq<ButtonInput>, mdnsOk: bool, mac: seq<u8>, apIp: string, k: nat)
    requires |mac| == 6
    requires k < 75 && StatusAt(wifi, k) == Connected
    requires forall j :: 0 <= j < k ==> ButtonAt(buttons, j).gate == High
    ensures var r := TryConnectWifi(DefaultConnectTimeoutMs, cfg, fs, s, wifi, buttons, mdnsOk, mac, apIp);
      r.ok && r.servers.statusServerActive && r.wait.passes <= k
  {
    EarlyConnectionWins(wifi, buttons, cfg, fs, k);
  }
}

=== FILE: led.dfy ===
/**
  The status LED (src/led.cpp): brightness scaling, driver backend choice,
  the 750 ms blink with its colour priority, and the factory-reset flash
  sequence. Pins, PWM channels and the NeoPixel library are abstracted to the
  value each backend is asked to show.
 */
module Led {
  import opened Hal

  /** Full-scale colour channels are scaled down to this brightness. */
  const LedOnBrightness: nat := 3

  /** `ledLoop` toggles the LED at most once per this many milliseconds. */
  const BlinkIntervalMs: nat := 750

  /**
    `scale`: a colour channel reduced to the LED's low brightness, computed in
    16-bit unsigned arithmetic (which cannot overflow: 255 * 3 < 65536) with
    truncating division.
   */
  function Scale(v: u8): (r: u8)
    ensures r <= LedOnBrightness
    ensures r * 255 <= v * LedOnBrightness < (r + 1) * 255
  {
    (v * LedOnBrightness) / 255
  }

  /** Brighter input never gives a dimmer output. */
  lemma ScaleMonotone(a: u8, b: u8)
    requires a <= b
    ensures Scale(a) <= Scale(b)
  {
  }

  /** The colours the firmware shows. */
  datatype Color = Off | Amber | Green

  /** The three ways `led.cpp` can drive the pin, in order of preference. */
  datatype Backend = NeoPixel | Pwm | DigitalPin

  /** Driver state set up by `ledInit`. */
  datatype Driver = Driver(neopixelAvailable: bool, neoPixelAllocated: bool, pwmAttached: bool)

  /** The branch every `ledSet*` routine takes: NeoPixel, else PWM, else a plain pin. */
  function SelectBackend(d: Driver): (b: Backend)
    ensures b == NeoPixel <==> d.neopixelAvailable && d.neoPixelAllocated
    ensures b == Pwm <==> !(d.neopixelAvailable && d.neoPixelAllocated) && d.pwmAttached
  {
    if d.neopixelAvailable && d.neoPixelAllocated then NeoPixel
    else if d.pwmAttached then Pwm
    else DigitalPin
  }

  /** `ledInit` allocates the NeoPixel and attaches PWM unconditionally. */
  function LedInit(): (d: Driver)
    ensures SelectBackend(d) == NeoPixel
  {
    Driver(true, true, true)
  }

  /** What a backend is asked to display. */
  datatype Output = Pixel(red: u8, green: u8, blue: u8) | Duty(duty: u8) | Pin(level: Level)

  /**
    `ledSetProvisioningColor` (amber), `ledSetStaColor` (green) and `ledSetOff`
    on a given backend.
   */
  function Drive(b: Backend, c: Color): (o: Output)
    // after scaling, a NeoPixel shows amber as (3, 2, 0) and green as (0, 3, 0)
    ensures b == NeoPixel ==> o == (match c case Amber => Pixel(3, 2, 0) case Green => Pixel(0, 3, 0) case Off => Pixel(0, 0, 0))
    // the other backends have one "on" value, the same for both colours
    ensures b == Pwm ==> o == (if c == Off then Duty(0) else Duty(LedOnBrightness))
    ensures b == DigitalPin ==> o == (if c == Off then Pin(Low) else Pin(High))
  {
    match b
    case NeoPixel =>
      (match c
       case Amber => Pixel(Scale(255), Scale(191), Scale(0))
       case Green => Pixel(Scale(0), Scale(255), Scale(0))
       case Off => Pixel(0, 0, 0))
    case Pwm => if c == Off then Duty(0) else Duty(LedOnBrightness)
    case DigitalPin => if c == Off then Pin(Low) else Pin(High)
  }

  /** Every backend distinguishes "on" from "off", and a NeoPixel tells amber from green. */
  lemma DriveDistinguishes(b: Backend, c: Color)
    ensures (Drive(b, c) == Drive(b, Off)) <==> c == Off
    ensures b == NeoPixel ==> Drive(b, Amber) != Drive(b, Green)
  {
  }

  /** One step of a visual sequence: show something, or hold for a while. */
  datatype LedEvent = Show(out: Output) | Hold(ms: nat)

  /**
    `ledFactoryResetVisual`, transcribed per backend: two on/off flashes
    (300 ms on, 200 ms off) followed by a steady "on".
   */
  function FactoryResetVisual(b: Backend): (r: seq<LedEvent>)
    ensures |r| == 9
    ensures r[0] == r[4] == Show(Drive(b, Amber)) && r[2] == r[6] == Show(Drive(b, Off))
    ensures r[1] == r[5] == Hold(300) && r[3] == r[7] == Hold(200)
    ensures r[8] == Show(Drive(b, Green))
  {
    match b
    case NeoPixel =>
      var amber := Pixel(Scale(255), Scale(191), Scale(0));
      var flash := [Show(amber), Hold(300), Show(Pixel(0, 0, 0)), Hold(200)];
      flash + flash + [Show(Pixel(Scale(0), Scale(255), Scale(0)))]
    case Pwm =>
      var flash := [Show(Duty(LedOnBrightness)), Hold(300), Show(Duty(0)), Hold(200)];
      flash + flash + [Show(Duty(LedOnBrightness))]
    case DigitalPin =>
      var flash := [Show(Pin(High)), Hold(300), Show(Pin(Low)), Hold(200)];
      flash + flash + [Show(Pin(High))]
  }

  /** The colour script the visual follows: amber, off, amber, off, solid green. */
  const ResetColorScript: seq<(Color, nat)> :=
    [(Amber, 300), (Off, 200), (Amber, 300), (Off, 200), (Green, 0)]

  /** A colour script played on a backend: each colour shown, then held (a zero hold is omitted). */
  function Play(b: Backend, script: seq<(Color, nat)>): seq<LedEvent>
    decreases |script|
  {
    if script == [] then []
    else
      var step := [Show(Drive(b, script[0].0))] + (if script[0].1 == 0 then [] else [Hold(script[0].1)]);
      step + Play(b, script[1..])
  }

  /** One flash on a backend: amber for 300 ms, then off for 200 ms. */
  function Flash(b: Backend): seq<LedEvent> {
    [Show(Drive(b, Amber)), Hold(300), Show(Drive(b, Off)), Hold(200)]
  }

  /** The reset visual on a backend, built from its colour routines: two flashes, then green. */
  function FlashSequence(b: Backend): seq<LedEvent> {
    Flash(b) + Flash(b) + [Show(Drive(b, Green))]
  }

  /** Each backend's transcription of the visual is that sequence. */
  lemma VisualIsFlashSequence(b: Backend)
    ensures FactoryResetVisual(b) == FlashSequence(b)
  {
  }

  /** One step of a script: its colour, its hold when non-zero, then the rest. */
  lemma PlayStep(b: Backend, c: Color, h: nat, rest: seq<(Color, nat)>)
    ensures Play(b, [(c, h)] + rest) == [Show(Drive(b, c))] + (if h == 0 then [] else [Hold(h)]) + Play(b, rest)
  {
    assert ([(c, h)] + rest)[1..] == rest;
  }

  /** An amber-then-off pair of script steps plays as one flash. */
  lemma PlayFlash(b: Backend, rest: seq<(Color, nat)>)
    ensures Play(b, [(Amber, 300), (Off, 200)] + rest) == Flash(b) + Play(b, rest)
  {
    PlayStep(b, Off, 200, rest);
    PlayStep(b, Amber, 300, [(Off, 200)] + rest);
    assert [(Amber, 300)] + ([(Off, 200)] + rest) == [(Amber, 300), (Off, 200)] + rest;
  }

  /** A lone green step with no hold plays as a single "on". */
  lemma PlayGreen(b: Backend)
    ensures Play(b, [(Green, 0)]) == [Show(Drive(b, Green))]
  {
    PlayStep(b, Green, 0, []);
    assert [(Green, 0)] == [(Green, 0)] + [];
  }

  /** Two flash pairs and a green step play as two flashes and green. */
  lemma PlayTwoFlashes(b: Backend, pair: seq<(Color, nat)>, green: seq<(Color, nat)>)
    requires pair == [(Amber, 300), (Off, 200)] && green == [(Green, 0)]
    ensures Play(b, pair + (pair + green)) == Flash(b) + (Flash(b) + [Show(Drive(b, Green))])
  {
    PlayGreen(b);
    PlayFlash(b, green);
    PlayFlash(b, pair + green);
  }

  /** Playing the colour script gives that sequence. */
  lemma ScriptIsFlashSequence(b: Backend)
    ensures Play(b, ResetColorScript) == FlashSequence(b)
  {
    var pair: seq<(Color, nat)> := [(Amber, 300), (Off, 200)];
    var green: seq<(Color, nat)> := [(Green, 0)];
    PlayTwoFlashes(b, pair, green);
    assert ResetColorScript == pair + (pair + green);
    var f := Flash(b);
    var g := [Show(Drive(b, Green))];
    assert f + (f + g) == f + f + g;
  }

  /**
    Whatever the backend, the reset visual is exactly two amber flashes
    followed by solid green, each shown through that backend's colour routine.
   */
  lemma FactoryResetVisualIsScript(b: Backend)
    ensures FactoryResetVisual(b) == Play(b, ResetColorScript)
    ensures |FactoryResetVisual(b)| == 9
    ensures FactoryResetVisual(b)[8] == Show(Drive(b, Green))
  {
    VisualIsFlashSequence(b);
    ScriptIsFlashSequence(b);
  }

  /** The blink state kept between `ledLoop` calls. */
  datatype BlinkState = BlinkState(lastMs: nat, stateOn: bool)

  /** The state `led.cpp` starts with. */
  const InitialBlink := BlinkState(0, false)

  /** The outcome of one `ledLoop` call: the new state and, if it acted, the colour shown. */
  datatype BlinkStep = BlinkStep(state: BlinkState, shown: Option<Color>)

  /** The colour an "on" phase shows: provisioning beats a station connection, which beats off. */
  function OnColor(provisioningActive: bool, wifiConnected: bool): Color {
    if provisioningActive then Amber else if wifiConnected then Green else Off
  }

  /**
    `ledLoop` at time `nowMs` (a monotone clock, so `lastMs <= nowMs`): nothing
    happens within 750 ms of the last toggle; otherwise the phase flips and the
    LED shows the priority colour when on and off when off.
   */
  function LedLoop(s: BlinkState, nowMs: nat, provisioningActive: bool, wifiConnected: bool): (r: BlinkStep)
    requires s.lastMs <= nowMs
    ensures nowMs - s.lastMs < BlinkIntervalMs ==> r.state == s && r.shown == None
    ensures nowMs - s.lastMs >= BlinkIntervalMs ==>
      && r.state == BlinkState(nowMs, !s.stateOn)
      && r.shown.Some?
      && (r.state.stateOn && provisioningActive ==> r.shown.value == Amber)
      && (r.state.stateOn && !provisioningActive && wifiConnected ==> r.shown.value == Green)
      && (!r.state.stateOn || (!provisioningActive && !wifiConnected) ==> r.shown.value == Off)
  {
    if nowMs - s.lastMs < BlinkIntervalMs then BlinkStep(s, None)
    else
      var on := !s.stateOn;
      BlinkStep(BlinkState(nowMs, on), Some(if on then OnColor(provisioningActive, wifiConnected) else Off))
  }

  /** Two successive toggles return the blink phase to where it was: the LED alternates. */
  lemma BlinkAlternates(s: BlinkState, t1: nat, t2: nat, p: bool, w: bool)
    requires s.lastMs + BlinkIntervalMs <= t1
    requires t1 + BlinkIntervalMs <= t2
    ensures LedLoop(LedLoop(s, t1, p, w).state, t2, p, w).state.stateOn == s.stateOn
    ensures LedLoop(s, t1, p, w).shown.Some? && LedLoop(LedLoop(s, t1, p, w).state, t2, p, w).shown.Some?
    ensures LedLoop(s, t1, p, w).shown.value == Off || LedLoop(LedLoop(s, t1, p, w).state, t2, p, w).shown.value == Off
  {
  }
}

=== FILE: littlefs_sync.dfy ===
/**
  The LittleFS image sync helper (scripts/check_littlefs_sync.py): the
  order-independent digest input built from the `data/` directory, the
  recorded-hash file format, and the exit-code logic of `main`.

  SHA-256 itself is a parameter (`digest`), applied to the whole byte stream
  the script feeds it; feeding a hash object in pieces and feeding it the
  concatenation give the same digest, so chunked reads are not modelled.
 */
module LittlefsSync {
  import opened Hal
  import opened Text

  /** The UTF-8 encoding of one Unicode scalar value. */
  function Utf8Char(c: char): (r: seq<u8>)
    ensures 1 <= |r| <= 4
    ensures (c as int) < 0x80 <==> |r| == 1
    ensures (c as int) < 0x80 ==> r[0] == c as int
    ensures (c as int) >= 0x80 ==> forall i :: 0 <= i < |r| ==> r[i] >= 0x80
  {
    var n := c as int;
    if n < 0x80 then [n]
    else if n < 0x800 then [0xC0 + n / 64, 0x80 + n % 64]
    else if n < 0x10000 then [0xE0 + n / 4096, 0x80 + (n / 64) % 64, 0x80 + n % 64]
    else [0xF0 + n / 262144, 0x80 + (n / 4096) % 64, 0x80 + (n / 64) % 64, 0x80 + n % 64]
  }

  /** `str.encode("utf-8")`. A string without NUL characters encodes without zero bytes. */
  function Utf8(s: string): (r: seq<u8>)
    ensures |r| >= |s|
    ensures (forall i :: 0 <= i < |s| ==> s[i] != '\0') ==> forall j :: 0 <= j < |r| ==> r[j] != 0
    decreases |s|
  {
    if s == [] then [] else Utf8Char(s[0]) + Utf8(s[1..])
  }

  /** Python's `<` on `str`: lexicographic by code point, a proper prefix first. */
  predicate LexLess(a: string, b: string)
    decreases |a|
  {
    if a == [] then b != []
    else if b == [] then false
    else if a[0] != b[0] then a[0] < b[0]
    else LexLess(a[1..], b[1..])
  }

  predicate LexLeq(a: string, b: string) {
    a == b || LexLess(a, b)
  }

  lemma {:induction false} LexLessIrreflexive(a: string)
    ensures !LexLess(a, a)
    decreases |a|
  {
    if a != [] {
      LexLessIrreflexive(a[1..]);
    }
  }

  /** Any two distinct strings are ordered one way. */
  lemma {:induction false} LexTotal(a: string, b: string)
    ensures a == b || LexLess(a, b) || LexLess(b, a)
    decreases |a|
  {
    if a != [] && b != [] && a[0] == b[0] {
      LexTotal(a[1..], b[1..]);
      if a[1..] == b[1..] {
        assert a == [a[0]] + a[1..] && b == [b[0]] + b[1..];
      }
    }
  }

  /** ... and never both ways. */
  lemma {:induction false} LexAntisymmetric(a: string, b: string)
    ensures !(LexLess(a, b) && LexLess(b, a))
    decreases |a|
  {
    if a != [] && b != [] && a[0] == b[0] {
      LexAntisymmetric(a[1..], b[1..]);
    }
  }

  lemma {:induction false} LexTransitive(a: string, b: string, c: string)
    requires LexLess(a, b) && LexLess(b, c)
    ensures LexLess(a, c)
    decreases |a|
  {
    if a != [] && a[0] == b[0] && b[0] == c[0] {
      LexTransitive(a[1..], b[1..], c[1..]);
    }
  }

  lemma LexLeqTransitive(a: string, b: string, c: string)
    requires LexLeq(a, b) && LexLeq(b, c)
    ensures LexLeq(a, c)
  {
    if a != b && b != c {
      LexTransitive(a, b, c);
    }
  }

  predicate Sorted(s: seq<string>) {
    forall i, j :: 0 <= i < j < |s| ==> LexLeq(s[i], s[j])
  }

  /** Insert one path into a sorted list. */
  function Insert(x: string, s: seq<string>): (r: seq<string>)
    requires Sorted(s)
    ensures Sorted(r)
    ensures multiset(r) == multiset(s) + multiset{x}
    decreases |s|
  {
    if s == [] then [x]
    else if LexLeq(x, s[0]) then
      forall j | 0 <= j < |s| ensures LexLeq(x, s[j]) {
        LexLeqTransitive(x, s[0], s[j]);
      }
      [x] + s
    else
      var rest := Insert(x, s[1..]);
      LexTotal(x, s[0]);
      assert s == [s[0]] + s[1..];
      forall y | y in multiset(rest) ensures LexLeq(s[0], y) {
        if y != x {
          var k :| 0 <= k < |s[1..]| && s[1..][k] == y;
          assert s[k + 1] == y;
        }
      }
      forall j | 0 <= j < |rest| ensures LexLeq(s[0], rest[j]) {
        assert rest[j] in multiset(rest);
      }
      [s[0]] + rest
  }

  /** `files.sort()`: a sorted permutation of the walked paths. */
  function SortPaths(s: seq<string>): (r: seq<string>)
    ensures Sorted(r)
    ensures multiset(r) == multiset(s)
    decreases |s|
  {
    if s == [] then []
    else
      assert s == [s[0]] + s[1..];
      Insert(s[0], SortPaths(s[1..]))
  }

  /** The head of a sorted list is at or below everything in it. */
  lemma SortedHeadIsLeast(a: seq<string>, x: string)
    requires Sorted(a) && x in multiset(a)
    ensures a != [] && LexLeq(a[0], x)
  {
    var k :| 0 <= k < |a| && a[k] == x;
    if k > 0 {
      assert LexLeq(a[0], a[k]);
    }
  }

  lemma TailMultiset(a: seq<string>)
    requires a != []
    ensures multiset(a[1..]) == multiset(a) - multiset{a[0]}
  {
    assert a == [a[0]] + a[1..];
  }

  /** Sorting has one answer: two sorted lists holding the same paths are the same list. */
  lemma {:induction false} SortedUnique(a: seq<string>, b: seq<string>)
    requires Sorted(a) && Sorted(b)
    requires multiset(a) == multiset(b)
    ensures a == b
    decreases |a|
  {
    if a == [] {
      assert |b| == |multiset(b)| == 0;
    } else {
      SortedHeadIsLeast(b, a[0]);
      SortedHeadIsLeast(a, b[0]);
      LexAntisymmetric(a[0], b[0]);
      TailMultiset(a);
      TailMultiset(b);
      SortedUnique(a[1..], b[1..]);
      assert a == [a[0]] + a[1..] && b == [b[0]] + b[1..];
    }
  }

  /** The `data/` tree: each file's path relative to it (POSIX separators) and its bytes. */
  type DataFiles = map<string, seq<u8>>

  /** A walk of the tree lists files that exist; `os.walk` meets this. */
  predicate WalkOf(files: DataFiles, walk: seq<string>) {
    forall i :: 0 <= i < |walk| ==> walk[i] in files
  }

  /** The bytes one file contributes: path, NUL, decimal size, NUL, contents, two NULs. */
  function Frame(path: string, contents: seq<u8>): seq<u8> {
    Utf8(path) + [0] + Utf8(DecimalString(|contents|)) + [0] + contents + [0, 0]
  }

  /** ASCII text encodes byte for byte. */
  lemma {:induction false} Utf8Ascii(s: string)
    requires forall i :: 0 <= i < |s| ==> (s[i] as int) < 0x80
    ensures |Utf8(s)| == |s|
    ensures forall i :: 0 <= i < |s| ==> Utf8(s)[i] == s[i] as int
    decreases |s|
  {
    if s != [] {
      Utf8Ascii(s[1..]);
      var r := Utf8(s);
      assert r == [s[0] as int] + Utf8(s[1..]);
      forall i | 0 < i < |s| ensures r[i] == s[i] as int {
        assert r[i] == Utf8(s[1..])[i - 1] && s[1..][i - 1] == s[i];
      }
    }
  }

  /** A decimal size encodes as its digits' ASCII codes, none of them zero. */
  lemma SizeBytes(n: nat)
    ensures var d := DecimalString(n);
      && |Utf8(d)| == |d|
      && (forall i :: 0 <= i < |d| ==> Utf8(d)[i] == d[i] as int)
      && (forall i :: 0 <= i < |d| ==> Utf8(d)[i] != 0)
  {
    var d := DecimalString(n);
    assert forall i :: 0 <= i < |d| ==> IsDigit(d[i]);
    Utf8Ascii(d);
  }

  /** A frame split after its path: the path field, then the size field and the contents. */
  lemma FrameSplits(path: string, c: seq<u8>)
    ensures Frame(path, c) == (Utf8(path) + [0]) + (Utf8(DecimalString(|c|)) + [0] + c + [0, 0])
  {
  }

  /** A zero-free field, a NUL, then the body and two NULs: the field and body can be read back. */
  lemma NulDelimited(d1: seq<u8>, c1: seq<u8>, d2: seq<u8>, c2: seq<u8>)
    requires forall i :: 0 <= i < |d1| ==> d1[i] != 0
    requires forall i :: 0 <= i < |d2| ==> d2[i] != 0
    requires d1 + [0] + c1 + [0, 0] == d2 + [0] + c2 + [0, 0]
    ensures d1 == d2 && c1 == c2
  {
    var b1, b2 := d1 + [0] + c1 + [0, 0], d2 + [0] + c2 + [0, 0];
    // at the shorter field's end, exactly the frame whose field ends there holds a NUL
    var k := if |d1| < |d2| then |d1| else |d2|;
    assert b1[k] == b2[k];
    assert (b1[k] == 0) == (k == |d1|);
    assert (b2[k] == 0) == (k == |d2|);
    assert |d1| == |d2|;
    assert d1 == b1[..|d1|] && d2 == b2[..|d2|];
    assert c1 == b1[|d1| + 1..|b1| - 2];
    assert c2 == b2[|d2| + 1..|b2| - 2];
  }

  /**
    The size field makes a frame self-delimiting: two frames for the same path
    are equal only when the contents are, so emptying or editing a file always
    changes the digest input.
   */
  lemma FrameDeterminesContents(path: string, c1: seq<u8>, c2: seq<u8>)
    requires Frame(path, c1) == Frame(path, c2)
    ensures c1 == c2
  {
    var a := Utf8(path) + [0];
    var d1, d2 := Utf8(DecimalString(|c1|)), Utf8(DecimalString(|c2|));
    var b1, b2 := d1 + [0] + c1 + [0, 0], d2 + [0] + c2 + [0, 0];
    FrameSplits(path, c1);
    FrameSplits(path, c2);
    assert b1 == (a + b1)[|a|..] && b2 == (a + b2)[|a|..];
    SizeBytes(|c1|);
    SizeBytes(|c2|);
    NulDelimited(d1, c1, d2, c2);
  }

  /** The frames of the listed files, in list order. */
  function Frames(files: DataFiles, paths: seq<string>): seq<u8>
    requires forall i :: 0 <= i < |paths| ==> paths[i] in files
    decreases |paths|
  {
    if paths == [] then [] else Frame(paths[0], files[paths[0]]) + Frames(files, paths[1..])
  }

  /** `compute_hash`: the digest of the frames of every walked file in sorted path order. */
  function ComputeHash(files: DataFiles, walk: seq<string>, digest: seq<u8> -> string): string
    requires WalkOf(files, walk)
  {
    var sorted := SortPaths(walk);
    assert forall i :: 0 <= i < |sorted| ==> sorted[i] in files by {
      forall i | 0 <= i < |sorted| ensures sorted[i] in files {
        assert sorted[i] in multiset(walk);
      }
    }
    digest(Frames(files, sorted))
  }

  /** The digest input does not depend on the order the walk visited the files in. */
  lemma WalkOrderIrrelevant(files: DataFiles, w1: seq<string>, w2: seq<string>, digest: seq<u8> -> string)
    requires WalkOf(files, w1) && WalkOf(files, w2)
    requires multiset(w1) == multiset(w2)
    ensures ComputeHash(files, w1, digest) == ComputeHash(files, w2, digest)
  {
    SortedUnique(SortPaths(w1), SortPaths(w2));
  }

  /** Python's `str.isspace`. */
  predicate IsPySpace(c: char) {
    c == ' ' || ('\t' <= c <= '\r') || ('\U{001C}' <= c <= '\U{001F}') || c == '\U{0085}' || c == '\U{00A0}'
    || c == '\U{1680}' || ('\U{2000}' <= c <= '\U{200A}') || c == '\U{2028}' || c == '\U{2029}'
    || c == '\U{202F}' || c == '\U{205F}' || c == '\U{3000}'
  }

  /** The characters `str.splitlines` breaks at; every one of them is also whitespace. */
  predicate IsLineBreak(c: char) {
    ('\n' <= c <= '\r') || ('\U{001C}' <= c <= '\U{001E}') || c == '\U{0085}' || c == '\U{2028}' || c == '\U{2029}'
  }

  lemma LineBreakIsSpace(c: char)
    ensures IsLineBreak(c) ==> IsPySpace(c)
  {
  }

  /** A string without whitespace at either end. */
  predicate Trimmed(s: string) {
    s == [] || (!IsPySpace(s[0]) && !IsPySpace(s[|s| - 1]))
  }

  predicate AllSpace(s: string) {
    forall i :: 0 <= i < |s| ==> IsPySpace(s[i])
  }

  /** `str.lstrip()`. */
  function StripLeft(s: string): (r: string)
    ensures |r| <= |s| && r == s[|s| - |r|..]
    ensures r == [] || !IsPySpace(r[0])
    ensures AllSpace(s[..|s| - |r|])
    decreases |s|
  {
    if s != [] && IsPySpace(s[0]) then StripLeft(s[1..]) else s
  }

  /** `str.rstrip()`. */
  function StripRight(s: string): (r: string)
    ensures |r| <= |s| && r == s[..|r|]
    ensures r != [] ==> r[0] == s[0]
    ensures r == [] || !IsPySpace(r[|r| - 1])
    ensures AllSpace(s[|r|..])
    decreases |s|
  {
    if s != [] && IsPySpace(s[|s| - 1]) then StripRight(s[..|s| - 1]) else s
  }

  /** `str.strip()`: the text between the leading and trailing whitespace. */
  function Strip(s: string): (r: string)
    ensures Trimmed(r)
    ensures |r| <= |s|
  {
    var l := StripLeft(s);
    var r := StripRight(l);
    StripRightKeepsFront(l, r);
    r
  }

  /** `s` is `r` with whitespace on either side. */
  predicate FramedBySpace(s: string, a: string, r: string, b: string) {
    s == a + r + b && AllSpace(a) && AllSpace(b)
  }

  /** What `Strip` keeps is the text with whitespace cut from both sides. */
  lemma StripFramedBySpace(s: string)
    ensures exists a, b :: FramedBySpace(s, a, Strip(s), b)
  {
    StripIsCuts(s);
    var a, b := CutsFrame(s);
    assert FramedBySpace(s, a, Strip(s), b);
  }

  /** `rstrip` after `lstrip` cuts whitespace from both ends. */
  lemma CutsFrame(s: string) returns (a: string, b: string)
    ensures FramedBySpace(s, a, StripRight(StripLeft(s)), b)
  {
    var l := StripLeft(s);
    var r := StripRight(l);
    FrameOfCuts(s, l, r);
    a, b := s[..|s| - |l|], l[|r|..];
  }

  /** `Strip` is `rstrip` after `lstrip`. */
  lemma StripIsCuts(s: string)
    ensures Strip(s) == StripRight(StripLeft(s))
  {
  }


  /** A right cut of a left cut, with whitespace cut off at both ends, is framed by that whitespace. */
  lemma FrameOfCuts(s: string, l: string, r: string)
    requires |l| <= |s| && l == s[|s| - |l|..] && AllSpace(s[..|s| - |l|])
    requires |r| <= |l| && r == l[..|r|] && AllSpace(l[|r|..])
    ensures FramedBySpace(s, s[..|s| - |l|], r, l[|r|..])
  {
    var a, b := s[..|s| - |l|], l[|r|..];
    assert l == r + b;
    assert s == a + l;
    assert s == a + r + b;
  }

  /** Cutting trailing space off text with a non-space front leaves it trimmed. */
  lemma StripRightKeepsFront(l: string, r: string)
    requires |r| <= |l|
    requires l == [] || !IsPySpace(l[0])
    requires r != [] ==> r[0] == l[0]
    requires r == [] || !IsPySpace(r[|r| - 1])
    ensures Trimmed(r)
  {
  }

  /** Text without whitespace at the ends is its own strip. */
  lemma StripTrimmed(s: string)
    requires Trimmed(s)
    ensures Strip(s) == s
  {
  }

  /** `text.splitlines()[0]` for text that does not start with a line break: everything before the first break. */
  function FirstLine(s: string): (r: string)
    ensures |r| <= |s| && r == s[..|r|]
    ensures forall i :: 0 <= i < |r| ==> !IsLineBreak(r[i])
    ensures |r| < |s| ==> IsLineBreak(s[|r|])
    decreases |s|
  {
    if s == [] || IsLineBreak(s[0]) then [] else [s[0]] + FirstLine(s[1..])
  }

  /** Text without line breaks, followed by a line break or nothing, is the first line. */
  lemma {:induction false} FirstLineStopsAtBreak(w: string, rest: string)
    requires forall i :: 0 <= i < |w| ==> !IsLineBreak(w[i])
    requires rest == [] || IsLineBreak(rest[0])
    ensures FirstLine(w + rest) == w
    decreases |w|
  {
    if w != [] {
      assert (w + rest)[1..] == w[1..] + rest;
      FirstLineStopsAtBreak(w[1..], rest);
      assert [w[0]] + w[1..] == w;
    } else {
      assert w + rest == rest;
    }
  }

  /** The recorded-hash file as `read_hash_file` finds it. */
  datatype HashFile = NoHashFile | Unreadable | HashText(text: string)

  /** `read_hash_file`: nothing for a missing, unreadable or blank file, else the first line, stripped. */
  function ReadHashFile(h: HashFile): (r: Option<string>)
    ensures !h.HashText? ==> r.None?
    ensures h.HashText? ==> (r.None? <==> Strip(h.text) == [])
    ensures r.Some? ==> r.value != [] && Trimmed(r.value)
    ensures r.Some? ==> forall i :: 0 <= i < |r.value| ==> !IsLineBreak(r.value[i])
  {
    match h
    case NoHashFile => None
    case Unreadable => None
    case HashText(text) =>
      var t := Strip(text);
      if t == [] then None
      else
        FirstLineOfTrimmed(t);
        Some(Strip(FirstLine(t)))
  }

  /** The first line of text that starts with a non-space character strips to a non-empty single line. */
  lemma FirstLineOfTrimmed(t: string)
    requires t != [] && Trimmed(t)
    ensures Strip(FirstLine(t)) != []
    ensures forall i :: 0 <= i < |Strip(FirstLine(t))| ==> !IsLineBreak(Strip(FirstLine(t))[i])
  {
    var line := FirstLine(t);
    LineBreakIsSpace(t[0]);
    assert line != [] && line[0] == t[0];
    assert StripLeft(line) == line;
    var v := StripRight(line);
    assert Strip(line) == v;
    assert AllSpace(line[|v|..]);
    assert !IsPySpace(line[0]);
    assert line[|v|..] == [] || line[|v|..][0] == line[|v|];
    forall i | 0 <= i < |v| ensures !IsLineBreak(v[i]) {
      assert v[i] == line[i];
    }
  }

  /**
    What `read_hash_file` returns is the first line holding anything but
    whitespace, stripped: the file is whitespace, then the value, then a rest
    whose own first line is whitespace only.
   */
  lemma ReadsStrippedFirstLine(h: HashFile)
    requires ReadHashFile(h).Some?
    ensures h.HashText?
    ensures exists a, b :: h.text == a + ReadHashFile(h).value + b && AllSpace(a) && AllSpace(FirstLine(b))
  {
    ReadHashFileCuts(h.text);
    var a, b := FirstLineFrame(h.text);
  }

  /** Any text is whitespace, its stripped first line, then a rest whose first line is whitespace. */
  lemma FirstLineFrame(text: string) returns (a: string, b: string)
    ensures text == a + StripRight(FirstLine(StripRight(StripLeft(text)))) + b
    ensures AllSpace(a) && AllSpace(FirstLine(b))
  {
    var l := StripLeft(text);
    var t := StripRight(l);
    var line := FirstLine(t);
    a, b := FirstLineWitness(text, l, t, line, StripRight(line));
  }

  /** `read_hash_file` on readable text, as the composition of its cuts. */
  lemma ReadHashFileCuts(text: string)
    requires ReadHashFile(HashText(text)).Some?
    ensures ReadHashFile(HashText(text)) == Some(StripRight(FirstLine(StripRight(StripLeft(text)))))
  {
    var t := Strip(text);
    assert t == StripRight(StripLeft(text));
    var line := FirstLine(t);
    LineBreakIsSpace(t[0]);
    assert StripLeft(line) == line;
  }

  /** The cuts `read_hash_file` makes, as slices of the file's text. */
  lemma FirstLineWitness(text: string, l: string, t: string, line: string, v: string) returns (a: string, b: string)
    requires |l| <= |text| && l == text[|text| - |l|..] && AllSpace(text[..|text| - |l|])
    requires |t| <= |l| && t == l[..|t|] && AllSpace(l[|t|..])
    requires |line| <= |t| && line == t[..|line|]
    requires forall i :: 0 <= i < |line| ==> !IsLineBreak(line[i])
    requires |line| < |t| ==> IsLineBreak(t[|line|])
    requires |v| <= |line| && v == line[..|v|] && AllSpace(line[|v|..])
    ensures text == a + v + b && AllSpace(a) && AllSpace(FirstLine(b))
  {
    FrameOfCuts(text, l, t);
    var e := l[|t|..];
    a := text[..|text| - |l|];
    LineFrame(t, line, v, e);
    b := line[|v|..] + t[|line|..] + e;
    Regroup(text, a, t, e, v, b);
  }

  /** Regrouping the two splits of the same text. */
  lemma Regroup(text: string, a: string, t: string, e: string, v: string, b: string)
    requires text == a + t + e && t + e == v + b
    ensures text == a + v + b
  {
    assert text == a + (t + e);
  }

  /**
    The stripped first line of trimmed text `t`, followed by trailing space
    `e`: what remains after it has a first line of whitespace only.
   */
  lemma LineFrame(t: string, line: string, v: string, e: string)
    requires |line| <= |t| && line == t[..|line|]
    requires forall i :: 0 <= i < |line| ==> !IsLineBreak(line[i])
    requires |line| < |t| ==> IsLineBreak(t[|line|])
    requires |v| <= |line| && v == line[..|v|] && AllSpace(line[|v|..])
    requires AllSpace(e)
    ensures var b := line[|v|..] + t[|line|..] + e;
      t + e == v + b && AllSpace(FirstLine(b))
  {
    CutsCompose(t, line, v, e);
    var w := line[|v|..];
    forall i | 0 <= i < |w| ensures !IsLineBreak(w[i]) {
      assert w[i] == line[|v| + i];
    }
    RestFirstLineIsSpace(w, t[|line|..], e);
  }

  /** Cutting `line` off the front of `t`, then `v` off the front of `line`. */
  lemma CutsCompose(t: string, line: string, v: string, e: string)
    requires |line| <= |t| && line == t[..|line|]
    requires |v| <= |line| && v == line[..|v|]
    ensures t + e == v + (line[|v|..] + t[|line|..] + e)
  {
    assert line == v + line[|v|..];
    assert t == line + t[|line|..];
  }

  /** Whitespace without breaks, then a break or nothing, then whitespace: its first line is whitespace. */
  lemma RestFirstLineIsSpace(w: string, c: string, e: string)
    requires AllSpace(w) && forall i :: 0 <= i < |w| ==> !IsLineBreak(w[i])
    requires c == [] || IsLineBreak(c[0])
    requires AllSpace(e)
    ensures AllSpace(FirstLine(w + c + e))
  {
    if c != [] {
      FirstLineStopsAtBreak(w, c + e);
      assert w + c + e == w + (c + e);
    } else {
      var b := w + e;
      assert w + c + e == b;
      assert AllSpace(b) by {
        forall i | 0 <= i < |b| ensures IsPySpace(b[i]) {
          if i < |w| { assert b[i] == w[i]; } else { assert b[i] == e[i - |w|]; }
        }
      }
      var f := FirstLine(b);
      forall i | 0 <= i < |f| ensures IsPySpace(f[i]) {
        assert f[i] == b[i];
      }
    }
  }

  /** `write_hash_file(value)`: the value and a newline. */
  function WriteHashFile(value: string): HashFile {
    HashText(value + "\n")
  }

  /** A value that survives the file format: non-empty, one line, no surrounding whitespace. */
  predicate Recordable(v: string) {
    v != [] && Trimmed(v) && forall i :: 0 <= i < |v| ==> !IsLineBreak(v[i])
  }

  /** Round trip: writing a recordable value and reading the file back yields the value. */
  lemma HashFileRoundTrip(v: string)
    requires Recordable(v)
    ensures ReadHashFile(WriteHashFile(v)) == Some(v)
  {
    var text := v + "\n";
    assert StripRight(text) == v by {
      assert text[..|text| - 1] == v;
    }
    assert StripLeft(text) == text;
    var line := FirstLine(v);
    assert line == v;
    StripTrimmed(v);
  }

  /** `hexdigest()` output: lower-case hexadecimal digits. */
  predicate IsHexDigest(s: string) {
    |s| == 64 && forall i :: 0 <= i < |s| ==> ('0' <= s[i] <= '9') || ('a' <= s[i] <= 'f')
  }

  lemma HexDigestIsRecordable(s: string)
    requires IsHexDigest(s)
    ensures Recordable(s)
  {
  }

  /** The command-line switches. */
  datatype Args = Args(update: bool, upload: bool)

  /** What `main` did: its exit code, the recorded-hash file afterwards, and whether it ran the upload. */
  datatype SyncOutcome = SyncOutcome(code: int, hashFile: HashFile, hashed: bool, uploaded: bool)

  /**
    `main`: without `data/`, 2 before any hashing; with `--update`, record the
    current hash and succeed whatever was recorded; in sync, 0; out of sync,
    the upload's exit code with `--upload`, else 3. `uploadCode` is what the
    upload command returns.
   */
  function SyncMain(
    args: Args, data: Option<(DataFiles, seq<string>)>, digest: seq<u8> -> string,
    hashFile: HashFile, uploadCode: int): (r: SyncOutcome)
    requires data.Some? ==> WalkOf(data.value.0, data.value.1)
    ensures data.None? ==> r == SyncOutcome(2, hashFile, false, false)
    ensures data.Some? ==> r.hashed
    ensures data.Some? && args.update ==>
      r.code == 0 && !r.uploaded && r.hashFile == WriteHashFile(ComputeHash(data.value.0, data.value.1, digest))
    ensures !args.update ==> r.hashFile == hashFile
    ensures data.Some? && !args.update ==>
      var inSync := ReadHashFile(hashFile) == Some(ComputeHash(data.value.0, data.value.1, digest));
      && (inSync ==> r.code == 0 && !r.uploaded)
      && (!inSync && args.upload ==> r.code == uploadCode && r.uploaded)
      && (!inSync && !args.upload ==> r.code == 3 && !r.uploaded)
  {
    match data
    case None => SyncOutcome(2, hashFile, false, false)
    case Some((files, walk)) =>
      var cur := ComputeHash(files, walk, digest);
      var onDisk := ReadHashFile(hashFile);
      if args.update then SyncOutcome(0, WriteHashFile(cur), true, false)
      else if onDisk == Some(cur) then SyncOutcome(0, hashFile, true, false)
      else if args.upload then SyncOutcome(uploadCode, hashFile, true, true)
      else SyncOutcome(3, hashFile, true, false)
  }

  /**
    Accepting the current state makes the tree in sync: after `--update`, a
    plain run over the same data exits 0 (for a digest that prints hex).
   */
  lemma UpdateThenCheckIsInSync(
    data: (DataFiles, seq<string>), digest: seq<u8> -> string, hashFile: HashFile, upload: bool, uploadCode: int)
    requires WalkOf(data.0, data.1)
    requires IsHexDigest(ComputeHash(data.0, data.1, digest))
    ensures var first := SyncMain(Args(true, upload), Some(data), digest, hashFile, uploadCode);
      var second := SyncMain(Args(false, upload), Some(data), digest, first.hashFile, uploadCode);
      second.code == 0 && !second.uploaded
  {
    var cur := ComputeHash(data.0, data.1, digest);
    HexDigestIsRecordable(cur);
    HashFileRoundTrip(cur);
  }
}

=== FILE: provisioning.dfy ===
/**
  The provisioning portal and the station-mode status server
  (src/provisioning.cpp): the AP name, starting the portal, the guarded loop
  functions, request routing, and each HTTP handler as a pure function from
  the request, the store and the radio to a reply plus the effects it causes.
 */
module Provisioning {
  import opened Hal
  import opened Text
  import opened ConfigStore
  import opened Effects
  import opened FactoryReset
  import opened ConnectWait

  const DnsPort: nat := 53
  const ApSsidPrefix := "ThermaBridge-"

  /** `macSuffixHex`: `%02X%02X` of the last two bytes of the station MAC. */
  function MacSuffixHex(mac: seq<u8>): (r: string)
    requires |mac| == 6
    ensures |r| == 4
    ensures forall i :: 0 <= i < 4 ==> IsHexDigitUpper(r[i])
    ensures 16 * HexValue(r[0]) + HexValue(r[1]) == mac[4]
    ensures 16 * HexValue(r[2]) + HexValue(r[3]) == mac[5]
  {
    Hex2(mac[4]) + Hex2(mac[5])
  }

  /** The suffix identifies the last two MAC bytes: distinct bytes give distinct suffixes. */
  lemma MacSuffixDeterminesBytes(m1: seq<u8>, m2: seq<u8>)
    requires |m1| == 6 && |m2| == 6
    ensures MacSuffixHex(m1) == MacSuffixHex(m2) <==> m1[4] == m2[4] && m1[5] == m2[5]
  {
  }

  /** The access point's network name. */
  function ApSsid(mac: seq<u8>): (r: string)
    requires |mac| == 6
    ensures |r| == 17
    ensures r[..13] == "ThermaBridge-" && r[13..] == MacSuffixHex(mac)
  {
    ApSsidPrefix + MacSuffixHex(mac)
  }

  /** The two module-level activity flags. */
  datatype Servers = Servers(provisioningActive: bool, statusServerActive: bool)

  const InitialServers := Servers(false, false)

  /** What a start routine leaves behind. */
  datatype Started = Started(servers: Servers, effects: seq<Effect>)

  /**
    `startProvisioning`: gives up silently if the filesystem does not mount;
    otherwise brings up the access point, the catch-all DNS responder and the
    portal, and only then marks provisioning active.
   */
  function StartProvisioning(s: Servers, fs: FileSystem, mac: seq<u8>, apIp: string): (r: Started)
    requires |mac| == 6
    ensures !fs.mounted ==> r.servers == s && r.effects == []
    ensures fs.mounted ==> r.servers == s.(provisioningActive := true)
    ensures fs.mounted ==> r.effects == [WifiModeAccessPoint, SoftAp(ApSsid(mac)), DnsStart(DnsPort, apIp), PortalBegin]
    ensures !Any(r.effects, IsStatusServerBegin) && !Any(r.effects, IsWifiBegin)
  {
    if !fs.mounted then Started(s, [])
    else Started(s.(provisioningActive := true),
                 [WifiModeAccessPoint, SoftAp(ApSsid(mac)), DnsStart(DnsPort, apIp), PortalBegin])
  }

  /** `startStatusServer`: registers the station-mode routes and marks the server active. */
  function StartStatusServer(s: Servers): (r: Started)
    ensures r.servers.statusServerActive && r.servers.provisioningActive == s.provisioningActive
    ensures Count(r.effects, IsStatusServerBegin) == 1 && !Any(r.effects, IsPortalBegin)
  {
    Started(s.(statusServerActive := true), [StatusServerBegin])
  }

  /** `loopProvisioning`: serves DNS and HTTP only while provisioning is active. */
  function LoopProvisioning(s: Servers): (r: seq<Effect>)
    ensures !s.provisioningActive <==> r == []
  {
    if !s.provisioningActive then [] else [DnsProcess, PortalHandleClient]
  }

  /** `loopStatusServer`: serves HTTP only while the status server is active. */
  function LoopStatusServer(s: Servers): (r: seq<Effect>)
    ensures !s.statusServerActive <==> r == []
  {
    if !s.statusServerActive then [] else [StatusHandleClient]
  }

  /** A portal that failed to mount stays inactive, so its loop does nothing. */
  lemma UnmountedPortalStaysIdle(fs: FileSystem, mac: seq<u8>, apIp: string)
    requires |mac| == 6
    requires !fs.mounted
    ensures var r := StartProvisioning(InitialServers, fs, mac, apIp);
      !r.servers.provisioningActive && LoopProvisioning(r.servers) == []
  {
  }

  datatype Method = Get | Post | OtherMethod

  datatype Request = Request(verb: Method, uri: string, args: map<string, string>)

  /** `server.arg(name)`: the argument's value, or the empty string when absent. */
  function Arg(req: Request, name: string): string {
    if name in req.args then req.args[name] else ""
  }

  datatype Reply = Reply(code: nat, contentType: string, body: string, location: Option<string>)

  /** `server.send(code, type, body)` without extra headers. */
  function Send(code: nat, contentType: string, body: string): Reply {
    Reply(code, contentType, body, None)
  }

  /** The effect of sending a reply. */
  function Sent(r: Reply): Effect {
    Respond(r.code, r.contentType, r.body)
  }

  /** `handleNotFound`: the captive-portal redirect to the access point's address. */
  function HandleNotFound(apIp: string): Reply {
    Reply(302, "text/plain", "", Some("http://" + apIp))
  }

  /** The URL a redirect names for the root page of the host at `ip`. */
  predicate RootOf(url: string, ip: string) {
    url == "http://" + ip || url == "http://" + ip + "/"
  }

  /** The acknowledgement page `/save` sends before trying the new network. */
  function SavedPage(ssid: string): (body: string)
    ensures Contains(body, ssid)
  {
    ContainsInfix("<html><body><h3>Saved. Attempting to connect to ", ssid,
                  " ...</h3><p>If successful, the device will reboot.</p></body></html>");
    "<html><body><h3>Saved. Attempting to connect to " + ssid
    + " ...</h3><p>If successful, the device will reboot.</p></body></html>"
  }

  /** What `handleSave` did: its reply, the effects in order, the store afterwards, and the wait if one ran. */
  datatype SaveHandled = SaveHandled(reply: Reply, effects: seq<Effect>, fs: FileSystem, wait: Option<WaitResult>)

  /**
    The record `handleSave` builds from the form. Its `reset_hold_seconds` is
    never initialised in the firmware; `junkHold` stands for whatever the stack
    held.
   */
  function FormConfig(req: Request, junkHold: u16): Config {
    ZeroConfig.(ssid := Arg(req, "ssid"), psk := Arg(req, "psk"), devname := Arg(req, "devname"),
                resetHoldSeconds := junkHold)
  }

  /**
    `handleSave`: 405 unless POST; 400 on an empty SSID (only length zero is
    refused); 500 if the save fails; otherwise reply 200 first, then switch to
    station mode, wait up to 15 s for the association (no reset check here)
    and restart if it succeeded.
   */
  function HandleSave(req: Request, fs: FileSystem, wifi: seq<WifiStatus>, junkHold: u16): (r: SaveHandled)
    ensures r.effects != [] && r.effects[0] == Sent(r.reply)
    ensures req.verb != Post ==> r.reply.code == 405 && r.fs == fs && |r.effects| == 1
    ensures req.verb == Post && Arg(req, "ssid") == "" ==> r.reply.code == 400 && r.fs == fs && |r.effects| == 1
    ensures r.reply.code == 500 <==>
      req.verb == Post && Arg(req, "ssid") != "" && !SaveConfig(fs, FormConfig(req, junkHold)).ok
    ensures r.reply.code == 500 ==> |r.effects| == 1
    ensures r.reply.code == 200 <==>
      req.verb == Post && Arg(req, "ssid") != "" && SaveConfig(fs, FormConfig(req, junkHold)).ok
    ensures r.reply.code == 200 ==>
      && r.reply.contentType == "text/html"
      && Contains(r.reply.body, Arg(req, "ssid"))
      && r.fs == SaveConfig(fs, FormConfig(req, junkHold)).fs
      && r.wait == Some(Wait(ConnectTimeoutMs, wifi, false, [], FormConfig(req, junkHold), r.fs))
      && |r.effects| >= 4
      && r.effects[1..4] == [WifiDisconnect, WifiModeStation, WifiBegin(Arg(req, "ssid"), Arg(req, "psk"))]
      && (ConnectedAfter(wifi, r.wait.value) <==> r.effects == r.effects[..4] + [Restart])
      && (!ConnectedAfter(wifi, r.wait.value) <==> |r.effects| == 4)
    ensures r.wait.None? <==> r.reply.code != 200
  {
    if req.verb != Post then
      var reply := Send(405, "text/plain", "Method Not Allowed");
      SaveHandled(reply, [Sent(reply)], fs, None)
    else
      var cfg := FormConfig(req, junkHold);
      if |cfg.ssid| == 0 then
        var reply := Send(400, "text/plain", "SSID required");
        SaveHandled(reply, [Sent(reply)], fs, None)
      else
        var saved := SaveConfig(fs, cfg);
        if !saved.ok then
          var reply := Send(500, "text/plain", "Failed to save config");
          SaveHandled(reply, [Sent(reply)], saved.fs, None)
        else
          var reply := Send(200, "text/html", SavedPage(cfg.ssid));
          var attempt := [Sent(reply), WifiDisconnect, WifiModeStation, WifiBegin(cfg.ssid, cfg.psk)];
          var w := Wait(ConnectTimeoutMs, wifi, false, [], cfg, saved.fs);
          SaveHandled(reply, attempt + (if ConnectedAfter(wifi, w) then [Restart] else []), saved.fs, Some(w))
  }

  /** The wait inside `/save` never involves the reset button and ends within the 15 s budget. */
  lemma SaveWaitIsBounded(req: Request, fs: FileSystem, wifi: seq<WifiStatus>, junkHold: u16)
    ensures var r := HandleSave(req, fs, wifi, junkHold);
      r.wait.Some? ==> r.wait.value.exit != ResetFired && r.wait.value.elapsedMs <= ConnectTimeoutMs
  {
    var r := HandleSave(req, fs, wifi, junkHold);
    if r.wait.Some? {
      WaitIsBounded(wifi, false, [], FormConfig(req, junkHold), SaveConfig(fs, FormConfig(req, junkHold)).fs);
    }
  }

  /**
    A non-empty SSID made only of spaces and tabs passes `/save` (only length
    zero is refused) and is persisted, yet the stored record still loads as
    "not configured".
   */
  lemma WhitespaceSsidSavedButUnusable(req: Request, fs: FileSystem, wifi: seq<WifiStatus>, junkHold: u16, prior: Config)
    requires req.verb == Post
    requires Arg(req, "ssid") != "" && AllWhitespace(Arg(req, "ssid"))
    requires fs.mounted && fs.writeOpenOk && fs.room != Some(0)
    ensures var r := HandleSave(req, fs, wifi, junkHold);
      r.reply.code == 200 && !LoadConfig(r.fs, prior).ok
  {
    var cfg := FormConfig(req, junkHold);
    assert IsBlank(cfg.ssid);
    SaveBlankThenLoadFails(fs, cfg, prior);
  }

  /** The fields the `/status` JSON reports. */
  datatype StatusReport = StatusReport(
    configured: bool, ssid: string, pskMasked: string, devname: string, wifiStatus: nat, ip: string)

  /**
    The report both `/status` handlers build (the portal's `handleStatus` and
    the station server's lambda share this code): load into a fresh record,
    mask the PSK, and show the address only when connected.
   */
  function StatusReportOf(fs: FileSystem, status: WifiStatus, localIp: string): (r: StatusReport)
    ensures r.configured == LoadConfig(fs, ZeroConfig).ok
    ensures !r.configured ==> r.ssid == "" && r.pskMasked == "" && r.devname == ""
    ensures r.configured ==>
      var c := LoadConfig(fs, ZeroConfig).cfg;
      && r.ssid == c.ssid && r.devname == c.devname
      && |r.pskMasked| == ByteLength(c.psk)
      && (forall i :: 0 <= i < |r.pskMasked| ==> r.pskMasked[i] == '*')
    ensures r.wifiStatus == status.Code()
    ensures r.ip != "" ==> status == Connected
    ensures status == Connected ==> r.ip == localIp
  {
    var l := LoadConfig(fs, ZeroConfig);
    var ip := if status == Connected then localIp else "";
    if l.ok then StatusReport(true, l.cfg.ssid, Mask(l.cfg.psk), l.cfg.devname, status.Code(), ip)
    else StatusReport(false, "", "", "", status.Code(), ip)
  }

  /** Whether loading succeeds does not depend on the record loaded into. */
  lemma LoadVerdictIgnoresPrior(fs: FileSystem, a: Config, b: Config)
    ensures LoadConfig(fs, a).ok == LoadConfig(fs, b).ok
  {
  }

  /**
    The JSON text of a report, fields in the firmware's order; strings are
    spliced in verbatim, so the SSID and the mask appear as they are.
   */
  function RenderStatus(rep: StatusReport): (r: string)
    ensures |r| > 15 && r[..15] == "{\"configured\":" + (if rep.configured then "t" else "f")
    ensures r[|r| - 1] == '}'
    ensures Contains(r, "\"ssid\":\"" + rep.ssid + "\"")
    ensures Contains(r, "\"psk_masked\":\"" + rep.pskMasked + "\"")
  {
    var head := "{\"configured\":" + (if rep.configured then "true" else "false") + ",";
    var ssid := "\"ssid\":\"" + rep.ssid + "\"";
    var psk := "\"psk_masked\":\"" + rep.pskMasked + "\"";
    var tail := ",\"devname\":\"" + rep.devname + "\","
      + "\"wifi_status\":" + DecimalString(rep.wifiStatus) + ","
      + "\"ip\":\"" + rep.ip + "\"" + "}";
    JoinedFields(head, ssid, psk, tail);
    head + ssid + "," + psk + tail
  }

  /** Two fields joined by a comma between a head and a tail: both are in the result, which keeps the head's start and the tail's end. */
  lemma JoinedFields(head: string, ssid: string, psk: string, tail: string)
    requires |head| >= 15 && tail != []
    ensures var r := head + ssid + "," + psk + tail;
      && Contains(r, ssid) && Contains(r, psk)
      && r[..15] == head[..15] && r[|r| - 1] == tail[|tail| - 1]
  {
    var r := head + ssid + "," + psk + tail;
    ContainsInfix(head, ssid, "," + psk + tail);
    assert head + ssid + ("," + psk + tail) == r;
    ContainsInfix(head + ssid + ",", psk, tail);
  }

  /** `/status` (either server): 200 with the rendered report of what loading into a fresh record finds. */
  function HandleStatus(fs: FileSystem, status: WifiStatus, localIp: string): (r: Reply)
    ensures r.code == 200 && r.contentType == "application/json"
    ensures r.body == RenderStatus(StatusReportOf(fs, status, localIp))
  {
    Send(200, "application/json", RenderStatus(StatusReportOf(fs, status, localIp)))
  }

  /**
    `/status` never reveals the PSK: two stores whose records agree on the
    SSID and device name and hold PSKs of the same byte length give the same body.
   */
  lemma StatusHidesPsk(fs1: FileSystem, fs2: FileSystem, status: WifiStatus, localIp: string)
    requires LoadConfig(fs1, ZeroConfig).ok == LoadConfig(fs2, ZeroConfig).ok
    requires var c1, c2 := LoadConfig(fs1, ZeroConfig).cfg, LoadConfig(fs2, ZeroConfig).cfg;
      c1.ssid == c2.ssid && c1.devname == c2.devname && ByteLength(c1.psk) == ByteLength(c2.psk)
    ensures HandleStatus(fs1, status, localIp) == HandleStatus(fs2, status, localIp)
  {
    var r1, r2 := StatusReportOf(fs1, status, localIp), StatusReportOf(fs2, status, localIp);
    MaskRevealsOnlyByteLength(LoadConfig(fs1, ZeroConfig).cfg.psk, LoadConfig(fs2, ZeroConfig).cfg.psk);
    assert r1.pskMasked == r2.pskMasked;
    assert r1 == r2;
  }

  /** With no record ever saved, `/status` reports "not configured" with every string field empty. */
  lemma StatusWithoutRecord(fs: FileSystem, status: WifiStatus, localIp: string)
    requires fs.config.None?
    requires status != Connected
    ensures HandleStatus(fs, status, localIp).body ==
      RenderStatus(StatusReport(false, "", "", "", status.Code(), ""))
  {
  }

  /**
    `sendConfigFile`: 404 when the file is absent, 500 when it cannot be
    opened, otherwise 200 with the file's exact text, unmasked.
   */
  function SendConfigFile(fs: FileSystem): (r: Reply)
    ensures r.code == 404 <==> !fs.mounted || fs.config.None?
    ensures r.code == 500 <==> fs.mounted && fs.config.Some? && !fs.readOpenOk
    ensures r.code == 200 <==> fs.mounted && fs.config.Some? && fs.readOpenOk
    ensures r.code == 200 ==> r.body == fs.config.value.text && r.contentType == "application/json"
  {
    if !fs.mounted || fs.config.None? then Send(404, "text/plain", "config.json not found")
    else if !fs.readOpenOk then Send(500, "text/plain", "failed to open config.json")
    else Send(200, "application/json", fs.config.value.text)
  }

  /**
    After a successful save, `/config` serves what was written: a non-empty
    prefix of the serialised record, all of it when it fitted, provided the
    file opens for reading.
   */
  lemma ConfigServesSavedText(fs: FileSystem, c: Config)
    requires SaveConfig(fs, c).ok
    ensures var r := SendConfigFile(SaveConfig(fs, c).fs);
      && (fs.readOpenOk ==> r.code == 200 && r.body != [] && r.body <= SerializeConfig(c))
      && (fs.readOpenOk && Fits(fs.room, SerializeConfig(c)) ==> r == Send(200, "application/json", SerializeConfig(c)))
      && (!fs.readOpenOk ==> r.code == 500)
  {
  }

  /** The handlers the portal registers in `startProvisioning`, and the fallback. */
  datatype PortalRoute =
    | PortalStatus | PortalStatic(file: string) | PortalSave | PortalConfig | PortalNotFound

  /** Route a request on the portal: each route answers one method only; anything else is "not found". */
  function PortalRouteOf(req: Request): (r: PortalRoute)
    ensures r == PortalSave ==> req.verb == Post
    ensures req.verb == Post && req.uri != "/save" ==> r == PortalNotFound
  {
    if req.verb == Get && req.uri == "/status" then PortalStatus
    else if req.verb == Get && req.uri == "/" then PortalStatic("/index.html")
    else if req.verb == Get && req.uri == "/app.js" then PortalStatic("/app.js")
    else if req.verb == Get && req.uri == "/style.css" then PortalStatic("/style.css")
    else if req.verb == Post && req.uri == "/save" then PortalSave
    else if req.verb == Get && (req.uri == "/config" || req.uri == "/config.json") then PortalConfig
    else PortalNotFound
  }

  /**
    Because `/save` is registered for POST only, a GET of `/save` is redirected
    by the captive-portal fallback and `handleSave`'s 405 branch is never reached
    through the portal.
   */
  lemma GetSaveIsRedirected(args: map<string, string>)
    ensures PortalRouteOf(Request(Get, "/save", args)) == PortalNotFound
  {
  }

  /**
    The captive portal's fallback: any request the portal has no route for is
    answered by a 302 whose target is the root of the access point, and a GET
    of that root is routed to the static `/index.html` handler.
   */
  lemma CaptiveRedirectLandsOnIndex(
    req: Request, fs: FileSystem, wifi: seq<WifiStatus>, status: WifiStatus,
    localIp: string, apIp: string, junkHold: u16)
    requires PortalRouteOf(req) == PortalNotFound
    ensures var p := ServePortal(req, fs, wifi, status, localIp, apIp, junkHold);
      && p.Some? && p.value.reply.code == 302 && p.value.reply.body == ""
      && p.value.reply.location.Some? && RootOf(p.value.reply.location.value, apIp)
      && p.value.fs == fs
    ensures PortalRouteOf(Request(Get, "/", req.args)) == PortalStatic("/index.html")
  {
  }

  /** What serving one portal request did. */
  datatype Served = Served(reply: Reply, effects: seq<Effect>, fs: FileSystem)

  /**
    One request on the portal, for every route but the static files (whose
    bytes live on the filesystem image and are not modelled).
   */
  function ServePortal(
    req: Request, fs: FileSystem, wifi: seq<WifiStatus>, status: WifiStatus,
    localIp: string, apIp: string, junkHold: u16): (r: Option<Served>)
    ensures r.None? <==> PortalRouteOf(req).PortalStatic?
    ensures PortalRouteOf(req) != PortalSave && r.Some? ==> r.value.fs == fs && r.value.effects == [Sent(r.value.reply)]
    ensures PortalRouteOf(req) == PortalNotFound ==> r.Some? && r.value.reply.code == 302
  {
    match PortalRouteOf(req)
    case PortalStatus =>
      var reply := HandleStatus(fs, status, localIp);
      Some(Served(reply, [Sent(reply)], fs))
    case PortalStatic(_) => None
    case PortalSave =>
      var h := HandleSave(req, fs, wifi, junkHold);
      Some(Served(h.reply, h.effects, h.fs))
    case PortalConfig =>
      var reply := SendConfigFile(fs);
      Some(Served(reply, [Sent(reply)], fs))
    case PortalNotFound =>
      var reply := HandleNotFound(apIp);
      Some(Served(reply, [Sent(reply)], fs))
  }

  /**
    A request that the portal's `server.handleClient()` finds waiting, with what
    its handler will see: the radio's samples and status, the two addresses, and
    the uninitialised hold `handleSave` saves.
   */
  datatype Pending = Pending(
    req: Request, wifi: seq<WifiStatus>, status: WifiStatus, localIp: string, apIp: string, junkHold: u16)

  /** What one `loopProvisioning` call did: its effects, the store afterwards, and whether `/save` restarted the device. */
  datatype PortalPass = PortalPass(effects: seq<Effect>, fs: FileSystem, restarted: bool)

  /** A pending POST `/save` whose save succeeds and whose wait ends connected: `handleSave` restarts the device. */
  predicate SaveRestarts(fs: FileSystem, p: Pending) {
    && PortalRouteOf(p.req) == PortalSave
    && var h := HandleSave(p.req, fs, p.wifi, p.junkHold);
       h.reply.code == 200 && ConnectedAfter(p.wifi, h.wait.value)
  }

  /** A served POST `/save`: the only portal request that touches the store. */
  predicate ServesSave(s: Servers, pending: Option<Pending>) {
    s.provisioningActive && pending.Some? && PortalRouteOf(pending.value.req) == PortalSave
  }

  /** The kinds of effect the portal's loop can have. */
  predicate PortalEffect(e: Effect) {
    e.DnsProcess? || e.PortalHandleClient? || e.Respond? || e.WifiDisconnect?
    || e.WifiModeStation? || e.WifiBegin? || e.Restart?
  }

  /**
    `loopProvisioning` with the request `handleClient` dispatches: nothing
    unless provisioning is active; otherwise the DNS and client calls, then the
    handler of the pending request, if any.
   */
  function ServeLoopProvisioning(s: Servers, fs: FileSystem, pending: Option<Pending>): (r: PortalPass)
    // the DNS and client calls come first, exactly when provisioning is active
    ensures |r.effects| >= |LoopProvisioning(s)| && r.effects[..|LoopProvisioning(s)|] == LoopProvisioning(s)
    ensures !s.provisioningActive || pending.None? ==> r == PortalPass(LoopProvisioning(s), fs, false)
    // the device restarts exactly when a served `/save` saved and saw the association
    ensures r.restarted <==> ServesSave(s, pending) && SaveRestarts(fs, pending.value)
    ensures r.restarted ==> r.effects != [] && r.effects[|r.effects| - 1] == Restart
    ensures !r.restarted ==> !Any(r.effects, IsRestart)
    // only a served `/save` touches the store, leaving it as `handleSave` does
    ensures ServesSave(s, pending) ==>
      r.fs == HandleSave(pending.value.req, fs, pending.value.wifi, pending.value.junkHold).fs
    ensures !ServesSave(s, pending) ==> r.fs == fs
    ensures forall k :: 0 <= k < |r.effects| ==> PortalEffect(r.effects[k])
  {
    var base := LoopProvisioning(s);
    if !s.provisioningActive || pending.None? then PortalPass(base, fs, false)
    else
      var p := pending.value;
      var sv := ServePortal(p.req, fs, p.wifi, p.status, p.localIp, p.apIp, p.junkHold);
      ServedPortalEffects(p, fs);
      if sv.None? then PortalPass(base, fs, false)
      else
        PortalConcat(base, sv.value.effects, SaveRestarts(fs, p));
        PortalPass(base + sv.value.effects, sv.value.fs, SaveRestarts(fs, p))
  }

  /** What serving one pending request contributes to the portal's loop. */
  lemma ServedPortalEffects(p: Pending, fs: FileSystem)
    ensures var sv := ServePortal(p.req, fs, p.wifi, p.status, p.localIp, p.apIp, p.junkHold);
      && (PortalRouteOf(p.req) == PortalSave ==>
            sv.Some? && sv.value.fs == HandleSave(p.req, fs, p.wifi, p.junkHold).fs)
      && (PortalRouteOf(p.req) != PortalSave && sv.Some? ==> sv.value.fs == fs)
      && (sv.None? ==> !SaveRestarts(fs, p))
      && (sv.Some? ==> PortalEffects(sv.value.effects, SaveRestarts(fs, p)))
  {
    if PortalRouteOf(p.req) == PortalSave {
      SaveRouteServes(p, fs);
      HandleSaveEffects(p.req, fs, p.wifi, p.junkHold);
    } else {
      OtherRouteEffects(p, fs);
    }
  }

  /** The portal hands `/save` to `handleSave`, whose reply, effects and store become its own. */
  lemma SaveRouteServes(p: Pending, fs: FileSystem)
    requires PortalRouteOf(p.req) == PortalSave
    ensures var h := HandleSave(p.req, fs, p.wifi, p.junkHold);
      ServePortal(p.req, fs, p.wifi, p.status, p.localIp, p.apIp, p.junkHold) == Some(Served(h.reply, h.effects, h.fs))
  {
  }

  /** Every route but `/save` answers with one reply, or none, and leaves the store alone. */
  lemma OtherRouteEffects(p: Pending, fs: FileSystem)
    requires PortalRouteOf(p.req) != PortalSave
    ensures var sv := ServePortal(p.req, fs, p.wifi, p.status, p.localIp, p.apIp, p.junkHold);
      && !SaveRestarts(fs, p)
      && (sv.Some? ==> sv.value.fs == fs && PortalEffects(sv.value.effects, false))
  {
    var sv := ServePortal(p.req, fs, p.wifi, p.status, p.localIp, p.apIp, p.junkHold);
    if sv.Some? {
      AttemptIsPortalWork(sv.value.effects, sv.value.reply, "", "", false);
    }
  }

  /**
    A log of portal effects that ends in a restart when `restarts` holds and
    holds no restart otherwise.
   */
  predicate PortalEffects(log: seq<Effect>, restarts: bool) {
    && (forall k :: 0 <= k < |log| ==> PortalEffect(log[k]))
    && (restarts ==> log != [] && log[|log| - 1] == Restart)
    && (!restarts ==> !Any(log, IsRestart))
  }

  /** The DNS and client calls followed by a served request keep that shape. */
  lemma PortalConcat(base: seq<Effect>, served: seq<Effect>, restarts: bool)
    requires base == [] || base == [DnsProcess, PortalHandleClient]
    requires PortalEffects(served, restarts)
    ensures PortalEffects(base + served, restarts)
  {
    AnyConcat(base, served, IsRestart);
    var log := base + served;
    forall k | 0 <= k < |log| ensures PortalEffect(log[k]) {
      if k >= |base| {
        assert log[k] == served[k - |base|];
      }
    }
  }

  /** Every effect of `handleSave` is a portal effect, and a restart is its last effect exactly when it restarts. */
  lemma HandleSaveEffects(req: Request, fs: FileSystem, wifi: seq<WifiStatus>, junkHold: u16)
    ensures var h := HandleSave(req, fs, wifi, junkHold);
      PortalEffects(h.effects, h.reply.code == 200 && ConnectedAfter(wifi, h.wait.value))
  {
    var h := HandleSave(req, fs, wifi, junkHold);
    if h.reply.code == 200 {
      AttemptIsPortalWork(h.effects, h.reply, Arg(req, "ssid"), Arg(req, "psk"), ConnectedAfter(wifi, h.wait.value));
    } else {
      assert |h.effects| == 1;
      AttemptIsPortalWork(h.effects, h.reply, "", "", false);
    }
  }

  /**
    The reply alone, or the reply and the connection attempt followed by a
    restart exactly when `connected`, is portal work.
   */
  lemma AttemptIsPortalWork(log: seq<Effect>, reply: Reply, ssid: string, psk: string, connected: bool)
    requires log != [] && log[0] == Sent(reply)
    requires |log| == 1 ==> !connected
    requires |log| != 1 ==>
      && |log| >= 4
      && log[1..4] == [WifiDisconnect, WifiModeStation, WifiBegin(ssid, psk)]
      && (connected <==> log == log[..4] + [Restart])
      && (!connected <==> |log| == 4)
    ensures PortalEffects(log, connected)
  {
    if |log| != 1 {
      assert log[1] == WifiDisconnect && log[2] == WifiModeStation && log[3] == WifiBegin(ssid, psk);
      if connected {
        assert log[4] == Restart;
      }
    }
  }

  /** The station-mode status server's routes (GET only); it has no fallback handler of its own. */
  datatype StationRoute = StationStatus | StationConfig | StationHealth | StationUnknown

  function StationRouteOf(req: Request): (r: StationRoute)
    ensures req.verb != Get ==> r == StationUnknown
  {
    if req.verb != Get then StationUnknown
    else if req.uri == "/status" then StationStatus
    else if req.uri == "/config" || req.uri == "/config.json" then StationConfig
    else if req.uri == "/health" then StationHealth
    else StationUnknown
  }

  /**
    One request on the station-mode status server, for `/status` and the two
    config routes; `/health` and the library's own reply to unregistered
    paths are not modelled (`None`).
   */
  function ServeStation(req: Request, fs: FileSystem, status: WifiStatus, localIp: string): (r: Option<Reply>)
    ensures r.Some? <==> StationRouteOf(req) == StationStatus || StationRouteOf(req) == StationConfig
    ensures r.Some? ==> req.verb == Get
  {
    match StationRouteOf(req)
    case StationStatus => Some(HandleStatus(fs, status, localIp))
    case StationConfig => Some(SendConfigFile(fs))
    case StationHealth => None
    case StationUnknown => None
  }

  /**
    Both servers share the `/status` and config code: whatever the station
    server answers, the portal answers the same request identically, and
    neither touches the store doing so.
   */
  lemma StationAgreesWithPortal(
    req: Request, fs: FileSystem, wifi: seq<WifiStatus>, status: WifiStatus,
    localIp: string, apIp: string, junkHold: u16)
    requires ServeStation(req, fs, status, localIp).Some?
    ensures var p := ServePortal(req, fs, wifi, status, localIp, apIp, junkHold);
      p.Some? && p.value.reply == ServeStation(req, fs, status, localIp).value && p.value.fs == fs
  {
    if StationRouteOf(req) == StationStatus {
      assert PortalRouteOf(req) == PortalStatus;
    } else {
      assert PortalRouteOf(req) == PortalConfig;
    }
  }
}

=== FILE: text.dfy ===
/**
  Text helpers used by several components: decimal rendering of counters
  (Arduino `String(n)` and Python `str(n)` on naturals), secret masking,
  Arduino's `isWhitespace`, `%02X` hex formatting and substring search.
 */
module Text {

  /** The ASCII digit for `d`. */
  function DigitChar(d: nat): (c: char)
    requires d < 10
    ensures '0' <= c <= '9'
    ensures (c as int) - ('0' as int) == d
  {
    "0123456789"[d]
  }

  predicate IsDigit(c: char) {
    '0' <= c <= '9'
  }

  predicate AllDigits(s: string) {
    forall i :: 0 <= i < |s| ==> IsDigit(s[i])
  }

  /** Decimal rendering of a natural number without leading zeros. */
  function DecimalString(n: nat): (r: string)
    ensures |r| >= 1
    ensures AllDigits(r)
    ensures |r| > 1 ==> r[0] != '0'
    decreases n
  {
    if n < 10 then [DigitChar(n)] else DecimalString(n / 10) + [DigitChar(n % 10)]
  }

  /** The value a string of decimal digits denotes: the inverse of `DecimalString`. */
  function DecimalValue(s: string): nat
    requires AllDigits(s)
    decreases |s|
  {
    if s == [] then 0
    else DecimalValue(s[..|s| - 1]) * 10 + ((s[|s| - 1] as int) - ('0' as int))
  }

  /** Rendering a number and reading it back yields the number. */
  lemma {:induction false} DecimalRoundTrip(n: nat)
    ensures DecimalValue(DecimalString(n)) == n
    decreases n
  {
    if n >= 10 {
      var prefix := DecimalString(n / 10);
      var r := prefix + [DigitChar(n % 10)];
      assert r[..|r| - 1] == prefix;
      DecimalRoundTrip(n / 10);
    }
  }

  /** Rendering is injective: distinct numbers never print alike. */
  lemma DecimalStringInjective(a: nat, b: nat)
    requires DecimalString(a) == DecimalString(b)
    ensures a == b
  {
    DecimalRoundTrip(a);
    DecimalRoundTrip(b);
  }

  /** The run of decimal digits at the front of `s`, and what follows it. */
  function SplitDigits(s: string): (r: (string, string))
    ensures r.0 + r.1 == s
    ensures AllDigits(r.0)
    ensures r.1 != [] ==> !IsDigit(r.1[0])
    decreases |s|
  {
    if s == [] || !IsDigit(s[0]) then ([], s)
    else
      var t := SplitDigits(s[1..]);
      var d := [s[0]] + t.0;
      assert d + t.1 == [s[0]] + s[1..] == s;
      forall i | 0 <= i < |d| ensures IsDigit(d[i]) {
        if i > 0 {
          assert d[i] == t.0[i - 1];
        }
      }
      (d, t.1)
  }

  /** Digits followed by something that does not start with a digit split back into the two parts. */
  lemma {:induction false} SplitDigitsOf(d: string, rest: string)
    requires AllDigits(d)
    requires rest != [] ==> !IsDigit(rest[0])
    ensures SplitDigits(d + rest) == (d, rest)
    decreases |d|
  {
    if d == [] {
      assert d + rest == rest;
    } else {
      assert (d + rest)[0] == d[0] && IsDigit(d[0]);
      assert (d + rest)[1..] == d[1..] + rest;
      SplitDigitsOf(d[1..], rest);
      assert [d[0]] + d[1..] == d;
    }
  }

  /** Arduino's `isWhitespace`, which is C's `isblank`: a space or a horizontal tab only. */
  predicate IsArduinoSpace(c: char) {
    c == ' ' || c == '\t'
  }

  /** The number of bytes one character takes in UTF-8, the encoding an Arduino `String` stores. */
  function Utf8Width(c: char): (w: nat)
    ensures 1 <= w <= 4
    ensures w == 1 <==> (c as int) < 0x80
  {
    var n := c as int;
    if n < 0x80 then 1 else if n < 0x800 then 2 else if n < 0x10000 then 3 else 4
  }

  /** `String::length()`: the number of bytes of the text, not of characters. */
  function ByteLength(s: string): (n: nat)
    ensures n >= |s|
    decreases |s|
  {
    if s == [] then 0 else Utf8Width(s[0]) + ByteLength(s[1..])
  }

  /** `n` asterisks. */
  function Stars(n: nat): (r: string)
    ensures |r| == n
    ensures forall i :: 0 <= i < |r| ==> r[i] == '*'
  {
    if n == 0 then [] else "*" + Stars(n - 1)
  }

  /**
    The secret with every byte replaced by `*`: the firmware's PSK mask, used
    both by the `/status` JSON and by the on-device configuration screen. A
    character outside ASCII takes several bytes, hence several asterisks.
   */
  function Mask(s: string): (r: string)
    ensures |r| == ByteLength(s)
    ensures forall i :: 0 <= i < |r| ==> r[i] == '*'
    decreases |s|
  {
    if s == [] then [] else Stars(Utf8Width(s[0])) + Mask(s[1..])
  }

  /** Two secrets mask alike exactly when they take the same number of bytes. */
  lemma MaskRevealsOnlyByteLength(a: string, b: string)
    ensures Mask(a) == Mask(b) <==> ByteLength(a) == ByteLength(b)
  {
    var ma, mb := Mask(a), Mask(b);
    if ByteLength(a) == ByteLength(b) {
      assert |ma| == |mb|;
      forall i | 0 <= i < |ma| ensures ma[i] == mb[i] {
      }
    }
  }

  /** An upper-case hexadecimal digit. */
  function HexDigitUpper(d: nat): (c: char)
    requires d < 16
    ensures IsHexDigitUpper(c)
  {
    "0123456789ABCDEF"[d]
  }

  predicate IsHexDigitUpper(c: char) {
    ('0' <= c <= '9') || ('A' <= c <= 'F')
  }

  /** The value of an upper-case hexadecimal digit: the inverse of `HexDigitUpper`. */
  function HexValue(c: char): (d: nat)
    requires IsHexDigitUpper(c)
    ensures d < 16
  {
    if '0' <= c <= '9' then (c as int) - ('0' as int) else (c as int) - ('A' as int) + 10
  }

  lemma HexDigitRoundTrip(d: nat)
    requires d < 16
    ensures HexValue(HexDigitUpper(d)) == d
  {
  }

  /** `printf("%02X", b)` for one byte: two upper-case hex digits, high nibble first. */
  function Hex2(b: nat): (r: string)
    requires b < 256
    ensures |r| == 2
    ensures IsHexDigitUpper(r[0]) && IsHexDigitUpper(r[1])
    ensures 16 * HexValue(r[0]) + HexValue(r[1]) == b
  {
    HexDigitRoundTrip(b / 16);
    HexDigitRoundTrip(b % 16);
    [HexDigitUpper(b / 16), HexDigitUpper(b % 16)]
  }

  /** `needle` occurs in `hay` at position `i`. */
  predicate OccursAt(hay: string, needle: string, i: nat) {
    i + |needle| <= |hay| && hay[i..i + |needle|] == needle
  }

  /** Plain substring containment, as C++ `String::indexOf` or Python `in` on strings. */
  predicate Contains(hay: string, needle: string) {
    exists i: nat | i <= |hay| :: OccursAt(hay, needle, i)
  }

  /** Containment survives putting any text before and after the haystack. */
  lemma ContainsWithin(prefix: string, hay: string, suffix: string, needle: string)
    requires Contains(hay, needle)
    ensures Contains(prefix + hay + suffix, needle)
  {
    var i: nat :| i <= |hay| && OccursAt(hay, needle, i);
    var big := prefix + hay + suffix;
    assert big[|prefix| + i..|prefix| + i + |needle|] == hay[i..i + |needle|];
    assert OccursAt(big, needle, |prefix| + i);
  }

  /** A string placed between any prefix and suffix is contained in the result. */
  lemma ContainsInfix(prefix: string, needle: string, suffix: string)
    ensures Contains(prefix + needle + suffix, needle)
  {
    var hay := prefix + needle + suffix;
    assert hay[|prefix|..|prefix| + |needle|] == needle;
    assert OccursAt(hay, needle, |prefix|);
  }
}

=== FILE: validate_config.dfy ===
/**
  The CI check scripts/validate_config.py: the build-info header must exist,
  be readable, and mention both version macros.
 */
module ValidateConfig {
  import opened Text

  const VersionMacro: string := "FW_VERSION"
  const BuildMacro: string := "FW_BUILD_NUMBER"

  /** `src/build_info.h` as the script finds it. */
  datatype Header = Absent | Unreadable | Content(text: string)

  /** The macros the header does not mention, in the order the script checks them. */
  function MissingMacros(text: string): (r: seq<string>)
    ensures |r| <= 2
    ensures VersionMacro in r <==> !Contains(text, VersionMacro)
    ensures BuildMacro in r <==> !Contains(text, BuildMacro)
    ensures forall i :: 0 <= i < |r| ==> r[i] == VersionMacro || r[i] == BuildMacro
    ensures |r| == 2 ==> r[0] == VersionMacro && r[1] == BuildMacro
  {
    (if Contains(text, VersionMacro) then [] else [VersionMacro])
    + (if Contains(text, BuildMacro) then [] else [BuildMacro])
  }

  /** `main`: 2 for a missing or unreadable header or a missing macro, else 0. */
  function ValidateMain(h: Header): (code: int)
    ensures code == 0 || code == 2
    ensures code == 0 <==> h.Content? && Contains(h.text, VersionMacro) && Contains(h.text, BuildMacro)
  {
    match h
    case Absent => 2
    case Unreadable => 2
    case Content(text) =>
      var missing := MissingMacros(text);
      if missing != [] then 2
      else
        assert VersionMacro !in missing && BuildMacro !in missing;
        0
  }

  /** A header that defines both macros, with anything around the definitions, passes. */
  lemma HeaderWithDefinesPasses(pre: string, version: string, build: string, post: string)
    ensures ValidateMain(Content(pre + "#define " + VersionMacro + " \"" + version + "\"\n#define "
                                  + BuildMacro + " " + build + "\n" + post)) == 0
  {
    var mid := " \"" + version + "\"\n#define " + BuildMacro + " " + build + "\n" + post;
    var text := pre + "#define " + VersionMacro + " \"" + version + "\"\n#define "
                + BuildMacro + " " + build + "\n" + post;
    assert text == (pre + "#define ") + VersionMacro + mid;
    ContainsInfix(pre + "#define ", VersionMacro, mid);
    var tail := " " + build + "\n" + post;
    var head := pre + "#define " + VersionMacro + " \"" + version + "\"\n#define ";
    assert text == head + BuildMacro + tail;
    ContainsInfix(head, BuildMacro, tail);
    assert Contains(text, VersionMacro) && Contains(text, BuildMacro);
  }

  /**
    The check is a plain substring search, not a parse: a header that only
    names the macros in a comment passes as well.
   */
  lemma CommentMentionPasses()
    ensures ValidateMain(Content("// " + VersionMacro + " " + BuildMacro)) == 0
  {
    var text := "// " + VersionMacro + " " + BuildMacro;
    assert text == "// " + VersionMacro + (" " + BuildMacro);
    ContainsInfix("// ", VersionMacro, " " + BuildMacro);
    assert text == ("// " + VersionMacro + " ") + BuildMacro + "";
    ContainsInfix("// " + VersionMacro + " ", BuildMacro, "");
    assert Contains(text, VersionMacro) && Contains(text, BuildMacro);
  }

  /**
    The verdict only looks for the two names: a header that passes still
    passes with anything written before or after it.
   */
  lemma PassingHeaderStaysPassing(pre: string, text: string, post: string)
    requires ValidateMain(Content(text)) == 0
    ensures ValidateMain(Content(pre + text + post)) == 0
    ensures MissingMacros(pre + text + post) == []
  {
    ContainsWithin(pre, text, post, VersionMacro);
    ContainsWithin(pre, text, post, BuildMacro);
  }
}
